=== FILE: README.md ===
# Frontend-Licenta client core in Dafny

This project models the client side of the Frontend-Licenta learning platform, a
Next.js application. It covers the parts that hold the logic:

- the authentication provider: the access-token cookie, the single-flight
  token refresh, the refresh timer, bootstrap, window focus, login and logout;
- the JWT helpers it uses;
- the `apiClient` request wrapper and the authentication calls built on it;
- the resend countdown hook;
- the form rules of the sign-up and sign-in forms;
- the recovery and email-verification pages;
- the paginator and the paging state of the friends screen;
- the daily-calendar page;
- the infinite-list helpers and create forms of the modules and lessons pages;
- the conversation dialog of the chat screen.

Everything is modelled as pure functions over immutable datatypes. The
provider's asynchronous code is modelled as one event at a time. An `await` is
split into the step that sends a request (a `Step` carries the requests sent)
and the step that consumes the server's answer. Refs and React state are
fields of one `State` value. The clock (`nowMs`) and every server answer are
parameters.

The provider's event dispatcher takes a choice of handlers. `AsWritten`
runs the mount, window-focus, refresh-answer, schedule-effect and
profile-401 handlers as the source has them. `Corrected` runs the repaired
handlers of the Findings below. The
single-flight and initialization invariants are proved for both. The
guarantee that a mount always initializes holds only for `Corrected`; for
`AsWritten` the model states exactly when it fails.

Modules, one per file:

- `Wrappers`: `Option` and `Result`.
- `Text`: the string helpers the pages use: ASCII whitespace, decimal digits, and string length in UTF-16 code units.
- `Jwt`: the decoded token, `secondsUntilExpire` and `getSubject`.
- `Session`: the authentication provider and its runs.
- `ApiClient`: the headers, credentials and response handling of `apiClient`.
- `AuthCalls`: the authentication endpoints.
- `Countdown`: `useCountdown`.
- `FormRules`: the sign-up and sign-in schemas and the password checklist.
- `RecoveryPage` and `EmailVerificationPage`.
- `Paginator` and `Friends`.
- `DailyPage`.
- `Catalog`: the shared list helpers of the modules and lessons pages.
- `ModulesPage`, `LessonsPage` and `Chat`.

## Model

| member | source | states |
|---|---|---|
| Jwt.Decode | src/help/jwtParsing.ts:4 | decoding succeeds exactly for a well-formed token and yields its `exp` and `sub` |
| Jwt.NowSeconds | src/help/jwtParsing.ts:5 | the floor of the millisecond clock in seconds: `r*1000 <= now < r*1000 + 1000` |
| Jwt.SecondsUntilExpire | src/help/jwtParsing.ts:3-7 | throws exactly on a malformed token; the result is 0 exactly when `now >= exp - skew`; a positive result is the gap, so `now + skew + r == exp` |
| Jwt.GetSubject | src/help/jwtParsing.ts:9-12 | throws exactly on a malformed token, and otherwise returns its subject |
| Jwt.SecondsUntilExpireAntitoneInSkew | src/help/jwtParsing.ts:6 | a larger skew never leaves more time |
| Jwt.SecondsUntilExpireAntitoneInTime | src/help/jwtParsing.ts:5-6 | the time left never grows as the clock advances |
| Session.ValidateToken | src/provider/AuthProvider.tsx:61-68 | true exactly for a decodable token whose expiry is still in the future; never throws |
| Session.ClearRefreshTimer | src/provider/AuthProvider.tsx:70-75 | no timer stays armed and nothing else changes |
| Session.ClearSession | src/provider/AuthProvider.tsx:126-129 | the shared `catch` ends logged out with no cookie and no timer, and keeps the flag, the initialization and the cached name |
| Session.SetAccessCookie | src/provider/AuthProvider.tsx:78-86 | fails exactly on a malformed token; otherwise stores that token with `maxAge` equal to its remaining seconds and logs in, changing nothing else |
| Session.UsernameFor | src/provider/AuthProvider.tsx:148 | a non-empty cached name wins; otherwise the token's subject, failing exactly when the token is malformed |
| Session.CallRefresh | src/provider/AuthProvider.tsx:111-118 | while a refresh is in flight, no request is sent, the call rejects and the caller's catch logs out; otherwise the flag is taken and exactly one refresh request goes out |
| Session.ScheduleDecision | src/provider/AuthProvider.tsx:90-101 | refreshes now exactly when less than the 120 s buffer is left; an armed delay is never under 30 s and is `available - 120` once that is at least 30 |
| Session.ImmediateGuardSimplifies | src/provider/AuthProvider.tsx:92-94 | the two-part guard of the immediate branch is equivalent to `timeAvailable < 120` alone |
| Session.ScheduleRefresh | src/provider/AuthProvider.tsx:88-109 | the old timer is always cancelled; a malformed token throws; a short token refreshes at once with no timer; otherwise exactly one timer is armed, for the token's subject and the decided delay, and no request is sent |
| Session.Release | src/provider/AuthProvider.tsx:131-133 | the `finally` lowers the in-flight flag and nothing else |
| Session.AfterThen | src/provider/AuthProvider.tsx:149-150 | a caller's `.then` only sets the login flag, and only for the callers that chain one |
| Session.CompleteRefreshAsWritten | src/provider/AuthProvider.tsx:111-134 | the refresh answer as written: the flag is released, and a rejected refresh logs out with the server's message |
| Session.CompleteRefresh | src/provider/AuthProvider.tsx:111-134 | the corrected answer handling: a rejection logs out; a good token is stored and the session stays logged in; a malformed one logs out; a follow-up request is sent exactly when the flag is up again |
| Session.ShortTokenRefreshDropsCookie | src/provider/AuthProvider.tsx:94-99 | as written, a refresh granting a token with under 120 s left ends with no cookie, and logged out unless the caller's `.then` logs back in |
| Session.ShortTokenRefreshKeepsSession | src/provider/AuthProvider.tsx:119-122 | with the correction, the same answer keeps the new cookie and the login, and sends one follow-up refresh |
| Session.CheckAuthStateAsWritten | src/provider/AuthProvider.tsx:136-161 | without a cookie, the bootstrap logs out and initializes without a request |
| Session.MalformedBootstrapStaysUninitialized | src/provider/AuthProvider.tsx:148 | as written, a malformed cookie with no cached name throws, so the provider never becomes initialized |
| Session.CheckAuthState | src/provider/AuthProvider.tsx:136-161 | every path ends initialized and without an error; no cookie logs out; a valid token logs in; an invalid one sends one refresh unless one is in flight; an undecodable one with no cached name logs out |
| Session.OnFocusAsWritten | src/provider/AuthProvider.tsx:195-223 | without a cookie, focusing the window logs out without a request |
| Session.MalformedFocusKeepsStaleCookie | src/provider/AuthProvider.tsx:203 | as written, a malformed cookie with no cached name throws before anything changes, so the stale cookie stays |
| Session.OnFocus | src/provider/AuthProvider.tsx:195-223 | no cookie, or an undecodable one, logs out; an expired token is refreshed unless one is in flight; a valid token refreshes exactly when under 90 s are left and no refresh is in flight; otherwise the state is unchanged |
| Session.OnTimerFired | src/provider/AuthProvider.tsx:102-108 | the armed timer refreshes with the subject captured when it was armed; with no timer armed, nothing happens |
| Session.ResumeSchedule | src/provider/AuthProvider.tsx:185-191 | the corrected schedule effect, re-run when the login state changes: a stored token is scheduled exactly when the session is logged in |
| Session.ResumeScheduleAsWritten | src/provider/AuthProvider.tsx:185-191 | the effect as written runs once at mount with the first render's `isLoggedIn` (false), so it changes nothing and sends nothing |
| Session.CompleteLogin | src/provider/AuthProvider.tsx:236-255 | a rejection or a malformed token leaves the session logged out and rethrows; a good token is stored, its subject is cached, and the session is logged in when no refresh is in flight |
| Session.RequestLogout | src/provider/AuthProvider.tsx:257-260 | logout only sends its request until the server answers |
| Session.CompleteLogout | src/provider/AuthProvider.tsx:257-280 | either answer signs out fully: no cookie, no timer, no cached name, no login; an error is rethrown exactly when the server rejected the logout |
| Session.OnProfileUnauthorized | src/provider/AuthProvider.tsx:167-182 | the corrected 401 effect: logs out through the server when the username is known, and otherwise clears the session locally |
| Session.OnProfileUnauthorizedAsWritten | src/provider/AuthProvider.tsx:168 | the effect as written: the client's error has no `status`, so the guard never holds and nothing changes |
| Session.OnApiUnauthorized | src/api/client.ts:77-79 | a 401 response deletes the cookie and touches nothing else |
| Session.LoadCachedUsername | src/provider/AuthProvider.tsx:231-234 | a non-empty stored name becomes the cached username; nothing else changes |
| Session.Apply | src/provider/AuthProvider.tsx:163-234 | dispatches one event to the handler the provider runs for it, with either the source's or the corrected mount, focus, refresh-answer, schedule-effect and profile-401 handlers; as written, the schedule effect and the profile 401 change nothing; an answer to a refresh never sent changes nothing; with the corrected handlers a mount always initializes and neither the mount nor a focus raises an error |
| Session.HandlersDifferOnlyThere | src/provider/AuthProvider.tsx:163-234 | the source's and the corrected handler sets agree on every event other than the mount, the window focus, the refresh answer, the schedule effect and the profile 401 |
| Session.ApplyKeepsSingleFlight | src/provider/AuthProvider.tsx:111-134 | for every event, with the source's handlers and with the corrected ones, the refresh requests sent and the answer consumed keep the outstanding refreshes equal to the in-flight flag |
| Session.BootstrapCounts | src/provider/AuthProvider.tsx:136-161 | the source's and the corrected bootstrap each send a refresh request exactly when they raise the flag |
| Session.FocusCounts | src/provider/AuthProvider.tsx:195-223 | the source's and the corrected focus handler each send a refresh request exactly when they raise the flag |
| Session.AnswerCounts | src/provider/AuthProvider.tsx:119-133 | a refresh answer, handled as written or corrected, consumes the outstanding request less any follow-up it sends, and an answer with nothing in flight changes nothing |
| Session.LoginCounts | src/provider/AuthProvider.tsx:236-255 | a login answer sends a refresh request exactly when it raises the flag |
| Session.ScheduleCountsAgainstFlag | src/provider/AuthProvider.tsx:94-100 | the scheduler sends a refresh request exactly when it raises the flag |
| Session.CompleteRefreshCounts | src/provider/AuthProvider.tsx:131-133 | completing a refresh consumes one outstanding request, less any follow-up it sends |
| Session.RunFrom | src/provider/AuthProvider.tsx:163-234 | a run of no events changes nothing, and a run consumes at most one refresh answer per event |
| Session.RunAppend | src/provider/AuthProvider.tsx:163-234 | running two event sequences one after the other is running their concatenation, with the counts added |
| Session.RunKeepsSingleFlight | src/provider/AuthProvider.tsx:111-134 | over any run of events, with either handler set, the refresh requests sent minus the answers consumed equals the flag |
| Session.AtMostOneOutstandingRefresh | src/provider/AuthProvider.tsx:113-117 | from the initial state, with either handler set, at most one refresh request is ever outstanding, and one is outstanding exactly while the flag is up |
| Session.ApplyKeepsInitialized | src/provider/AuthProvider.tsx:158-160 | once initialized, no event resets it, with the source's handlers or the corrected ones |
| Session.RunKeepsInitialized | src/provider/AuthProvider.tsx:158-160 | initialization persists over any run, with either handler set |
| Session.MountInitializes | src/provider/AuthProvider.tsx:163-165 | with the corrected bootstrap, every run that begins with the mount ends initialized |
| Session.MountInitializesAsWritten | src/provider/AuthProvider.tsx:136-165 | with the source's bootstrap, the mount initializes exactly when it does not throw (an undecodable cookie with no cached name) or the provider already was initialized, and a run that begins with such a mount ends initialized |
| Session.LoginArmsBufferedTimer | src/provider/AuthProvider.tsx:241-244 | a login token with V >= 150 s left is stored with `maxAge` V, logs in and arms one timer for V - 120 s |
| Session.ReloadArmsNoRefreshAsWritten | src/provider/AuthProvider.tsx:185-191 | as written, a reload with a valid cookie ends logged in with the cookie, no timer armed and no refresh sent |
| Session.ReloadSchedulesRefresh | src/provider/AuthProvider.tsx:185-191 | with the corrected effect the same reload schedules the token: a timer for its subject when two minutes are left, an immediate refresh otherwise |
| Session.ProfileUnauthorizedKeepsLoginAsWritten | src/provider/AuthProvider.tsx:167-182 | as written, a 401 from the profile query while logged in leaves the session logged in, with its timer and cached name, and only the cookie gone |
| Session.ProfileUnauthorizedLogsOut | src/provider/AuthProvider.tsx:167-182 | with the corrected effect the same 401 ends signed out after the server's logout answer, or logged out at once when the username is unknown |
| ApiClient.EffectiveToken | src/api/client.ts:19-22 | `skipToken` drops the cookie's token; otherwise the cookie is used as read |
| ApiClient.BuildHeaders | src/api/client.ts:26-34 | `Accept` is always present; a bearer header exactly when a token is sent or the caller sets one; JSON bodies always carry the JSON content type; custom headers override, except `Content-Type` on a JSON body; no other header appears |
| ApiClient.CredentialsFor | src/api/client.ts:44 | cookies are included exactly when `withCredentials` is set |
| ApiClient.BearerIffToken | src/api/client.ts:19-30 | without custom headers, an `Authorization: Bearer <token>` header is sent exactly when a non-empty token is sent |
| ApiClient.ReadData | src/api/client.ts:64-74 | a failed read gives the invalid-format message; a blank body gives null when ok and the empty-response message otherwise; otherwise the parsed JSON, or the invalid-format message |
| ApiClient.ErrorMessage | src/api/client.ts:80 | the thrown message is never empty: the body's `message`, else its `error`, else the generic text |
| ApiClient.Classify | src/api/client.ts:47-83 | a response throws exactly when it is not ok; exactly a 401 deletes the cookie; 204 and ok no-content responses give null; any other ok response gives its data |
| ApiClient.BlankErrorBody | src/api/client.ts:67-68 | a failed response with a blank body throws "Empty response" |
| ApiClient.UnparseableErrorBody | src/api/client.ts:72-73 | a failed response whose body cannot be read or parsed throws "Invalid response format" |
| ApiClient.UnparseableSuccessBody | src/api/client.ts:72-83 | an ok response with an unparseable body resolves to the invalid-format object instead of throwing |
| ApiClient.ServerMessageWins | src/api/client.ts:80 | a failed response's own `message` is what the caller sees |
| AuthCalls.SendVerification | src/api/auth/authCall.ts:17-22 | an empty email is rejected before any request; otherwise one POST with the email in the query |
| AuthCalls.VerifyEmail | src/api/auth/authCall.ts:24-31 | rejects an empty email first, then an empty token; otherwise one GET with both in the query |
| AuthCalls.LoginUser | src/api/auth/authCall.ts:33-36 | a POST with the credentials, cookies included, bearer token allowed |
| AuthCalls.RefreshTokenUser | src/api/auth/authCall.ts:38-41 | a POST with the username, cookies included, and the bearer token skipped |
| AuthCalls.LogoutUser | src/api/auth/authCall.ts:43-46 | a POST with the username, cookies included |
| AuthCalls.ForgotPasswordUser | src/api/auth/authCall.ts:48-52 | an empty email is rejected; otherwise one POST with the email in the query |
| AuthCalls.ResetPasswordUser | src/api/auth/authCall.ts:54-59 | rejects an empty email first, then an empty token; otherwise a POST with both in the query and the new password in the body |
| AuthCalls.RefreshSendsNoBearer | src/api/auth/authCall.ts:38-41 | whatever cookie is stored, a refresh request never carries an `Authorization` header |
| AuthCalls.LoginLogoutBearerIffCookie | src/api/auth/authCall.ts:33-46 | login and logout carry a bearer header exactly when a non-empty cookie is stored |
| AuthCalls.SessionCallsIncludeCredentials | src/api/auth/authCall.ts:33-46 | login, refresh and logout all send cookies |
| Countdown.Split | src/hooks/useCountdown.tsx:9-11 | hours, minutes and seconds recompose to the total, with minutes and seconds under 60 |
| Countdown.Pad2 | src/hooks/useCountdown.tsx:9-11 | a field is at least two digits that read back as the number, and exactly two below 100 |
| Countdown.Pad2IsPadStart | src/hooks/useCountdown.tsx:9-11 | the two-digit field is the decimal text padded on the left with `0` to width 2 |
| Countdown.Join | src/hooks/useCountdown.tsx:12 | joining three fields puts a colon three and six characters from the end |
| Countdown.FormatTime | src/hooks/useCountdown.tsx:8-13 | the text ends in `:mm:ss`, with separators at fixed places from the end |
| Countdown.FormatFields | src/hooks/useCountdown.tsx:12 | the joined fields have the same `h:mm:ss` shape |
| Countdown.Fields | src/hooks/useCountdown.tsx:12 | splitting a display at its last two colons gives two-character minute and second fields |
| Countdown.ParseTime | src/hooks/useCountdown.tsx:12 | a display parses only if it splits into fields |
| Countdown.FieldsOfJoined | src/hooks/useCountdown.tsx:12 | splitting a joined display gives back its three fields |
| Countdown.PaddedDigits | src/hooks/useCountdown.tsx:9-11 | zero-padding a number leaves digits that still read as that number |
| Countdown.FieldsRoundTrip | src/hooks/useCountdown.tsx:8-13 | parsing the display of any field triple gives back the seconds it stands for |
| Countdown.FormatParseRoundTrip | src/hooks/useCountdown.tsx:8-13 | the display of any number of seconds parses back to that number, so no two durations look alike |
| Countdown.Start | src/hooks/useCountdown.tsx:15-18 | a start sets the given seconds, clears readiness and runs |
| Countdown.Tick | src/hooks/useCountdown.tsx:20-28 | a tick counts down by one; at one or less it stops at 0 and becomes ready; a stopped clock does not change |
| Countdown.StartAndTickKeepConsistent | src/hooks/useCountdown.tsx:15-30 | a clock is never both running and ready, and ready only at 0 |
| Countdown.StoppedTicks | src/hooks/useCountdown.tsx:23 | a stopped clock stays as it is however many ticks pass |
| Countdown.CountdownAfterTicks | src/hooks/useCountdown.tsx:15-30 | n ticks after starting at k, the clock shows `max(k - n, 0)` and is ready exactly once n reaches `max(k, 1)` |
| FormRules.SpecialClassesAgree | src/components/Login.tsx:40 | the sign-in special class `[\W_]` matches exactly the sign-up class `[^A-Za-z0-9]` |
| FormRules.IndexOfAt | src/components/Register.tsx:35 | the first `@` of an address, or none exactly when it has none |
| FormRules.EmailShapeIffPattern | src/components/Register.tsx:35 | the split-at-the-first-`@` check holds exactly when the email pattern matches |
| FormRules.ShapeMatchesPattern | src/components/Register.tsx:35 | an email that passes the split-at-the-first-`@` check matches the pattern |
| FormRules.PatternHasShape | src/components/Register.tsx:35 | an email that matches the pattern passes the split-at-the-first-`@` check |
| FormRules.DomainOfSplit | src/components/Register.tsx:35 | whatever follows the `@` of a pattern match holds no `@` and no white space |
| FormRules.FirstAtIsAt | src/components/Register.tsx:35 | an `@` with none before it is the one found |
| FormRules.Requirements | src/components/Register.tsx:75-84 | each checklist flag holds exactly when its rule holds |
| FormRules.ChecklistMatchesRules | src/components/Register.tsx:38-47 | a fully met checklist is the password rule without the length cap, and the schema adds at most 100 UTF-16 code units |
| FormRules.LoginRuleNarrowsRegisterRule | src/components/Login.tsx:33-41 | a sign-in password is a sign-up password of at most 20 UTF-16 code units without whitespace |
| FormRules.EmailOk | src/components/Register.tsx:31-37 | the email rule of both forms: 4 to 50 UTF-16 code units, matching the pattern |
| FormRules.MatchesEmailPattern | src/components/Register.tsx:35 | `^[^\s@]+@[^\s@]+\.[^\s@]+$`: a non-empty local part, an `@`, and a domain with an inner `.`, none of them holding `@` or white space |
| FormRules.RegisterPasswordOk | src/components/Register.tsx:38-47 | 8 to 100 UTF-16 code units with an upper-case letter, a lower-case letter, a digit and a character outside `A-Za-z0-9` |
| FormRules.LoginPasswordOk | src/components/Login.tsx:33-41 | 8 to 20 UTF-16 code units with a lower-case letter, an upper-case letter, a digit, a character matching `[\W_]`, and no white space |
| FormRules.IsValidPassword | src/app/recovery/page.tsx:63-65 | `password.length >= 8` with an upper-case letter, a lower-case letter, a digit and a character outside `a-zA-Z0-9` |
| FormRules.SignUpValid | src/components/Register.tsx:27-53 | every field rule of the sign-up schema holds and the two passwords are equal |
| FormRules.SignInValid | src/components/Login.tsx:25-41 | the email and the password meet the sign-in schema |
| FormRules.Check | src/components/Register.tsx:27-53 | one issue is reported exactly when its rule fails |
| FormRules.UsernameIssues | src/components/Register.tsx:27-30 | a username has no issue exactly when it has 4 to 20 UTF-16 code units |
| FormRules.EmailIssues | src/components/Register.tsx:31-37 | an email has no issue exactly when it is 4 to 50 UTF-16 code units and matches the pattern |
| FormRules.PasswordLengthIssues | src/components/Register.tsx:40-41 | the password has no length issue exactly when it has 8 to 100 UTF-16 code units, and every issue is the password's |
| FormRules.AstralCharactersCountTwice | src/components/Register.tsx:40 | a six-character password holding two emoji has length 8 and passes every sign-up password rule |
| FormRules.PasswordLetterIssues | src/components/Register.tsx:42-43 | the password has no letter issue exactly when it has an upper- and a lower-case letter |
| FormRules.PasswordSymbolIssues | src/components/Register.tsx:44-47 | the password has no digit or special-character issue exactly when it has both |
| FormRules.PasswordIssues | src/components/Register.tsx:38-47 | a password has no issue exactly when every rule holds |
| FormRules.FieldIssues | src/components/Register.tsx:27-48 | the field checks report nothing exactly when the username, email and password rules all hold, and none of their issues is on the confirmation field |
| FormRules.SignUpIssues | src/components/Register.tsx:26-53 | the form is accepted exactly when no field has an issue; the mismatch is reported on confirmation exactly when the passwords differ |
| RecoveryPage.MessageOr | src/app/recovery/page.tsx:93 | the error's message when it has one, else the fallback |
| RecoveryPage.OnQuery | src/app/recovery/page.tsx:70-107 | a repeated query does nothing; no email and no token shows the forgot form; an email alone sends one reset mail and then shows the instructions or the error; both show the reset form; a token alone is an invalid URL |
| RecoveryPage.ViewDecisionTable | src/app/recovery/page.tsx:80-105 | a mail is sent exactly for an email without a token; the form shows exactly with both; the forgot view exactly with neither |
| RecoveryPage.EmptyQuerySkipIsHarmless | src/app/recovery/page.tsx:67-72 | on first render an empty query is skipped, and the initial view is already the forgot view |
| RecoveryPage.HandleResend | src/app/recovery/page.tsx:114-117 | a click sends one reset mail exactly when there is an email and the countdown has run out, and changes nothing on the page |
| RecoveryPage.ResendSettled | src/app/recovery/page.tsx:117-121 | once the resend has settled: success restarts the countdown; failure shows the server's message, or a fallback, and leaves the countdown as it was |
| RecoveryPage.HandleResetSubmit | src/app/recovery/page.tsx:124-137 | without a token nothing is sent and an error shows; otherwise one reset request, then success or the server's message |
| RecoveryPage.ResendLockedAfterSend | src/app/recovery/page.tsx:85-90 | right after the mail from the URL is sent, resend is locked |
| RecoveryPage.ResendLockedOnceSettled | src/app/recovery/page.tsx:114-121 | once a resend has settled, success locks the button and failure leaves it open; before it settles, a second click sends a second mail |
| EmailVerificationPage.OnQuery | src/app/register/instructions-email/page.tsx:29-59 | a repeated query, or one with no email, sends nothing; with a token one verification starts; without one a mail is sent and the countdown starts |
| EmailVerificationPage.OnVerified | src/app/register/instructions-email/page.tsx:43-48 | the final view is success or error by the server's answer, and nothing else changes |
| EmailVerificationPage.SendOutcomeIrrelevant | src/app/register/instructions-email/page.tsx:52-57 | the page ends the same way whether or not sending succeeded |
| EmailVerificationPage.HandleResend | src/app/register/instructions-email/page.tsx:61-65 | a click sends one verification mail exactly when there is an email and the countdown has run out, and changes nothing on the page |
| EmailVerificationPage.ResendSettled | src/app/register/instructions-email/page.tsx:66-70 | once the resend has settled, whatever the outcome, the countdown restarts and nothing else on the page changes |
| EmailVerificationPage.ResendLockedOnceSettled | src/app/register/instructions-email/page.tsx:61-70 | once a resend has settled, with either outcome, the button is locked; before it settles, a second click sends a second mail |
| EmailVerificationPage.VerificationRun | src/app/register/instructions-email/page.tsx:27-50 | a link leads through the verifying view to the answer's view; within one mount, re-running the effect with the same query does not verify again, but a fresh mount (a browser reload) verifies the same link again |
| Paginator.TotalPages | src/components/Paginator.tsx:45 | the page count is the ceiling of total over size: enough pages, and no empty last page |
| Paginator.TotalPagesIsCeiling | src/components/Paginator.tsx:45 | a page index is below the count exactly when that page starts inside the list |
| Paginator.PrevEnabled | src/components/Paginator.tsx:49 | Previous is enabled exactly off the first page |
| Paginator.NextEnabled | src/components/Paginator.tsx:57 | Next is enabled exactly while `page + 1 < totalPages` |
| Paginator.PrevPage | src/components/Paginator.tsx:49-50 | Previous goes exactly one page back |
| Paginator.NextPage | src/components/Paginator.tsx:56-58 | Next goes one page forward and stays within the pages |
| Paginator.ShownTotal | src/components/Paginator.tsx:54 | the label's page count is at least 1, and the real count when there are pages |
| Paginator.PageLabel | src/components/Paginator.tsx:53-55 | the label reads "Page p of n", and its two numbers read back as the page plus one and the shown count |
| Paginator.ListControlsLabel | src/components/Paginator.tsx:14-16 | the label reads "Showing page p, total t results", and its two numbers read back as the page plus one and the total |
| Paginator.ButtonsStayInRange | src/components/Paginator.tsx:48-58 | from a page in range, both enabled buttons lead to a page in range |
| Paginator.ButtonsMatchLabel | src/components/Paginator.tsx:49-57 | Next is enabled exactly when the label's page is below its count, Previous exactly when past page 1 |
| Friends.OnSizeChange | src/components/FriendsInterface.tsx:188-191 | a size change takes the new size and returns to the first page |
| Friends.OnDirectionChange | src/components/FriendsInterface.tsx:192-195 | a direction change takes the new direction and returns to the first page |
| Friends.OnPageChange | src/components/FriendsInterface.tsx:233-237 | a page change keeps the size and the direction |
| Friends.ResetPageExists | src/components/FriendsInterface.tsx:188-195 | after either change, the page shown exists whenever the list is not empty |
| Friends.KeepingThePageCouldOverrun | src/components/FriendsInterface.tsx:188-191 | without the reset, a larger page size can leave the page past the last one |
| Friends.OtherUser | src/components/FriendsInterface.tsx:200-203 | the card shows the receiver when I sent the request, the sender otherwise, each with their own image |
| Friends.PendingAvatar | src/components/FriendsInterface.tsx:262-264 | the pending avatar is the sender's image unless I am the sender |
| Friends.AvatarMatchesCard | src/components/FriendsInterface.tsx:200-264 | the pending avatar and the friend card always show the same person |
| Friends.ReceivedRequestShowsSender | src/components/FriendsInterface.tsx:262-264 | a request I received shows its sender |
| Friends.AnswerType | src/components/FriendsInterface.tsx:286 | Accept sends "ACCEPTED" and Reject sends "REJECTED" |
| Friends.Respond | src/components/FriendsInterface.tsx:284-299 | the answer names the request's id and the chosen type |
| Friends.AnswersDistinguishable | src/components/FriendsInterface.tsx:284-299 | the two buttons send different requests |
| DailyPage.QuoteFor | src/app/daily/page.tsx:167-170 | with quotes loaded, the day's quote is one of them; otherwise the placeholder |
| DailyPage.TipFor | src/app/daily/page.tsx:172-175 | with tips loaded, the day's tip is one of them; otherwise the placeholder |
| DailyPage.Entry | src/app/daily/page.tsx:163-182 | a day is available exactly up to today; an available day carries its quote and tip, a later one the coming-soon texts |
| DailyPage.GenerateCalendarData | src/app/daily/page.tsx:155-186 | builds exactly the month's calendar: one entry per day of the month, numbered from 1; available exactly up to today; available days cycle through the quotes and tips; later days show the coming-soon texts |
| DailyPage.ShouldGenerate | src/app/daily/page.tsx:150 | the effect generates exactly when both lists are loaded and the calendar is empty |
| DailyPage.Calendar | src/app/daily/page.tsx:155-186 | the month's calendar has one cell per day, cell i being day i + 1's entry |
| DailyPage.CalendarEffect | src/app/daily/page.tsx:149-153 | a run of the effect builds the calendar exactly when its guard holds and otherwise keeps the calendar it has |
| DailyPage.GeneratedOnce | src/app/daily/page.tsx:149-153 | once the effect has built a real month's calendar, no later run of it, whatever the lists, month or day, changes the calendar |
| DailyPage.GiftColor | src/app/daily/page.tsx:354 | the colour is one of the seven, and the first seven cells get distinct colours in order |
| DailyPage.SameColorIffWeeksApart | src/app/daily/page.tsx:49-57 | two cells share a colour exactly when they are a multiple of seven apart |
| DailyPage.HandleDateClick | src/app/daily/page.tsx:188-196 | a click without a quote or tip changes nothing; otherwise the modal opens on that day, not liked |
| DailyPage.ClickCell | src/app/daily/page.tsx:367 | only an available cell opens the modal, with its own quote and tip |
| DailyPage.Decompose | src/app/daily/page.tsx:137-139 | hours, minutes and seconds are in range and recompose to the whole seconds left, modulo one day |
| DailyPage.UpdateTimeLeft | src/app/daily/page.tsx:133-141 | a past target keeps the last value; otherwise the decomposed difference |
| DailyPage.WrapsPastOneDay | src/app/daily/page.tsx:137 | with a day or more left, the display shows less time than actually remains |
| DailyPage.HoursAsWrittenAgree | src/app/daily/page.tsx:137 | the floored real-division hours field equals the integer decomposition |
| DailyPage.MinutesAsWrittenAgree | src/app/daily/page.tsx:138 | the floored real-division minutes field equals the integer decomposition |
| DailyPage.SecondsAsWrittenAgree | src/app/daily/page.tsx:139 | the floored real-division seconds field equals the integer decomposition |
| Catalog.NextPageParam | src/app/modules/page.tsx:546-551 | a next page exists exactly when the last page is present, reported not last, and numbered; it is that number plus one |
| Catalog.NextPageParamUnguarded | src/app/daily/page.tsx:72 | the next page is number plus one exactly when the page is not the last |
| Catalog.GuardedAgreesWithUnguarded | src/app/lessons/page.tsx:525-530 | on a complete page, the guarded and unguarded forms agree |
| Catalog.FlatContent | src/app/modules/page.tsx:557 | an item is listed exactly when some loaded page holds it in its content; order and repeats are fixed by FlatContentOnePage and FlatContentAppend |
| Catalog.Flatten | src/app/modules/page.tsx:556-558 | no pages loaded gives an empty list; otherwise the items of the pages' contents |
| Catalog.FlatContentAppend | src/app/lessons/page.tsx:536-538 | loading more pages appends their items after the ones already listed |
| Catalog.FlatContentOnePage | src/app/modules/page.tsx:557 | a single page is listed as its content stands, in order and with its repeats; a page whose content is not an array adds nothing |
| Catalog.RepeatedPageListedTwice | src/app/modules/page.tsx:545-557 | a page fetched twice has its items listed twice, one copy after the other |
| Catalog.PagesIgnoringParam | src/app/modules/page.tsx:545 | with the page parameter dropped, every fetch holds the server's default page |
| Catalog.PagesByParam | src/app/modules/page.tsx:546-552 | with the page parameter passed, the fetches hold the server's pages in order, one each |
| Catalog.IgnoringParamShowsOnlyFirstPage | src/app/lessons/page.tsx:524 | however many pages are fetched, only the default page's items are ever listed |
| Catalog.IgnoringParamListsFirstPageTwice | src/app/daily/page.tsx:70 | two fetches of a two-page list show `[1, 1]` as written and `[1, 2]` with the parameter passed |
| Catalog.ByParamListsAPrefix | src/app/modules/page.tsx:546-557 | with the parameter passed, the list after any number of fetches is the start of the full list, with each page once |
| Catalog.Assignable | src/app/lessons/page.tsx:374 | an owned item is offered exactly when no assigned item has its key, and nothing else is offered |
| Catalog.AssignableKeepsOrder | src/app/lessons/page.tsx:374 | the offered items keep the order of the owned list |
| Catalog.AssignOneMore | src/app/modules/page.tsx:394-395 | assigning one more item is the same as filtering the previous offer by it |
| Catalog.AssignableTags | src/app/modules/page.tsx:394-395 | a tag is offered exactly when no assigned tag has its id, in the owned order |
| Catalog.AssignableLessons | src/app/modules/page.tsx:441-442 | a lesson is offered exactly when no assigned lesson has its id, in the owned order |
| Catalog.AssignableCategories | src/app/modules/page.tsx:489-490 | a category is offered exactly when no assigned category has its id, in the owned order |
| Catalog.AssignableContents | src/app/lessons/page.tsx:396 | a content item is offered exactly when no assigned item has its id, in the owned order |
| Catalog.NumberOf | src/app/lessons/page.tsx:627 | blank text reads as 0 |
| Catalog.NumberOfDigits | src/app/lessons/page.tsx:627 | a digit string reads as its decimal value |
| Catalog.NumberOfNegative | src/app/lessons/page.tsx:627 | a minus sign and digits read as the negated value |
| Catalog.NumberOfNatToString | src/app/lessons/page.tsx:628 | the text of a natural number reads back as that number |
| Catalog.NumberOrZero | src/app/lessons/page.tsx:639 | a number that does not read gives 0; otherwise its value |
| Text.Utf16Length | src/app/recovery/page.tsx:64 | `s.length`: between one and two code units per character, and exactly one per character when no character lies above U+FFFF |
| Text.Utf16LengthAppend | src/app/recovery/page.tsx:64 | the length of a concatenation is the sum of the lengths |
| Text.TrimsToEmpty | src/app/modules/page.tsx:672 | a text trims to nothing exactly when it is all whitespace |
| ModulesPage.ClickCreate | src/app/modules/page.tsx:667-672 | a click sends one create request with the form's fields exactly when the title is not blank, and leaves the form as it is |
| ModulesPage.CreateSettled | src/app/modules/page.tsx:604-617 | once the create has settled: success empties the form, whatever it holds by then, and restores PUBLIC; failure keeps it |
| ModulesPage.CreatedTitlesAreNotBlank | src/app/modules/page.tsx:672 | every module sent has a title with a non-space character |
| ModulesPage.CreateDisabledAfterSuccess | src/app/modules/page.tsx:607-609 | once a create has settled successfully the form is empty, whatever was typed while it was pending, and the next click sends nothing |
| ModulesPage.SecondClickWhilePendingSendsAgain | src/app/modules/page.tsx:667-672 | before the answer, a second click on the same titled form sends the same module again |
| LessonsPage.DurationInput | src/app/lessons/page.tsx:625-632 | a typed number above 60 becomes "60"; anything else is kept as typed |
| LessonsPage.SixtyReadsAsSixty | src/app/lessons/page.tsx:628 | the clamped text reads as 60 |
| LessonsPage.DurationInputBounded | src/app/lessons/page.tsx:625-632 | the field never holds a number above 60 |
| LessonsPage.DurationInputIdempotent | src/app/lessons/page.tsx:625-632 | clamping twice changes nothing more |
| LessonsPage.ClickCreate | src/app/lessons/page.tsx:636-641 | a click sends one create request exactly when the title is not blank, with the duration read as a number (0 when it does not read), and leaves the form as it is |
| LessonsPage.CreateSettled | src/app/lessons/page.tsx:572-584 | once the create has settled: success empties the form, whatever it holds by then; failure keeps it |
| LessonsPage.CreatedDurationAtMostSixty | src/app/lessons/page.tsx:625-641 | a lesson created through the duration field never asks for more than 60 minutes |
| LessonsPage.CreateDisabledAfterSuccess | src/app/lessons/page.tsx:575-577 | once a create has settled successfully the form is empty and the next click sends nothing; before the answer a second click sends the lesson again |
| LessonsPage.UpdateLesson | src/app/lessons/page.tsx:132-137 | an update keeps the lesson's id, title and description, and a missing duration becomes 0 |
| LessonsPage.EditDurationIsNotClamped | src/app/lessons/page.tsx:300-312 | a duration above 60 typed into the edit form is sent as typed, while the same text typed into the create form is never sent above 60 |
| Chat.Counterpart | src/components/ChatInterface.tsx:228-231 | the receiver is offered when I sent the request, the sender otherwise |
| Chat.CounterpartIsTheOtherSide | src/components/ChatInterface.tsx:228-231 | when I am on one side of a friendship, the other side is offered, never me |
| Chat.Without | src/components/ChatInterface.tsx:241 | removes every occurrence of the user and keeps every other member |
| Chat.Toggle | src/components/ChatInterface.tsx:237-242 | checking appends the user; unchecking removes it and keeps everyone else |
| Chat.Click | src/components/ChatInterface.tsx:236-242 | a click flips whether the user is selected and leaves every other user as they were |
| Chat.WithoutKeepsNoDuplicates | src/components/ChatInterface.tsx:241 | removing a user keeps a selection free of duplicates |
| Chat.ClickKeepsNoDuplicates | src/components/ChatInterface.tsx:236-242 | clicking never lists a friend twice |
| Chat.ClickTwiceRestores | src/components/ChatInterface.tsx:236-242 | checking and then unchecking a friend gives the selection back |
| Chat.WithoutAppended | src/components/ChatInterface.tsx:240-241 | removing a user that was just appended gives the list back |
| Chat.ClickCreate | src/components/ChatInterface.tsx:258-270 | a conversation is created exactly when friends are selected and my username is known; the members are the selection followed by me, and an empty name becomes "New Chat" |
| Chat.CreatedConversationMembers | src/components/ChatInterface.tsx:263-265 | a created conversation lists every selected friend and then me, and always has a name |
| Chat.ClickSend | src/components/ChatInterface.tsx:444 | a message is sent exactly when it is not blank, as typed |

## Left out

- Network, cookies and `localStorage` are not modelled as I/O. Requests are values a step returns, answers are parameters, and the cookie and the cached name are state fields.
- The inside of `jwtDecode` is not modelled. A token is either decodable, with its `exp` and `sub`, or malformed.
- Real timers and `Date` are not modelled. The clock reading, the day of the month and the number of days are parameters, and a timer is a value that fires as an event.
- React effect ordering, re-renders and stale closures are not modelled, except the schedule effect, whose single run at mount is the `AsWritten` handler Session.ResumeScheduleAsWritten. Every other handler runs on the current state.
- RecoveryPage.OnQuery and EmailVerificationPage.OnQuery: the URL mail's answer is applied in the same step as the query. The key is recorded before the `await`, so the same query is never processed twice; a different query arriving before the answer is not modelled.
- `await refetchMe()` is folded into the refresh and login completion steps. Its outcome does not affect the session state.
- Cookie expiry through `maxAge` is not modelled. The stored `maxAge` is recorded but never makes the cookie disappear.
- `clearRefreshTimer` checks a handle that `setTimeout` has already spent. The model treats the fired timer as gone.
- The query cache (react-query staleness, invalidation and retries) and toasts are left out. They do not change what is sent or shown in the modelled state.
- Whitespace is the ASCII set. JavaScript `trim` and `\s` also remove Unicode spaces.
- `URLSearchParams` encoding is not modelled. A query is its serialised key and its two decoded parameters.
- `message` and `error` fields of a JSON body are modelled as optional strings. Values of other JSON types are not.
- Catalog.NumberOf: handles blank text and decimal integers with an optional minus sign only. Decimals, exponents and hexadecimal, which `Number` also accepts, read as `NaN` in the model.
- Catalog.NextPageParam: JSON `null` for `last` or `number` is modelled as absent.
- Zod's own error texts (`min(4)` on the email without a message) are not modelled. Only which field has an issue is.
- The other pages of the application (feed, profiles, tags, categories, content, notifications, feedback, home, layout) are not part of this model.
- Paginator.TotalPages: requires `size > 0`. The offered sizes are 5, 10, 25 and 50. With size 0, JavaScript would give `Infinity` or `NaN`.
- Session.CompleteRefresh: when the server keeps answering with short tokens, the corrected completion sends a refresh after each one. The model does not bound that loop, just as the source does not.
- DailyPage.Decompose: uses integer division. The source divides in floating point. The `AsWritten` lemmas show the two agree on real numbers; IEEE rounding is not modelled.
- DailyPage.WrapsPastOneDay: the countdown's hours wrap at 24 when more than a day remains. The target is always the next noon, so this happens only between midnight and noon. It is stated, not corrected.
- Session.CompleteRefreshAsWritten: its contract states only the flag release and the rejection path. The short-token path is stated by Session.ShortTokenRefreshDropsCookie.
- Session.MountInitializes: is stated for the corrected bootstrap only. With the source's bootstrap the mount can leave the provider uninitialized; Session.MountInitializesAsWritten states exactly when.
- Session.CheckAuthStateAsWritten and Session.OnFocusAsWritten: their contracts state only the no-cookie path. The throwing path is stated by their lemmas, and the corrected functions carry the full contracts.

## Findings

| source | as written | input that shows it | evidently intended | confidence | as-written member | corrected member |
|---|---|---|---|---|---|---|
| src/provider/AuthProvider.tsx:168 | the 401 effect tests `'status' in meError`, but the profile query fails with `apiClient`'s plain `Error` (src/api/client.ts:80), which has no `status` | `profile/me` answers 401 while logged in | log out, as the effect's body does | not executed | Session.ProfileUnauthorizedKeepsLoginAsWritten | Session.ProfileUnauthorizedLogsOut |
| src/provider/AuthProvider.tsx:185-191 | the schedule effect depends only on two stable callbacks, so it runs once at mount while `isLoggedIn` is still `false`, and the bootstrap's valid-token path (145-146) does not schedule either | a reload with a valid, unexpired cookie | schedule the stored token once the session is logged in | not executed | Session.ReloadArmsNoRefreshAsWritten | Session.ReloadSchedulesRefresh |
| src/app/modules/page.tsx:545 | the infinite queries' `queryFn` drops `pageParam` (also src/app/lessons/page.tsx:524 and src/app/daily/page.tsx:70, 84), so each further fetch loads the default page again and its items are appended a second time | a two-page list whose first page holds `[1]`, scrolled once | fetch the page `getNextPageParam` names, so each page is listed once | not executed | Catalog.IgnoringParamListsFirstPageTwice | Catalog.ByParamListsAPrefix |
| src/provider/AuthProvider.tsx:119-122 | `refresh` schedules the new token while its in-flight flag is still set, so the immediate nested refresh is rejected and its catch deletes the new cookie | a refresh answered with a token that has under 120 seconds left | keep the new token and the session, and refresh again | not executed | Session.ShortTokenRefreshDropsCookie | Session.ShortTokenRefreshKeepsSession |
| src/provider/AuthProvider.tsx:148 | `getSubject` throws on an undecodable cookie before `isInitialized` is set | a malformed token in the cookie and no cached username at mount | end the bootstrap initialized and logged out | not executed | Session.MalformedBootstrapStaysUninitialized | Session.CheckAuthState |
| src/provider/AuthProvider.tsx:203 | `getSubject` throws on focus before the token is checked, so an undecodable cookie is never cleared | a malformed token in the cookie and no cached username when the window gains focus | clear the session as for an expired token | not executed | Session.MalformedFocusKeepsStaleCookie | Session.OnFocus |

=== FILE: api_client.dfy ===
/**
 * The pure parts of the REST client (`src/api/client.ts`): how the request
 * headers and credentials mode are built from the options, and how a
 * response is classified into a value or an error. The network round trip
 * is abstracted: a response is given as its status, two headers and the
 * outcome of reading and parsing its body.
 */
module ApiClient {
  import opened Wrappers
  import opened Text

  /** `ApiClientOptions` with its defaults applied. */
  datatype Options = Options(withCredentials: bool, skipToken: bool, customHeaders: map<string, string>)

  /** The options used when the caller passes none. */
  const DefaultOptions := Options(false, false, map[])

  /** The request body: absent, a plain object serialised as JSON, or `FormData`. */
  datatype Body = NoBody | JsonBody | FormDataBody

  /** The `credentials` mode handed to `fetch`. */
  datatype Credentials = Include | SameOrigin

  /** True iff the body is `FormData` (`body instanceof FormData`). */
  predicate IsFormData(body: Body) {
    body.FormDataBody?
  }

  /** The token actually used: the cookie, unless the caller skips it. */
  function EffectiveToken(cookie: Option<string>, skipToken: bool): (r: Option<string>)
    ensures skipToken ==> r.None?
    ensures !skipToken ==> r == cookie
  {
    if skipToken then None else cookie
  }

  /** A JavaScript string value used as a condition: absent and `""` are falsy. */
  predicate Truthy(t: Option<string>) {
    t.Some? && t.value != ""
  }

  /** True iff the request carries the client's own bearer header. */
  predicate SendsBearer(cookie: Option<string>, opts: Options) {
    Truthy(EffectiveToken(cookie, opts.skipToken))
  }

  /**
   * The header record: `Accept`, then the bearer header when a token is used,
   * then the caller's headers (which win on a clash), and finally the JSON
   * content type unless the body is `FormData`.
   */
  function BuildHeaders(cookie: Option<string>, body: Body, opts: Options): (r: map<string, string>)
    ensures "Accept" in r
    ensures "Accept" !in opts.customHeaders ==> r["Accept"] == "application/json"
    ensures "Authorization" in r <==> SendsBearer(cookie, opts) || "Authorization" in opts.customHeaders
    ensures SendsBearer(cookie, opts) && "Authorization" !in opts.customHeaders ==>
              r["Authorization"] == "Bearer " + cookie.value
    ensures !IsFormData(body) ==> "Content-Type" in r && r["Content-Type"] == "application/json"
    ensures IsFormData(body) ==> ("Content-Type" in r <==> "Content-Type" in opts.customHeaders)
    ensures forall k :: k in opts.customHeaders && (IsFormData(body) || k != "Content-Type") ==>
              k in r && r[k] == opts.customHeaders[k]
    ensures forall k :: k in r ==>
              k in opts.customHeaders || k == "Accept" || k == "Authorization" || k == "Content-Type"
  {
    var token := EffectiveToken(cookie, opts.skipToken);
    var base := map["Accept" := "application/json"];
    var withAuth := if Truthy(token) then base["Authorization" := "Bearer " + token.value] else base;
    var merged := withAuth + opts.customHeaders;
    if IsFormData(body) then merged else merged["Content-Type" := "application/json"]
  }

  /** `credentials: withCredentials ? "include" : "same-origin"`. */
  function CredentialsFor(opts: Options): (r: Credentials)
    ensures r == Include <==> opts.withCredentials
  {
    if opts.withCredentials then Include else SameOrigin
  }

  /** With no custom headers, the bearer header is present exactly when a token is used. */
  lemma BearerIffToken(cookie: Option<string>, body: Body, skipToken: bool, withCredentials: bool)
    ensures var h := BuildHeaders(cookie, body, Options(withCredentials, skipToken, map[]));
            ("Authorization" in h <==> !skipToken && Truthy(cookie))
            && (!skipToken && Truthy(cookie) ==> h["Authorization"] == "Bearer " + cookie.value)
  {
  }

  /** A parsed JSON body, reduced to the fields the client reads. */
  datatype Json = JNull | JObject(message: Option<string>, error: Option<string>) | JOther

  /** Reading the body: `res.text()` rejected, or the text and what `JSON.parse` makes of it. */
  datatype BodyRead = ReadFailed | Read(text: string, parsed: Option<Json>)

  /** A `fetch` response: its status, its length and type headers and its body. */
  datatype Response = Response(status: int, contentLength: Option<string>, contentType: Option<string>, body: BodyRead)

  /** `res.ok`. */
  predicate IsOk(status: int) {
    200 <= status <= 299
  }

  /** `header?.includes(sub)`: false when the header is missing. */
  predicate HeaderIncludes(h: Option<string>, sub: string) {
    h.Some? && Includes(h.value, sub)
  }

  /** The guard before the body is read: an announced empty body, or a type that is neither JSON nor text. */
  predicate NoContent(resp: Response) {
    resp.contentLength == Some("0")
    || (!HeaderIncludes(resp.contentType, "application/json") && !HeaderIncludes(resp.contentType, "text"))
  }

  /** The object the client substitutes for a body it cannot read or parse. */
  const InvalidFormat := JObject(Some("Invalid response format"), None)

  /** The object the client substitutes for an empty error body. */
  const EmptyResponse := JObject(Some("Empty response"), None)

  /** The `data` the client reads from the body. */
  function ReadData(resp: Response): (r: Json)
    ensures resp.body.ReadFailed? ==> r == InvalidFormat
    ensures resp.body.Read? && IsBlank(resp.body.text) ==> r == (if IsOk(resp.status) then JNull else EmptyResponse)
    ensures resp.body.Read? && !IsBlank(resp.body.text) ==>
              r == (if resp.body.parsed.Some? then resp.body.parsed.value else InvalidFormat)
  {
    TrimEmptyIffBlank(if resp.body.Read? then resp.body.text else "");
    match resp.body
    case ReadFailed => InvalidFormat
    case Read(text, parsed) =>
      if Trim(text) == "" then (if IsOk(resp.status) then JNull else EmptyResponse)
      else if parsed.Some? then parsed.value
      else InvalidFormat
  }

  /** `data?.message || data?.error || "Something went wrong"`. */
  function ErrorMessage(data: Json): (r: string)
    ensures r != ""
    ensures data.JObject? && Truthy(data.message) ==> r == data.message.value
    ensures data.JObject? && !Truthy(data.message) && Truthy(data.error) ==> r == data.error.value
    ensures !(data.JObject? && (Truthy(data.message) || Truthy(data.error))) ==> r == "Something went wrong"
  {
    if data.JObject? && Truthy(data.message) then data.message.value
    else if data.JObject? && Truthy(data.error) then data.error.value
    else "Something went wrong"
  }

  /** What `apiClient` resolves to or throws. */
  datatype Outcome = Value(data: Json) | Thrown(message: string)

  /** The outcome, and whether the token cookie was deleted on the way. */
  datatype Classified = Classified(outcome: Outcome, deletesCookie: bool)

  /** Classifies a response as `apiClient` does after `fetch` returns. */
  function Classify(resp: Response): (r: Classified)
    ensures r.outcome.Thrown? <==> !IsOk(resp.status)
    ensures r.deletesCookie <==> resp.status == 401
    ensures resp.status == 204 ==> r.outcome == Value(JNull)
    ensures IsOk(resp.status) && NoContent(resp) ==> r.outcome == Value(JNull)
    ensures IsOk(resp.status) && resp.status != 204 && !NoContent(resp) ==> r.outcome == Value(ReadData(resp))
    ensures !IsOk(resp.status) ==> r.outcome == Thrown(ErrorMessage(ReadData(resp)))
  {
    if resp.status == 204 then Classified(Value(JNull), false)
    else if NoContent(resp) && IsOk(resp.status) then Classified(Value(JNull), false)
    else
      var data := ReadData(resp);
      if !IsOk(resp.status) then Classified(Thrown(ErrorMessage(data)), resp.status == 401)
      else Classified(Value(data), false)
  }

  /** An error response with a blank body throws "Empty response", whatever its headers say. */
  lemma BlankErrorBody(resp: Response)
    requires !IsOk(resp.status) && resp.body.Read? && IsBlank(resp.body.text)
    ensures Classify(resp).outcome == Thrown("Empty response")
  {
  }

  /** An error response whose body is not JSON throws "Invalid response format". */
  lemma UnparseableErrorBody(resp: Response)
    requires !IsOk(resp.status)
    requires resp.body.ReadFailed? || (!IsBlank(resp.body.text) && resp.body.parsed.None?)
    ensures Classify(resp).outcome == Thrown("Invalid response format")
  {
  }

  /**
   * A successful response announced as JSON or text but not parseable
   * resolves, without throwing, to the substitute object.
   */
  lemma UnparseableSuccessBody(resp: Response)
    requires IsOk(resp.status) && resp.status != 204 && !NoContent(resp)
    requires resp.body.ReadFailed? || (!IsBlank(resp.body.text) && resp.body.parsed.None?)
    ensures Classify(resp).outcome == Value(InvalidFormat)
  {
  }

  /** On an error response, the server's `message` wins over its `error`. */
  lemma ServerMessageWins(resp: Response, message: string, error: Option<string>)
    requires !IsOk(resp.status) && message != ""
    requires resp.body.Read? && !IsBlank(resp.body.text) && resp.body.parsed == Some(JObject(Some(message), error))
    ensures Classify(resp).outcome == Thrown(message)
  {
  }
}

=== FILE: auth_calls.dfy ===
/**
 * The authentication endpoints (`src/api/auth/authCall.ts`): the argument
 * guards each call checks before any request, and the request each call
 * hands to the client. Query parameters are kept as name/value pairs;
 * their URL encoding is not modelled.
 */
module AuthCalls {
  import opened Wrappers
  import opened ApiClient

  datatype Method = Get | Post

  /** A JSON body, as the named string fields it carries. */
  datatype Payload = NoPayload | Fields(fields: seq<(string, string)>)

  /** The request a call hands to `apiClient`. */
  datatype Call = Call(path: string, query: seq<(string, string)>, verb: Method, payload: Payload, opts: Options)

  /** The options `{withCredentials: true}`. */
  const WithCredentials := Options(true, false, map[])

  /** `sendVerification`: needs an email; the email goes in the query. */
  function SendVerification(email: string): (r: Result<Call, string>)
    ensures r.Failure? <==> email == ""
    ensures r.Failure? ==> r.error == "Email is required"
    ensures r.Success? ==> r.value.query == [("email", email)] && r.value.verb == Post
                           && r.value.payload == NoPayload && r.value.opts == DefaultOptions
  {
    if email == "" then Failure("Email is required")
    else Success(Call("auth/send-verification", [("email", email)], Post, NoPayload, DefaultOptions))
  }

  /** `verifyEmail`: checks the email first, then the token; sent as a GET. */
  function VerifyEmail(email: string, token: string): (r: Result<Call, string>)
    ensures r.Failure? <==> email == "" || token == ""
    ensures email == "" ==> r == Failure("email is required")
    ensures email != "" && token == "" ==> r == Failure("token is required")
    ensures r.Success? ==> r.value.query == [("email", email), ("token", token)] && r.value.verb == Get
                           && r.value.opts == DefaultOptions
  {
    if email == "" then Failure("email is required")
    else if token == "" then Failure("token is required")
    else Success(Call("auth/verify-email", [("email", email), ("token", token)], Get, NoPayload, DefaultOptions))
  }

  /** `loginUser`: the credentials in the body, cookies included. */
  function LoginUser(email: string, password: string): (r: Call)
    ensures r.verb == Post && r.opts.withCredentials && !r.opts.skipToken
    ensures r.payload == Fields([("email", email), ("password", password)])
  {
    Call("auth/login", [], Post, Fields([("email", email), ("password", password)]), WithCredentials)
  }

  /** `refreshTokenUser`: cookies included and the bearer token skipped. */
  function RefreshTokenUser(username: string): (r: Call)
    ensures r.verb == Post && r.opts.withCredentials && r.opts.skipToken && r.opts.customHeaders == map[]
    ensures r.payload == Fields([("username", username)])
  {
    Call("auth/refresh", [], Post, Fields([("username", username)]), Options(true, true, map[]))
  }

  /** `logoutUser`: the username in the body, cookies included. */
  function LogoutUser(username: string): (r: Call)
    ensures r.verb == Post && r.opts.withCredentials && !r.opts.skipToken
    ensures r.payload == Fields([("username", username)])
  {
    Call("auth/logout", [], Post, Fields([("username", username)]), WithCredentials)
  }

  /** `forgotPasswordUser`: needs an email. */
  function ForgotPasswordUser(email: string): (r: Result<Call, string>)
    ensures r.Failure? <==> email == ""
    ensures r.Failure? ==> r.error == "email is required"
    ensures r.Success? ==> r.value.query == [("email", email)] && r.value.verb == Post && r.value.opts == DefaultOptions
  {
    if email == "" then Failure("email is required")
    else Success(Call("auth/forgot-password", [("email", email)], Post, NoPayload, DefaultOptions))
  }

  /** `resetPasswordUser`: checks the email, then the token; the new password goes in the body. */
  function ResetPasswordUser(email: string, token: string, newPassword: string): (r: Result<Call, string>)
    ensures r.Failure? <==> email == "" || token == ""
    ensures email == "" ==> r == Failure("email is required")
    ensures email != "" && token == "" ==> r == Failure("token is required")
    ensures r.Success? ==> r.value.query == [("email", email), ("token", token)] && r.value.verb == Post
                           && r.value.payload == Fields([("newPassword", newPassword)])
  {
    if email == "" then Failure("email is required")
    else if token == "" then Failure("token is required")
    else Success(Call("auth/reset-password", [("email", email), ("token", token)], Post,
                      Fields([("newPassword", newPassword)]), DefaultOptions))
  }

  /** The refresh request never carries a bearer header, whatever the cookie holds. */
  lemma RefreshSendsNoBearer(username: string, cookie: Option<string>)
    ensures var c := RefreshTokenUser(username);
            "Authorization" !in BuildHeaders(cookie, JsonBody, c.opts)
  {
  }

  /** Login and logout carry the bearer header exactly when a non-empty token cookie exists. */
  lemma LoginLogoutBearerIffCookie(email: string, username: string, password: string, cookie: Option<string>)
    ensures ("Authorization" in BuildHeaders(cookie, JsonBody, LoginUser(email, password).opts)) <==> Truthy(cookie)
    ensures ("Authorization" in BuildHeaders(cookie, JsonBody, LogoutUser(username).opts)) <==> Truthy(cookie)
  {
  }

  /** Login, refresh and logout all send cookies along. */
  lemma SessionCallsIncludeCredentials(email: string, username: string, password: string)
    ensures CredentialsFor(LoginUser(email, password).opts) == Include
    ensures CredentialsFor(RefreshTokenUser(username).opts) == Include
    ensures CredentialsFor(LogoutUser(username).opts) == Include
  {
  }
}

=== FILE: catalog.dfy ===
/**
 * The list plumbing shared by the catalogue pages (`src/app/modules/page.tsx`,
 * `src/app/lessons/page.tsx`): the infinite-query next-page rule, the
 * flattening of fetched pages into one list, the "assignable = owned minus
 * assigned" filters, the Create button's guard and the browser's `Number()`
 * on form input.
 */
module Catalog {
  import opened Wrappers
  import opened Text

  // ---------------------------------------------------------------------
  // Infinite queries

  /** The paging fields of a server page; either may be missing from the response. */
  datatype PageInfo = PageInfo(last: Option<bool>, number: Option<int>)

  /**
   * `getNextPageParam` of the catalogue queries: no next page when the page,
   * `last` or `number` is missing, none after the last page, `number + 1`
   * otherwise.
   */
  function NextPageParam(lastPage: Option<PageInfo>): (r: Option<int>)
    ensures r.Some? <==> lastPage.Some? && lastPage.value.last == Some(false) && lastPage.value.number.Some?
    ensures r.Some? ==> r.value == lastPage.value.number.value + 1
  {
    match lastPage
    case None => None
    case Some(p) =>
      if p.last.None? || p.number.None? then None
      else if p.last.value then None
      else Some(p.number.value + 1)
  }

  /** The unguarded rule used by the chat and daily queries: `!last ? number + 1 : undefined`. */
  function NextPageParamUnguarded(last: bool, number: int): (r: Option<int>)
    ensures r.Some? <==> !last
    ensures r.Some? ==> r.value == number + 1
  {
    if !last then Some(number + 1) else None
  }

  /** On a complete page the guards change nothing: both rules agree. */
  lemma GuardedAgreesWithUnguarded(last: bool, number: int)
    ensures NextPageParam(Some(PageInfo(Some(last), Some(number)))) == NextPageParamUnguarded(last, number)
  {
  }

  /** A fetched page's `content`: `None` when the field is not an array. */
  datatype Chunk<T> = Chunk(content: Option<seq<T>>)

  predicate InChunk<T(==,!new)>(x: T, c: Chunk<T>) {
    c.content.Some? && x in c.content.value
  }

  /** `pages.flatMap(p => Array.isArray(p?.content) ? p.content : [])`. */
  function FlatContent<T(==,!new)>(pages: seq<Chunk<T>>): (r: seq<T>)
    ensures forall x :: x in r <==> exists c :: c in pages && InChunk(x, c)
  {
    if |pages| == 0 then []
    else
      var head := if pages[0].content.Some? then pages[0].content.value else [];
      var rest := FlatContent(pages[1..]);
      assert forall c :: c in pages <==> c == pages[0] || c in pages[1..] by {
        assert pages == [pages[0]] + pages[1..];
      }
      assert forall x :: x in head + rest <==> InChunk(x, pages[0]) || x in rest;
      head + rest
  }

  /** The whole list: empty when the query holds no page array at all. */
  function Flatten<T(==,!new)>(pages: Option<seq<Chunk<T>>>): (r: seq<T>)
    ensures pages.None? ==> r == []
    ensures pages.Some? ==> forall x :: x in r <==> exists c :: c in pages.value && InChunk(x, c)
  {
    if pages.Some? then FlatContent(pages.value) else []
  }

  /** Fetching more pages appends their items after the ones already shown. */
  lemma {:induction false} FlatContentAppend<T(!new)>(a: seq<Chunk<T>>, b: seq<Chunk<T>>)
    ensures FlatContent(a + b) == FlatContent(a) + FlatContent(b)
    decreases |a|
  {
    if |a| > 0 {
      assert (a + b)[1..] == a[1..] + b;
      FlatContentAppend(a[1..], b);
    } else {
      assert a + b == b;
    }
  }

  /** The items one page contributes: its content, or nothing when that is not an array. */
  function ChunkItems<T>(c: Chunk<T>): (r: seq<T>)
    ensures c.content.Some? ==> r == c.content.value
    ensures c.content.None? ==> r == []
  {
    if c.content.Some? then c.content.value else []
  }

  /**
   * One page is listed as its content stands, in order and with its
   * duplicates; with `FlatContentAppend` this fixes the whole list.
   */
  lemma FlatContentOnePage<T(!new)>(c: Chunk<T>)
    ensures FlatContent([c]) == ChunkItems(c)
  {
    assert [c][1..] == [];
  }

  /** A page fetched twice has its items listed twice, one copy after the other. */
  lemma {:induction false} RepeatedPageListedTwice<T(!new)>(pages: seq<Chunk<T>>, c: Chunk<T>)
    ensures FlatContent(pages + [c, c]) == FlatContent(pages) + ChunkItems(c) + ChunkItems(c)
  {
    FlatContentAppend(pages, [c, c]);
    assert [c, c] == [c] + [c];
    FlatContentAppend([c], [c]);
    FlatContentOnePage(c);
  }

  // ---------------------------------------------------------------------
  // Which page a fetch loads

  /**
   * The pages an infinite query holds after `fetches` fetches when its
   * `queryFn` drops the page parameter, as the modules, lessons and daily
   * queries do: every call asks for the server's default page, `first`.
   */
  function PagesIgnoringParam<T>(first: Chunk<T>, fetches: nat): (r: seq<Chunk<T>>)
    ensures |r| == fetches
    ensures forall i :: 0 <= i < fetches ==> r[i] == first
  {
    seq(fetches, i requires 0 <= i < fetches => first)
  }

  /**
   * The pages held when each fetch asks for the page `getNextPageParam`
   * named: the server's first `fetches` pages. No fetch goes past the last
   * page, since the next-page rule gives none there.
   */
  function PagesByParam<T>(server: seq<Chunk<T>>, fetches: nat): (r: seq<Chunk<T>>)
    requires fetches <= |server|
    ensures |r| == fetches
    ensures forall i :: 0 <= i < fetches ==> r[i] == server[i]
  {
    server[..fetches]
  }

  /** However often more pages are fetched, the list holds nothing but the default page's items. */
  lemma IgnoringParamShowsOnlyFirstPage<T(!new)>(first: Chunk<T>, fetches: nat)
    ensures forall x :: x in FlatContent(PagesIgnoringParam(first, fetches)) ==> InChunk(x, first)
  {
  }

  /** Two fetches of a two-page list: `[1, 1]` as written, `[1, 2]` when the parameter is passed. */
  lemma IgnoringParamListsFirstPageTwice()
    ensures FlatContent(PagesIgnoringParam(Chunk(Some([1])), 2)) == [1, 1]
    ensures FlatContent(PagesByParam([Chunk(Some([1])), Chunk(Some([2]))], 2)) == [1, 2]
  {
    var one := Chunk(Some([1]));
    var two := Chunk(Some([2]));
    assert PagesIgnoringParam(one, 2) == [] + [one, one];
    RepeatedPageListedTwice([], one);
    assert PagesByParam([one, two], 2) == [one] + [two];
    FlatContentAppend([one], [two]);
    FlatContentOnePage(one);
    FlatContentOnePage(two);
  }

  /**
   * With the parameter passed, the list after any number of fetches is the
   * start of the full list, and every page is listed once.
   */
  lemma ByParamListsAPrefix<T(!new)>(server: seq<Chunk<T>>, fetches: nat)
    requires fetches <= |server|
    ensures FlatContent(server) == FlatContent(PagesByParam(server, fetches)) + FlatContent(server[fetches..])
  {
    assert server == server[..fetches] + server[fetches..];
    FlatContentAppend(server[..fetches], server[fetches..]);
  }

  // ---------------------------------------------------------------------
  // Assignable = owned minus assigned

  /** The keys of a list, in order. */
  function KeysOf<T(==,!new)>(items: seq<T>, key: T -> Option<int>): (r: seq<Option<int>>)
    ensures |r| == |items|
    ensures forall i :: 0 <= i < |items| ==> r[i] == key(items[i])
  {
    seq(|items|, i requires 0 <= i < |items| => key(items[i]))
  }

  /**
   * `owned.filter(x => !assigned.some(a => key(a) === key(x)))`: the owned
   * items whose key is not among the assigned ones. A missing key matches a
   * missing key, as `undefined === undefined` does.
   */
  function Assignable<T(==,!new)>(owned: seq<T>, taken: seq<T>, key: T -> Option<int>): (r: seq<T>)
    ensures |r| <= |owned|
    ensures forall x :: x in r <==> x in owned && key(x) !in KeysOf(taken, key)
  {
    if |owned| == 0 then []
    else
      var rest := Assignable(owned[1..], taken, key);
      assert forall x :: x in owned <==> x == owned[0] || x in owned[1..] by {
        assert owned == [owned[0]] + owned[1..];
      }
      if key(owned[0]) in KeysOf(taken, key) then rest else [owned[0]] + rest
  }

  /** `a` is `b` with some elements left out, the rest in their order. */
  predicate IsSubsequence<T(==)>(a: seq<T>, b: seq<T>)
    decreases |b|
  {
    if |a| == 0 then true
    else if |b| == 0 then false
    else if a[0] == b[0] then IsSubsequence(a[1..], b[1..])
    else IsSubsequence(a, b[1..])
  }

  /** The offered items keep the order of the owned list. */
  lemma {:induction false} AssignableKeepsOrder<T(!new)>(owned: seq<T>, taken: seq<T>, key: T -> Option<int>)
    ensures IsSubsequence(Assignable(owned, taken, key), owned)
    decreases |owned|
  {
    if |owned| > 0 {
      AssignableKeepsOrder(owned[1..], taken, key);
      var rest := Assignable(owned[1..], taken, key);
      if key(owned[0]) !in KeysOf(taken, key) {
        assert ([owned[0]] + rest)[1..] == rest;
      } else {
        SubsequenceOfTail(rest, owned);
      }
    }
  }

  /** A subsequence of the tail is a subsequence of the whole. */
  lemma {:induction false} SubsequenceOfTail<T>(a: seq<T>, b: seq<T>)
    requires |b| > 0 && IsSubsequence(a, b[1..])
    ensures IsSubsequence(a, b)
    decreases |b|, 0
  {
    if |a| > 0 && a[0] == b[0] {
      // `b[1..]` starts with `a[0]` somewhere: drop it from both.
      SubsequenceDropHead(a, b[1..]);
    }
  }

  /** If `a` is a subsequence of `b`, so is `a` without its head. */
  lemma {:induction false} SubsequenceDropHead<T>(a: seq<T>, b: seq<T>)
    requires |a| > 0 && IsSubsequence(a, b)
    ensures IsSubsequence(a[1..], b)
    decreases |b|, 1
  {
    assert |b| > 0;
    if a[0] == b[0] {
      if |a[1..]| > 0 {
        SubsequenceOfTail(a[1..], b);
      }
    } else {
      SubsequenceDropHead(a, b[1..]);
      if |a[1..]| > 0 {
        SubsequenceOfTail(a[1..], b);
      }
    }
  }

  /** Assigning one more item removes exactly it (and its key-mates) from the offer. */
  lemma {:induction false} AssignOneMore<T(!new)>(owned: seq<T>, taken: seq<T>, x: T, key: T -> Option<int>)
    ensures Assignable(owned, taken + [x], key) == Assignable(Assignable(owned, taken, key), [x], key)
    decreases |owned|
  {
    assert KeysOf(taken + [x], key) == KeysOf(taken, key) + [key(x)];
    assert KeysOf([x], key) == [key(x)];
    if |owned| > 0 {
      AssignOneMore(owned[1..], taken, x, key);
      var rest := Assignable(owned[1..], taken, key);
      if key(owned[0]) !in KeysOf(taken, key) {
        assert ([owned[0]] + rest)[1..] == rest;
      }
    }
  }

  /** A key occurs among the keys of a list exactly when some item carries it. */
  lemma KeysOfMembership<T(!new)>(items: seq<T>, key: T -> Option<int>, k: Option<int>)
    ensures k in KeysOf(items, key) <==> exists t :: t in items && key(t) == k
  {
    if exists t :: t in items && key(t) == k {
      var t :| t in items && key(t) == k;
      var i :| 0 <= i < |items| && items[i] == t;
      assert KeysOf(items, key)[i] == k;
    }
  }

  /** The catalogue entities, reduced to their identifying key and display text. */
  datatype Tag = Tag(id: Option<int>, tag: string)
  datatype Lesson = Lesson(id: Option<int>, title: string)
  datatype Category = Category(categoryId: Option<int>, categoryName: string)
  datatype Content = Content(contentId: Option<int>, title: string)

  /** The tags offered for assignment: the user's tags whose `id` no assigned tag has. */
  function AssignableTags(owned: seq<Tag>, taken: seq<Tag>): (r: seq<Tag>)
    ensures forall x :: x in r <==> x in owned && !(exists t :: t in taken && t.id == x.id)
    ensures IsSubsequence(r, owned)
  {
    var key := (t: Tag) => t.id;
    var r := Assignable(owned, taken, key);
    forall x ensures x in r <==> x in owned && !(exists t :: t in taken && t.id == x.id) {
      KeysOfMembership(taken, key, x.id);
    }
    AssignableKeepsOrder(owned, taken, key);
    r
  }

  /** The lessons offered for assignment, matched by `id`. */
  function AssignableLessons(owned: seq<Lesson>, taken: seq<Lesson>): (r: seq<Lesson>)
    ensures forall x :: x in r <==> x in owned && !(exists t :: t in taken && t.id == x.id)
    ensures IsSubsequence(r, owned)
  {
    var key := (t: Lesson) => t.id;
    var r := Assignable(owned, taken, key);
    forall x ensures x in r <==> x in owned && !(exists t :: t in taken && t.id == x.id) {
      KeysOfMembership(taken, key, x.id);
    }
    AssignableKeepsOrder(owned, taken, key);
    r
  }

  /** The categories offered for assignment, matched by `categoryId`. */
  function AssignableCategories(owned: seq<Category>, taken: seq<Category>): (r: seq<Category>)
    ensures forall x :: x in r <==> x in owned && !(exists t :: t in taken && t.categoryId == x.categoryId)
    ensures IsSubsequence(r, owned)
  {
    var key := (t: Category) => t.categoryId;
    var r := Assignable(owned, taken, key);
    forall x ensures x in r <==> x in owned && !(exists t :: t in taken && t.categoryId == x.categoryId) {
      KeysOfMembership(taken, key, x.categoryId);
    }
    AssignableKeepsOrder(owned, taken, key);
    r
  }

  /** The contents offered for assignment, matched by `contentId`. */
  function AssignableContents(owned: seq<Content>, taken: seq<Content>): (r: seq<Content>)
    ensures forall x :: x in r <==> x in owned && !(exists t :: t in taken && t.contentId == x.contentId)
    ensures IsSubsequence(r, owned)
  {
    var key := (t: Content) => t.contentId;
    var r := Assignable(owned, taken, key);
    forall x ensures x in r <==> x in owned && !(exists t :: t in taken && t.contentId == x.contentId) {
      KeysOfMembership(taken, key, x.contentId);
    }
    AssignableKeepsOrder(owned, taken, key);
    r
  }

  // ---------------------------------------------------------------------
  // Form guards and numeric input

  /**
   * `Number(s)` on the text of a number input, for decimal integers: blank
   * text reads as 0, an optional minus sign and digits read as their value,
   * anything else is `NaN` (`None`).
   */
  function NumberOf(s: string): (r: Option<int>)
    ensures IsBlank(s) ==> r == Some(0)
  {
    TrimEmptyIffBlank(s);
    var t := Trim(s);
    if t == "" then Some(0)
    else if AllDigits(t) then Some(DigitsValue(t))
    else if t[0] == '-' && |t| > 1 && AllDigits(t[1..]) then
      var magnitude: int := DigitsValue(t[1..]);
      Some(-magnitude)
    else None
  }

  /** A plain digit string reads as its decimal value. */
  lemma NumberOfDigits(s: string)
    requires |s| > 0 && AllDigits(s)
    ensures NumberOf(s) == Some(DigitsValue(s))
  {
    TrimOfDigits(s);
  }

  /** Trimming leaves a digit string alone. */
  lemma TrimOfDigits(s: string)
    requires |s| > 0 && AllDigits(s)
    ensures Trim(s) == s
  {
    assert IsDigit(s[0]) && IsDigit(s[|s| - 1]);
    TrimOfUnpadded(s);
  }

  /** Trimming leaves alone a text that neither starts nor ends with whitespace. */
  lemma TrimOfUnpadded(s: string)
    requires |s| > 0 && !IsSpace(s[0]) && !IsSpace(s[|s| - 1])
    ensures Trim(s) == s
  {
    assert TrimLeft(s) == s;
    assert TrimRight(s) == s;
  }

  /** A minus sign followed by digits reads as the negated decimal value. */
  lemma NumberOfNegative(digits: string)
    requires |digits| > 0 && AllDigits(digits)
    ensures NumberOf("-" + digits) == Some(-(DigitsValue(digits) as int))
  {
    var s := "-" + digits;
    assert s[1..] == digits;
    assert s[|s| - 1] == digits[|digits| - 1];
    TrimOfUnpadded(s);
    assert !AllDigits(s) by { assert !IsDigit(s[0]); }
  }

  /** The text of a rendered natural number reads back as that number. */
  lemma NumberOfNatToString(n: nat)
    ensures NumberOf(NatToString(n)) == Some(n)
  {
    NumberOfDigits(NatToString(n));
    NatToStringRoundTrip(n);
  }

  /** `Number(s) || 0`: `NaN` and 0 both give 0. */
  function NumberOrZero(s: string): (r: int)
    ensures NumberOf(s).None? ==> r == 0
    ensures NumberOf(s).Some? ==> r == NumberOf(s).value
  {
    if NumberOf(s).Some? then NumberOf(s).value else 0
  }
}

=== FILE: chat.dfy ===
/**
 * The new-conversation dialog and the message box of the chat screen
 * (`src/components/ChatInterface.tsx`): which side of a friendship is
 * offered, the checkbox toggle of the selected usernames, the member list
 * and name default of a created conversation, and the two buttons' guards.
 */
module Chat {
  import opened Wrappers
  import Text

  /** An accepted friendship, as listed by the server. */
  datatype Friendship = Friendship(senderUsername: string, receiverUsername: string)

  datatype ConversationType = PrivateChat | GroupChat

  datatype Request =
    | CreateConversationCall(chatName: string, kind: ConversationType, users: seq<string>)
    | SendMessageCall(text: string)

  /** The name a conversation gets when none is typed. */
  const DefaultChatName := "New Chat"

  /**
   * The user offered for a friendship: the receiver when I sent the
   * request, the sender otherwise. An unknown current user matches no sender.
   */
  function Counterpart(me: Option<string>, f: Friendship): (r: string)
    ensures me == Some(f.senderUsername) ==> r == f.receiverUsername
    ensures me != Some(f.senderUsername) ==> r == f.senderUsername
  {
    if me == Some(f.senderUsername) then f.receiverUsername else f.senderUsername
  }

  /** When I am on one side of the friendship, the offered user is the other side. */
  lemma CounterpartIsTheOtherSide(me: string, f: Friendship)
    requires me == f.senderUsername || me == f.receiverUsername
    requires f.senderUsername != f.receiverUsername
    ensures Counterpart(Some(me), f) != me
    ensures Counterpart(Some(me), f) == f.senderUsername || Counterpart(Some(me), f) == f.receiverUsername
  {
  }

  /** `prev.filter(u => u !== user)`. */
  function Without(prev: seq<string>, user: string): (r: seq<string>)
    ensures user !in r
    ensures forall u :: u != user ==> (u in r <==> u in prev)
    ensures |r| <= |prev|
  {
    if |prev| == 0 then []
    else
      var rest := Without(prev[1..], user);
      assert forall u :: u in prev <==> u == prev[0] || u in prev[1..] by {
        assert prev == [prev[0]] + prev[1..];
      }
      if prev[0] == user then rest else [prev[0]] + rest
  }

  /** The checkbox's change handler: checking appends the user, unchecking removes every occurrence. */
  function Toggle(prev: seq<string>, user: string, checked: bool): (r: seq<string>)
    ensures checked ==> r == prev + [user]
    ensures !checked ==> user !in r && forall u :: u != user ==> (u in r <==> u in prev)
  {
    if checked then prev + [user] else Without(prev, user)
  }

  /** A click: the box shows `selected.includes(user)`, and a click flips it. */
  function Click(prev: seq<string>, user: string): (r: seq<string>)
    ensures user in r <==> user !in prev
    ensures forall u :: u != user ==> (u in r <==> u in prev)
  {
    Toggle(prev, user, user !in prev)
  }

  /** No username is listed twice. */
  predicate NoDuplicates(s: seq<string>) {
    forall i, j :: 0 <= i < j < |s| ==> s[i] != s[j]
  }

  /** Removing a user keeps a list free of duplicates. */
  lemma {:induction false} WithoutKeepsNoDuplicates(prev: seq<string>, user: string)
    requires NoDuplicates(prev)
    ensures NoDuplicates(Without(prev, user))
    decreases |prev|
  {
    if |prev| > 0 {
      assert NoDuplicates(prev[1..]) by {
        forall i, j | 0 <= i < j < |prev[1..]| ensures prev[1..][i] != prev[1..][j] {
          assert prev[1..][i] == prev[i + 1] && prev[1..][j] == prev[j + 1];
        }
      }
      WithoutKeepsNoDuplicates(prev[1..], user);
      if prev[0] != user {
        var rest := Without(prev[1..], user);
        assert prev[0] !in prev[1..] by {
          forall k | 0 <= k < |prev[1..]| ensures prev[1..][k] != prev[0] {
            assert prev[1..][k] == prev[k + 1];
          }
        }
        assert prev[0] !in rest;
        var r := [prev[0]] + rest;
        forall i, j | 0 <= i < j < |r| ensures r[i] != r[j] {
          if i == 0 {
            assert r[j] == rest[j - 1];
          } else {
            assert r[i] == rest[i - 1] && r[j] == rest[j - 1];
          }
        }
      }
    }
  }

  /** Clicking never lists a friend twice. */
  lemma ClickKeepsNoDuplicates(prev: seq<string>, user: string)
    requires NoDuplicates(prev)
    ensures NoDuplicates(Click(prev, user))
  {
    if user in prev {
      WithoutKeepsNoDuplicates(prev, user);
    } else {
      var r := prev + [user];
      forall i, j | 0 <= i < j < |r| ensures r[i] != r[j] {
        if j == |prev| {
          assert r[i] == prev[i];
        } else {
          assert r[i] == prev[i] && r[j] == prev[j];
        }
      }
    }
  }

  /** Checking and then unchecking a friend restores the selection. */
  lemma {:induction false} ClickTwiceRestores(prev: seq<string>, user: string)
    requires user !in prev
    ensures Click(Click(prev, user), user) == prev
  {
    assert user in prev + [user];
    WithoutAppended(prev, user);
  }

  /** Removing a user that was only appended gives the list back. */
  lemma {:induction false} WithoutAppended(prev: seq<string>, user: string)
    requires user !in prev
    ensures Without(prev + [user], user) == prev
    decreases |prev|
  {
    if |prev| == 0 {
      assert Without([] + [user], user) == Without([user], user);
    } else {
      assert (prev + [user])[1..] == prev[1..] + [user];
      assert prev[0] != user;
      WithoutAppended(prev[1..], user);
    }
  }

  /**
   * The Create click: disabled while no friend is selected; without a known
   * current username nothing is sent; otherwise the members are the
   * selected friends followed by me, and an empty name becomes "New Chat".
   */
  function ClickCreate(selected: seq<string>, me: Option<string>, chatName: string, kind: ConversationType): (r: Option<Request>)
    ensures r.Some? <==> |selected| > 0 && me.Some? && me.value != ""
    ensures r.Some? ==> r.value == CreateConversationCall(
                          if chatName == "" then DefaultChatName else chatName, kind, selected + [me.value])
  {
    if |selected| == 0 then None
    else if me.None? || me.value == "" then None
    else Some(CreateConversationCall(if chatName == "" then DefaultChatName else chatName, kind, selected + [me.value]))
  }

  /** A created conversation always includes me, last, and every selected friend. */
  lemma CreatedConversationMembers(selected: seq<string>, me: Option<string>, chatName: string, kind: ConversationType)
    requires ClickCreate(selected, me, chatName, kind).Some?
    ensures var users := ClickCreate(selected, me, chatName, kind).value.users;
            users[|users| - 1] == me.value && users[..|users| - 1] == selected && |users| >= 2
    ensures ClickCreate(selected, me, chatName, kind).value.chatName != ""
  {
  }

  /** The Send click: disabled for a blank message; otherwise the text is sent as typed. */
  function ClickSend(message: string): (r: Option<Request>)
    ensures r.None? <==> Text.IsBlank(message)
    ensures r.Some? ==> r.value == SendMessageCall(message)
  {
    if Text.TrimsToEmpty(message) then None else Some(SendMessageCall(message))
  }
}

=== FILE: countdown.dfy ===
/**
 * The resend countdown (`src/hooks/useCountdown.tsx`): the `HH:MM:SS`
 * formatter and the one-second interval that counts down to "ready". The
 * interval itself is abstracted as a `running` flag; each `Tick` is one
 * firing of the interval callback.
 */
module Countdown {
  import opened Wrappers
  import opened Text

  /** The hook's state: the seconds shown, the ready flag and whether an interval is armed. */
  datatype Clock = Clock(seconds: nat, ready: bool, running: bool)

  /** The state on first render. */
  const Idle := Clock(0, false, false)

  /** A duration broken into hours, minutes and seconds. */
  datatype Hms = Hms(hours: nat, minutes: nat, secs: nat)

  /** The three fields `formatTime` prints. */
  function Split(s: nat): (r: Hms)
    ensures r.hours * 3600 + r.minutes * 60 + r.secs == s
    ensures r.minutes < 60 && r.secs < 60
  {
    Hms(s / 3600, (s % 3600) / 60, s % 60)
  }

  /**
   * A field printed with `toString().padStart(2, "0")`: one digit gets a
   * leading zero, longer numbers print as they are.
   */
  function Pad2(n: nat): (r: string)
    ensures |r| >= 2 && AllDigits(r) && DigitsValue(r) == n
    ensures n < 100 ==> |r| == 2
  {
    if n < 10 then
      var r := ['0', DigitChar(n)];
      assert r[..|r| - 1] == ['0'] && ['0'][..0] == [];
      assert DigitsValue(['0']) == 0;
      DigitRoundTrip(n);
      r
    else
      NatToStringRoundTrip(n);
      NatToStringShort(n);
      NatToString(n)
  }

  /** The case split of `Pad2` is `padStart(2, "0")` applied to `toString()`. */
  lemma Pad2IsPadStart(n: nat)
    ensures Pad2(n) == PadStart(NatToString(n), 2, '0')
  {
    if n < 10 {
      var d := [DigitChar(n)];
      assert NatToString(n) == d;
      assert Repeat('0', 1) == ['0'];
    } else {
      assert NatToString(n) == NatToString(n / 10) + [DigitChar(n % 10)];
      assert |NatToString(n)| >= 2;
      assert Repeat('0', 0) + NatToString(n) == NatToString(n);
    }
  }

  /** `formatTime(s)`: hours, minutes and seconds, each at least two digits, joined by colons. */
  function FormatTime(s: nat): (r: string)
    ensures |r| >= 8 && r[|r| - 3] == ':' && r[|r| - 6] == ':'
  {
    var f := Split(s);
    FormatFields(f)
  }

  /** The three fields, each padded to two digits, joined by colons. */
  function FormatFields(f: Hms): (r: string)
    requires f.minutes < 60 && f.secs < 60
    ensures |r| >= 8 && r[|r| - 3] == ':' && r[|r| - 6] == ':'
  {
    Join(Pad2(f.hours), Pad2(f.minutes), Pad2(f.secs))
  }

  /** The template literal `${h}:${m}:${sec}` for two-character minute and second fields. */
  function Join(h: string, m: string, sec: string): (r: string)
    requires |m| == 2 && |sec| == 2
    ensures |r| == |h| + 6 && r[|r| - 3] == ':' && r[|r| - 6] == ':'
  {
    h + ":" + m + ":" + sec
  }

  /** Cuts `H:MM:SS` at its last two colons; the hours part may be of any length. */
  function Fields(t: string): (r: Option<(string, string, string)>)
    ensures r.Some? ==> |r.value.1| == 2 && |r.value.2| == 2 && |t| == |r.value.0| + 6
  {
    if |t| < 6 || t[|t| - 3] != ':' || t[|t| - 6] != ':' then None
    else Some((t[..|t| - 6], t[|t| - 5..|t| - 3], t[|t| - 2..]))
  }

  /** Reads an `HH:MM:SS` string back into seconds; the hours field may be wider than two digits. */
  function ParseTime(t: string): (r: Option<nat>)
    ensures r.Some? ==> Fields(t).Some?
  {
    match Fields(t)
    case None => None
    case Some((h, m, sec)) =>
      if AllDigits(h) && AllDigits(m) && AllDigits(sec) && DigitsValue(m) < 60 && DigitsValue(sec) < 60
      then Some(DigitsValue(h) * 3600 + DigitsValue(m) * 60 + DigitsValue(sec))
      else None
  }

  /** Joining two-character fields with colons and cutting them again gives the fields back. */
  lemma FieldsOfJoined(h: string, m: string, sec: string)
    requires |m| == 2 && |sec| == 2
    ensures Fields(Join(h, m, sec)) == Some((h, m, sec))
  {
    var t := Join(h, m, sec);
    assert t == h + ":" + m + ":" + sec;
    assert t[..|t| - 6] == h;
    assert t[|t| - 5..|t| - 3] == m;
    assert t[|t| - 2..] == sec;
  }

  /** A number below 100 prints with at most two digits. */
  lemma NatToStringShort(n: nat)
    ensures n < 10 ==> |NatToString(n)| == 1
    ensures n < 100 ==> |NatToString(n)| <= 2
  {
    if 10 <= n < 100 {
      assert NatToString(n) == NatToString(n / 10) + [DigitChar(n % 10)];
    }
  }

  /** Zero-padding keeps a number's decimal value. */
  lemma PaddedDigits(n: nat, width: nat)
    ensures AllDigits(PadStart(NatToString(n), width, '0'))
    ensures DigitsValue(PadStart(NatToString(n), width, '0')) == n
  {
    var s := NatToString(n);
    var p := PadStart(s, width, '0');
    var zeros := p[..|p| - |s|];
    assert p == zeros + s;
    LeadingZerosValue(zeros, s);
    NatToStringRoundTrip(n);
  }

  /** Three digit fields joined by colons read back as their weighted sum. */
  lemma ParseJoined(t: string, h: string, m: string, sec: string, f: Hms)
    requires Fields(t) == Some((h, m, sec))
    requires AllDigits(h) && AllDigits(m) && AllDigits(sec)
    requires DigitsValue(h) == f.hours && DigitsValue(m) == f.minutes && DigitsValue(sec) == f.secs
    requires f.minutes < 60 && f.secs < 60
    ensures ParseTime(t) == Some(f.hours * 3600 + f.minutes * 60 + f.secs)
  {
  }

  /** Fields below sixty are printed so that they read back as the same duration. */
  lemma FieldsRoundTrip(f: Hms)
    requires f.minutes < 60 && f.secs < 60
    ensures ParseTime(FormatFields(f)) == Some(f.hours * 3600 + f.minutes * 60 + f.secs)
  {
    var h, m, sec := Pad2(f.hours), Pad2(f.minutes), Pad2(f.secs);
    FieldsOfJoined(h, m, sec);
    ParseJoined(Join(h, m, sec), h, m, sec, f);
  }

  /** Formatting loses nothing: the shown text reads back as the same number of seconds. */
  lemma FormatParseRoundTrip(s: nat)
    ensures ParseTime(FormatTime(s)) == Some(s)
  {
    var f := Split(s);
    FieldsRoundTrip(f);
  }

  /** `start()`: cancels any armed interval, shows the initial seconds, clears ready and arms one interval. */
  function Start(c: Clock, initialSeconds: nat): (r: Clock)
    ensures r.seconds == initialSeconds && !r.ready && r.running
  {
    Clock(initialSeconds, false, true)
  }

  /** One firing of the interval: at one second or less it stops and becomes ready, otherwise it counts down. */
  function Tick(c: Clock): (r: Clock)
    ensures !c.running ==> r == c
    ensures c.running && c.seconds <= 1 ==> r == Clock(0, true, false)
    ensures c.running && c.seconds > 1 ==> r == c.(seconds := c.seconds - 1)
    ensures r.seconds <= c.seconds
  {
    if !c.running then c
    else if c.seconds <= 1 then Clock(0, true, false)
    else c.(seconds := c.seconds - 1)
  }

  /** `n` firings of the interval. */
  function Ticks(c: Clock, n: nat): Clock
    decreases n
  {
    if n == 0 then c else Ticks(Tick(c), n - 1)
  }

  /** Ready only ever appears together with zero seconds and no armed interval. */
  predicate Consistent(c: Clock) {
    c.ready ==> c.seconds == 0 && !c.running
  }

  lemma StartAndTickKeepConsistent(c: Clock, initialSeconds: nat)
    requires Consistent(c)
    ensures Consistent(Start(c, initialSeconds)) && Consistent(Tick(c))
  {
  }

  /** Once stopped, further firings change nothing. */
  lemma {:induction false} StoppedTicks(c: Clock, n: nat)
    requires !c.running
    ensures Ticks(c, n) == c
    decreases n
  {
    if n > 0 {
      StoppedTicks(Tick(c), n - 1);
    }
  }

  /**
   * After `start()` with `k` seconds and `n` firings, the clock shows
   * `max(k - n, 0)` and is ready exactly when `n >= max(k, 1)`.
   */
  lemma {:induction false} CountdownAfterTicks(c: Clock, k: nat, n: nat)
    ensures var r := Ticks(Start(c, k), n);
            var due := if k >= 1 then k else 1;
            r.seconds == (if n >= k then 0 else k - n)
            && (r.ready <==> n >= due)
            && (r.running <==> n < due)
    decreases n
  {
    if n > 0 {
      var next := Tick(Start(c, k));
      if k <= 1 {
        StoppedTicks(next, n - 1);
      } else {
        assert next == Start(c, k - 1);
        CountdownAfterTicks(c, k - 1, n - 1);
      }
    }
  }
}

=== FILE: daily_page.dfy ===
/**
 * The daily-inspiration page (`src/app/daily/page.tsx`): the month calendar
 * that hands out quotes and tips day by day, the "next inspiration in"
 * countdown, the date-click guard and the colour cycle of the calendar cells.
 * The calendar arithmetic of `Date` is abstracted: the month length and
 * today's day of the month are parameters.
 */
module DailyPage {
  import opened Wrappers

  datatype Quote = Quote(text: string, author: string)
  datatype Tip = Tip(title: string, description: string)

  /** One calendar cell. */
  datatype DayData = DayData(day: nat, quote: Quote, tip: Tip, available: bool)

  /** The quote shown when the quote list yields nothing for a day. */
  const FallbackQuote := Quote("Click to reveal today's wisdom", "Daily Inspiration")
  /** The tip shown when the tip list yields nothing for a day. */
  const FallbackTip := Tip("Daily Tip", "Click to discover today's tip")
  /** The quote of a day that has not come yet. */
  const ComingSoonQuote := Quote("Coming soon...", "Daily Inspiration")
  /** The tip of a day that has not come yet. */
  const ComingSoonTip := Tip("Coming soon", "Check back tomorrow!")

  /** The number of gift colours the calendar cycles through. */
  const GiftColorCount: nat := 7

  /**
   * `allQuotes[(day - 1) % allQuotes.length] || fallback`: the quotes are
   * handed out cyclically; on an empty list the index is `NaN` and the
   * fallback is used.
   */
  function QuoteFor(quotes: seq<Quote>, day: nat): (r: Quote)
    requires day >= 1
    ensures |quotes| == 0 ==> r == FallbackQuote
    ensures |quotes| > 0 ==> r in quotes
  {
    if |quotes| == 0 then FallbackQuote else quotes[(day - 1) % |quotes|]
  }

  /** The same rule for tips. */
  function TipFor(tips: seq<Tip>, day: nat): (r: Tip)
    requires day >= 1
    ensures |tips| == 0 ==> r == FallbackTip
    ensures |tips| > 0 ==> r in tips
  {
    if |tips| == 0 then FallbackTip else tips[(day - 1) % |tips|]
  }

  /** The cell of one day: its own quote and tip once the day has come, placeholders before. */
  function Entry(day: nat, today: nat, quotes: seq<Quote>, tips: seq<Tip>): (r: DayData)
    requires day >= 1
    ensures r.day == day && (r.available <==> day <= today)
    ensures r.available ==> r.quote == QuoteFor(quotes, day) && r.tip == TipFor(tips, day)
    ensures !r.available ==> r.quote == ComingSoonQuote && r.tip == ComingSoonTip
  {
    var available := day <= today;
    DayData(day,
            if available then QuoteFor(quotes, day) else ComingSoonQuote,
            if available then TipFor(tips, day) else ComingSoonTip,
            available)
  }

  /**
   * `generateCalendarData`: one cell per day of the month, in order. A day
   * is available iff it is not after today; available day `d` gets quote
   * `(d - 1) mod |quotes|` and tip `(d - 1) mod |tips|`.
   */
  method GenerateCalendarData(daysInMonth: nat, today: nat, quotes: seq<Quote>, tips: seq<Tip>)
    returns (data: seq<DayData>)
    ensures data == Calendar(daysInMonth, today, quotes, tips)
    ensures |data| == daysInMonth
    ensures forall i :: 0 <= i < |data| ==> data[i].day == i + 1 && (data[i].available <==> i + 1 <= today)
    ensures forall i :: 0 <= i < |data| && data[i].available && |quotes| > 0 ==> data[i].quote == quotes[i % |quotes|]
    ensures forall i :: 0 <= i < |data| && data[i].available && |tips| > 0 ==> data[i].tip == tips[i % |tips|]
    ensures forall i :: 0 <= i < |data| && !data[i].available ==>
              data[i].quote == ComingSoonQuote && data[i].tip == ComingSoonTip
  {
    data := [];
    var day := 1;
    while day <= daysInMonth
      invariant 1 <= day <= daysInMonth + 1
      invariant |data| == day - 1
      invariant forall i :: 0 <= i < |data| ==> data[i] == Entry(i + 1, today, quotes, tips)
    {
      data := data + [Entry(day, today, quotes, tips)];
      day := day + 1;
    }
  }

  /** The effect's guard: both lists loaded and no calendar yet. */
  predicate ShouldGenerate(quoteCount: nat, tipCount: nat, calendarLength: nat) {
    quoteCount > 0 && tipCount > 0 && calendarLength == 0
  }

  /** The calendar of a month: the cell of each day, in order. */
  function Calendar(daysInMonth: nat, today: nat, quotes: seq<Quote>, tips: seq<Tip>): (r: seq<DayData>)
    ensures |r| == daysInMonth
    ensures forall i :: 0 <= i < |r| ==> r[i] == Entry(i + 1, today, quotes, tips)
  {
    seq(daysInMonth, i requires 0 <= i => Entry(i + 1, today, quotes, tips))
  }

  /**
   * One run of the effect: it builds the month's calendar when both lists
   * are loaded and none exists yet, and keeps the calendar otherwise.
   */
  function CalendarEffect(calendar: seq<DayData>, daysInMonth: nat, today: nat, quotes: seq<Quote>, tips: seq<Tip>): (r: seq<DayData>)
    ensures ShouldGenerate(|quotes|, |tips|, |calendar|) ==> r == Calendar(daysInMonth, today, quotes, tips)
    ensures !ShouldGenerate(|quotes|, |tips|, |calendar|) ==> r == calendar
  {
    if ShouldGenerate(|quotes|, |tips|, |calendar|) then Calendar(daysInMonth, today, quotes, tips) else calendar
  }

  /**
   * Once the effect has built the calendar of a real month, no later run of
   * it, whatever the lists, the month or the day, changes the calendar.
   */
  lemma GeneratedOnce(daysInMonth: nat, today: nat, quotes: seq<Quote>, tips: seq<Tip>,
                      laterDays: nat, laterToday: nat, laterQuotes: seq<Quote>, laterTips: seq<Tip>)
    requires daysInMonth >= 1 && |quotes| > 0 && |tips| > 0
    ensures var built := CalendarEffect([], daysInMonth, today, quotes, tips);
            built == Calendar(daysInMonth, today, quotes, tips)
            && CalendarEffect(built, laterDays, laterToday, laterQuotes, laterTips) == built
  {
  }

  /** The index of a cell's gift colour. */
  function GiftColor(index: nat): (r: nat)
    ensures r < GiftColorCount
    ensures index < GiftColorCount ==> r == index
  {
    index % GiftColorCount
  }

  /** Two cells share a colour exactly when their positions are a whole number of weeks apart. */
  lemma {:induction false} SameColorIffWeeksApart(i: nat, j: nat)
    requires i <= j
    ensures GiftColor(i) == GiftColor(j) <==> (j - i) % GiftColorCount == 0
  {
    if (j - i) % 7 == 0 {
      var k := (j - i) / 7;
      assert j == 7 * (i / 7 + k) + i % 7;
      DivUnique(j, 7, i / 7 + k, i % 7);
    }
    if i % 7 == j % 7 {
      assert j - i == 7 * (j / 7 - i / 7);
      DivUnique(j - i, 7, j / 7 - i / 7, 0);
    }
  }

  // ---------------------------------------------------------------------
  // The date-click handler

  /** The quote modal's state. */
  datatype Modal = Modal(selectedDay: Option<nat>, quote: Option<Quote>, tip: Option<Tip>, open: bool, liked: bool)

  const Closed := Modal(None, None, None, false, false)

  /** `handleDateClick`: ignored without a quote or a tip; otherwise opens the modal, not yet liked. */
  function HandleDateClick(m: Modal, day: nat, quote: Option<Quote>, tip: Option<Tip>): (r: Modal)
    ensures quote.None? || tip.None? ==> r == m
    ensures quote.Some? && tip.Some? ==>
              r.open && !r.liked && r.selectedDay == Some(day) && r.quote == quote && r.tip == tip
  {
    if quote.None? || tip.None? then m else Modal(Some(day), quote, tip, true, false)
  }

  /** A calendar cell's click: only an available day reaches the handler. */
  function ClickCell(m: Modal, cell: DayData): (r: Modal)
    ensures !cell.available ==> r == m
    ensures cell.available ==> r.open && r.quote == Some(cell.quote) && r.tip == Some(cell.tip)
  {
    if cell.available then HandleDateClick(m, cell.day, Some(cell.quote), Some(cell.tip)) else m
  }

  // ---------------------------------------------------------------------
  // "Next inspiration in": the time left until tomorrow at noon

  /** The shown countdown. */
  datatype TimeLeft = TimeLeft(hours: nat, minutes: nat, seconds: nat)

  /** The fields computed from a positive difference in milliseconds. */
  function Decompose(diffMs: nat): (r: TimeLeft)
    ensures r.hours < 24 && r.minutes < 60 && r.seconds < 60
    ensures r.hours * 3600 + r.minutes * 60 + r.seconds == (diffMs / 1000) % 86400
  {
    var s := diffMs / 1000;
    MillisDivisions(diffMs);
    ClockOfDay(s);
    TimeLeft((diffMs / 3600000) % 24, (diffMs / 60000) % 60, (diffMs / 1000) % 60)
  }

  /** The interval callback: the countdown is replaced only while the difference is positive. */
  function UpdateTimeLeft(current: TimeLeft, diffMs: int): (r: TimeLeft)
    ensures diffMs <= 0 ==> r == current
    ensures diffMs > 0 ==> r == Decompose(diffMs)
  {
    if diffMs > 0 then Decompose(diffMs) else current
  }

  /** Milliseconds to seconds and then to minutes or hours is milliseconds to minutes or hours. */
  lemma MillisDivisions(x: nat)
    ensures x / 1000 / 60 == x / 60000
    ensures x / 1000 / 3600 == x / 3600000
  {
    var s := x / 1000;
    assert x == 1000 * s + x % 1000;
    assert s == 60 * (s / 60) + s % 60;
    assert s == 3600 * (s / 3600) + s % 3600;
    DivUnique(x, 60000, s / 60, 1000 * (s % 60) + x % 1000);
    DivUnique(x, 3600000, s / 3600, 1000 * (s % 3600) + x % 1000);
  }

  /** Euclidean division has one quotient. */
  lemma DivUnique(x: int, k: int, q: int, r: int)
    requires k > 0 && x == k * q + r && 0 <= r < k
    ensures x / k == q && x % k == r
  {
    var q0, r0 := x / k, x % k;
    assert k * (q0 - q) == r - r0;
    if q0 > q {
      AtLeastOnce(k, q0 - q);
    } else if q0 < q {
      AtLeastOnce(k, q - q0);
    }
  }

  /** A positive multiple is at least the factor. */
  lemma {:induction false} AtLeastOnce(k: nat, d: nat)
    requires d >= 1
    ensures k * d >= k
    decreases d
  {
    if d > 1 {
      AtLeastOnce(k, d - 1);
      assert k * d == k * (d - 1) + k;
    }
  }

  /** The hours, minutes and seconds read from a count of seconds are its time of day. */
  lemma ClockOfDay(s: nat)
    ensures ((s / 3600) % 24) * 3600 + ((s / 60) % 60) * 60 + s % 60 == s % 86400
  {
    var days, t := s / 86400, s % 86400;
    assert s == 86400 * days + t;
    DivUnique(s, 3600, 24 * days + t / 3600, t % 3600);
    DivUnique(s / 3600, 24, days, t / 3600);
    DivUnique(s, 60, 1440 * days + t / 60, t % 60);
    DivUnique(s / 60, 60, 24 * days + t / 3600, (t % 3600) / 60) by {
      DivUnique(t, 60, 60 * (t / 3600) + (t % 3600) / 60, t % 60);
    }
  }

  /** When more than a day is left, the shown hours have wrapped around. */
  lemma WrapsPastOneDay(diffMs: nat)
    requires diffMs >= 86400000
    ensures Decompose(diffMs).hours * 3600 + Decompose(diffMs).minutes * 60 + Decompose(diffMs).seconds
            < diffMs / 1000
  {
  }

  /** The real remainder `x % m` of JavaScript, for non-negative `x`. */
  function RealMod(x: real, m: real): real
    requires m > 0.0
  {
    x - m * ((x / m).Floor as real)
  }

  /** A countdown field as written: `Math.floor((diff / unit) % modulus)` on reals. */
  function FieldAsWritten(diffMs: nat, unit: real, modulus: real): int
    requires unit > 0.0 && modulus > 0.0
  {
    RealMod(diffMs as real / unit, modulus).Floor
  }

  /** `Math.floor` is determined by the unit interval its argument lies in. */
  lemma FloorIn(x: real, n: int)
    requires n as real <= x < n as real + 1.0
    ensures x.Floor == n
  {
  }

  /** The hours as written, with real division, agree with `Decompose`. */
  lemma HoursAsWrittenAgree(diffMs: nat)
    ensures FieldAsWritten(diffMs, 3600000.0, 24.0) == Decompose(diffMs).hours
  {
    var x := diffMs as real / 3600000.0;
    var q := diffMs / 3600000;
    assert diffMs == 3600000 * q + diffMs % 3600000;
    FloorIn(x, q);
    var w := q / 24;
    assert q == 24 * w + q % 24;
    FloorIn(x / 24.0, w);
    FloorIn(x - 24.0 * (w as real), q % 24);
  }

  /** The minutes as written agree with `Decompose`. */
  lemma MinutesAsWrittenAgree(diffMs: nat)
    ensures FieldAsWritten(diffMs, 60000.0, 60.0) == Decompose(diffMs).minutes
  {
    var x := diffMs as real / 60000.0;
    var q := diffMs / 60000;
    assert diffMs == 60000 * q + diffMs % 60000;
    FloorIn(x, q);
    var w := q / 60;
    assert q == 60 * w + q % 60;
    FloorIn(x / 60.0, w);
    FloorIn(x - 60.0 * (w as real), q % 60);
  }

  /** The seconds as written agree with `Decompose`. */
  lemma SecondsAsWrittenAgree(diffMs: nat)
    ensures FieldAsWritten(diffMs, 1000.0, 60.0) == Decompose(diffMs).seconds
  {
    var x := diffMs as real / 1000.0;
    var q := diffMs / 1000;
    assert diffMs == 1000 * q + diffMs % 1000;
    FloorIn(x, q);
    var w := q / 60;
    assert q == 60 * w + q % 60;
    FloorIn(x / 60.0, w);
    FloorIn(x - 60.0 * (w as real), q % 60);
  }
}

=== FILE: email_verification_page.dfy ===
/**
 * The email-verification page (`src/app/register/instructions-email/page.tsx`):
 * from the URL's `email` and `token` parameters it either verifies the
 * token or sends a verification mail, and it guards the resend button with
 * a day-long countdown. Verification is split at its `await`: `OnQuery`
 * starts it and `OnVerified` consumes the server's answer. Resend is split
 * the same way into `HandleResend` and `ResendSettled`.
 */
module EmailVerificationPage {
  import opened Wrappers
  import Countdown

  datatype View = Instructions | Verifying | SuccessView | ErrorView

  /** The seconds the resend button stays locked after a mail is sent. */
  const ResendSeconds: nat := 86400

  datatype Page = Page(view: View, email: string, lastKey: string, countdown: Countdown.Clock)

  /** The state on first render. */
  const Initial := Page(Instructions, "", "", Countdown.Idle)

  /** The URL query: its serialised form and the two parameters, if present. */
  datatype Query = Query(key: string, email: Option<string>, token: Option<string>)

  datatype Request = VerifyEmailCall(email: string, token: string) | SendVerificationCall(email: string)

  /** How a server call settled. */
  datatype Outcome = Done | Failed(message: string)

  datatype Handled = Handled(page: Page, requests: seq<Request>)

  predicate Present(p: Option<string>) {
    p.Some? && p.value != ""
  }

  /**
   * The query effect. An unchanged query, or one without an email, changes
   * nothing (the key is still recorded). With a token the page starts
   * verifying; without one it sends a mail and then, whatever the outcome,
   * shows the instructions and starts the countdown.
   */
  function OnQuery(page: Page, q: Query, sent: Outcome): (r: Handled)
    ensures q.key == page.lastKey ==> r == Handled(page, [])
    ensures q.key != page.lastKey && !Present(q.email) ==> r == Handled(page.(lastKey := q.key), [])
    ensures q.key != page.lastKey && Present(q.email) && Present(q.token) ==>
              r.page == page.(lastKey := q.key, email := q.email.value, view := Verifying)
              && r.requests == [VerifyEmailCall(q.email.value, q.token.value)]
    ensures q.key != page.lastKey && Present(q.email) && !Present(q.token) ==>
              r.requests == [SendVerificationCall(q.email.value)]
              && r.page == page.(lastKey := q.key, email := q.email.value, view := Instructions,
                                 countdown := Countdown.Start(page.countdown, ResendSeconds))
  {
    if q.key == page.lastKey then Handled(page, [])
    else
      var p := page.(lastKey := q.key);
      var email := if q.email.Some? then q.email.value else "";
      if email == "" then Handled(p, [])
      else if Present(q.token) then Handled(p.(email := email, view := Verifying), [VerifyEmailCall(email, q.token.value)])
      else
        // `finally`: the view and the countdown do not depend on `sent`.
        Handled(p.(email := email, view := Instructions, countdown := Countdown.Start(p.countdown, ResendSeconds)),
                [SendVerificationCall(email)])
  }

  /** The verification answer: success or error. */
  function OnVerified(page: Page, verified: Outcome): (r: Page)
    ensures r.view == (if verified.Done? then SuccessView else ErrorView)
    ensures r.(view := page.view) == page
  {
    page.(view := if verified.Done? then SuccessView else ErrorView)
  }

  /** Sending a mail from the URL ends the same way whether or not the server accepted it. */
  lemma SendOutcomeIrrelevant(page: Page, q: Query, a: Outcome, b: Outcome)
    ensures OnQuery(page, q, a) == OnQuery(page, q, b)
  {
  }

  /**
   * A click on resend: nothing without an email or while the countdown runs;
   * otherwise one verification mail. The click changes nothing on the page,
   * so the button stays enabled until the request settles.
   */
  function HandleResend(page: Page): (r: seq<Request>)
    ensures r == [] <==> page.email == "" || !page.countdown.ready
    ensures r != [] ==> r == [SendVerificationCall(page.email)]
  {
    if page.email == "" || !page.countdown.ready then [] else [SendVerificationCall(page.email)]
  }

  /** The resend call's answer: in `finally`, so the countdown restarts whatever the outcome; nothing else changes. */
  function ResendSettled(page: Page, sent: Outcome): (r: Page)
    ensures r.(countdown := page.countdown) == page
    ensures r.countdown == Countdown.Start(page.countdown, ResendSeconds)
  {
    page.(countdown := Countdown.Start(page.countdown, ResendSeconds))
  }

  /**
   * Once a resend has settled, with either outcome, the button is locked;
   * before it settles a second click sends a second mail.
   */
  lemma ResendLockedOnceSettled(page: Page, sent: Outcome)
    requires page.email != "" && page.countdown.ready
    ensures HandleResend(ResendSettled(page, sent)) == []
    ensures HandleResend(page) + HandleResend(page) == [SendVerificationCall(page.email), SendVerificationCall(page.email)]
  {
  }

  /**
   * A verification link leads through `Verifying` to a final view fixed by
   * the server's answer. Within one mount, re-running the effect with the
   * unchanged query does not verify again; a browser reload mounts the page
   * afresh with an empty last key, so the same link is verified a second
   * time.
   */
  lemma VerificationRun(page: Page, q: Query, verified: Outcome, sent: Outcome)
    requires q.key != page.lastKey && Present(q.email) && Present(q.token)
    ensures var started := OnQuery(page, q, sent);
            var done := OnVerified(started.page, verified);
            started.page.view == Verifying
            && done.view == (if verified.Done? then SuccessView else ErrorView)
            && OnQuery(done, q, sent).requests == []
    ensures q.key != Initial.lastKey ==>
              OnQuery(Initial, q, sent).requests == [VerifyEmailCall(q.email.value, q.token.value)]
  {
  }
}

=== FILE: form_rules.dfy ===
/**
 * The credential rules of the sign-up form (`src/components/Register.tsx`),
 * the sign-in form (`src/components/Login.tsx`) and the password-reset form
 * (`src/app/recovery/page.tsx`). Each regular expression is restated as a
 * predicate over characters; the email pattern is given both as the regex
 * reads (a split at a literal `@` and `.`) and as a direct scan, and the two
 * are proved equal. Lengths are counted as JavaScript's `length` and zod
 * count them, in UTF-16 code units.
 */
module FormRules {
  import opened Wrappers
  import opened Text

  // ---------------------------------------------------------------------
  // Character-class tests: `/[A-Z]/.test(s)` and friends

  predicate HasUpper(s: string) {
    exists i :: 0 <= i < |s| && IsUpper(s[i])
  }

  predicate HasLower(s: string) {
    exists i :: 0 <= i < |s| && IsLower(s[i])
  }

  predicate HasDigit(s: string) {
    exists i :: 0 <= i < |s| && IsDigit(s[i])
  }

  /** `/[^A-Za-z0-9]/.test(s)`. */
  predicate HasSpecial(s: string) {
    exists i :: 0 <= i < |s| && !IsAlnum(s[i])
  }

  /** Regex `\w`: letters, digits and the underscore. */
  predicate IsWordChar(c: char) {
    IsAlnum(c) || c == '_'
  }

  /** `/[\W_]/.test(s)`: a non-word character or an underscore. */
  predicate HasNonWordOrUnderscore(s: string) {
    exists i :: 0 <= i < |s| && (!IsWordChar(s[i]) || s[i] == '_')
  }

  /** `/^\S*$/.test(s)`. */
  predicate NoWhitespace(s: string) {
    forall i :: 0 <= i < |s| ==> !IsSpace(s[i])
  }

  /** The sign-in form's special-character class `[\W_]` is exactly the sign-up form's `[^A-Za-z0-9]`. */
  lemma SpecialClassesAgree(s: string)
    ensures HasNonWordOrUnderscore(s) <==> HasSpecial(s)
  {
    if HasSpecial(s) {
      var i :| 0 <= i < |s| && !IsAlnum(s[i]);
      assert !IsWordChar(s[i]) || s[i] == '_';
    }
    if HasNonWordOrUnderscore(s) {
      var i :| 0 <= i < |s| && (!IsWordChar(s[i]) || s[i] == '_');
      assert !IsAlnum(s[i]);
    }
  }

  // ---------------------------------------------------------------------
  // The email pattern `^[^\s@]+@[^\s@]+\.[^\s@]+$`

  /** A character of the class `[^\s@]`. */
  predicate IsAddressChar(c: char) {
    !IsSpace(c) && c != '@'
  }

  /** A run `[^\s@]*`. */
  predicate AddressChars(s: string) {
    forall i :: 0 <= i < |s| ==> IsAddressChar(s[i])
  }

  /**
   * The regex matches with its `@` at position `at` and its `\.` at position
   * `dot`: three non-empty runs of `[^\s@]` around them.
   */
  predicate EmailSplit(s: string, at: int, dot: int) {
    0 < at && at + 1 < dot && dot + 1 < |s|
    && s[at] == '@' && s[dot] == '.'
    && AddressChars(s[..at]) && AddressChars(s[at + 1..dot]) && AddressChars(s[dot + 1..])
  }

  /** The regex reading: some placement of `@` and `.` matches the whole string. */
  predicate MatchesEmailPattern(s: string) {
    exists at, dot | 0 <= at < |s| && 0 <= dot < |s| :: EmailSplit(s, at, dot)
  }

  /** The position of the first `@`, if any. */
  function IndexOfAt(s: string): (r: Option<nat>)
    ensures r.Some? ==> r.value < |s| && s[r.value] == '@' && '@' !in s[..r.value]
    ensures r.None? ==> '@' !in s
  {
    if |s| == 0 then None
    else if s[0] == '@' then Some(0)
    else match IndexOfAt(s[1..])
      case None => None
      case Some(k) =>
        assert s[..k + 1] == [s[0]] + s[1..][..k];
        Some(k + 1)
  }

  /** The domain part after `@`: address characters with a `.` that is neither first nor last. */
  predicate ValidDomain(d: string) {
    AddressChars(d) && |d| >= 3 && '.' in d[1..|d| - 1]
  }

  /** A direct scan for the email shape: a local part before the first `@`, and a valid domain after it. */
  predicate ValidEmailShape(s: string) {
    match IndexOfAt(s)
    case None => false
    case Some(at) => at > 0 && AddressChars(s[..at]) && ValidDomain(s[at + 1..])
  }

  /** The scan accepts exactly the strings the regex matches. */
  lemma EmailShapeIffPattern(s: string)
    ensures ValidEmailShape(s) <==> MatchesEmailPattern(s)
  {
    if ValidEmailShape(s) {
      ShapeMatchesPattern(s);
    }
    if MatchesEmailPattern(s) {
      PatternHasShape(s);
    }
  }

  /** A string the scan accepts has a placement of `@` and `.` that the regex matches. */
  lemma ShapeMatchesPattern(s: string)
    requires ValidEmailShape(s)
    ensures MatchesEmailPattern(s)
  {
    var at := IndexOfAt(s).value;
    var d := s[at + 1..];
    var inner := d[1..|d| - 1];
    var k :| 0 <= k < |inner| && inner[k] == '.';
    var dot := at + 2 + k;
    assert s[at + 1..dot] == d[..k + 1];
    assert s[dot + 1..] == d[k + 2..];
    assert s[dot] == inner[k];
    assert EmailSplit(s, at, dot);
  }

  /** A string the regex matches is accepted by the scan, with the regex's `@` as the first one. */
  lemma PatternHasShape(s: string)
    requires MatchesEmailPattern(s)
    ensures ValidEmailShape(s)
  {
    var at, dot :| 0 <= at < |s| && 0 <= dot < |s| && EmailSplit(s, at, dot);
    assert '@' !in s[..at] by {
      assert AddressChars(s[..at]);
    }
    FirstAtIsAt(s, at);
    var d := s[at + 1..];
    DomainOfSplit(s, at, dot);
    assert d[1..|d| - 1][dot - at - 2] == '.';
  }

  /** Everything after the regex's `@` is an address character. */
  lemma DomainOfSplit(s: string, at: int, dot: int)
    requires EmailSplit(s, at, dot)
    ensures AddressChars(s[at + 1..])
  {
    var d := s[at + 1..];
    forall i | 0 <= i < |d| ensures IsAddressChar(d[i]) {
      if i < dot - at - 1 {
        assert d[i] == s[at + 1..dot][i];
      } else if i > dot - at - 1 {
        assert d[i] == s[dot + 1..][i - (dot - at)];
      }
    }
  }

  /** An `@` with none before it is the one `IndexOfAt` finds. */
  lemma {:induction false} FirstAtIsAt(s: string, at: nat)
    requires at < |s| && s[at] == '@' && '@' !in s[..at]
    ensures IndexOfAt(s) == Some(at)
  {
    if at > 0 {
      assert s[0] == s[..at][0];
      assert s[1..][..at - 1] == s[1..at];
      assert forall c :: c in s[1..at] ==> c in s[..at];
      FirstAtIsAt(s[1..], at - 1);
    }
  }

  /** The email rule shared by both forms: 4 to 50 code units, of the shape above. */
  predicate EmailOk(s: string) {
    4 <= Utf16Length(s) <= 50 && MatchesEmailPattern(s)
  }

  // ---------------------------------------------------------------------
  // Password rules

  /** The sign-up form's password rule. */
  predicate RegisterPasswordOk(p: string) {
    8 <= Utf16Length(p) <= 100 && HasUpper(p) && HasLower(p) && HasDigit(p) && HasSpecial(p)
  }

  /** The sign-in form's password rule. */
  predicate LoginPasswordOk(p: string) {
    8 <= Utf16Length(p) <= 20 && HasLower(p) && HasUpper(p) && HasDigit(p) && HasNonWordOrUnderscore(p) && NoWhitespace(p)
  }

  /** The reset form's `isValidPassword` (the reset schema checks the same five rules). */
  predicate IsValidPassword(p: string) {
    Utf16Length(p) >= 8 && HasUpper(p) && HasLower(p) && HasDigit(p) && HasSpecial(p)
  }

  /** The sign-up form's live checklist. */
  datatype Checklist = Checklist(length: bool, uppercase: bool, lowercase: bool, digit: bool, special: bool)

  /** The checklist as it is recomputed on every change of the password field. */
  function Requirements(p: string): (r: Checklist)
    ensures r.length <==> Utf16Length(p) >= 8
    ensures r.uppercase <==> HasUpper(p)
    ensures r.lowercase <==> HasLower(p)
    ensures r.digit <==> HasDigit(p)
    ensures r.special <==> HasSpecial(p)
  {
    Checklist(Utf16Length(p) >= 8, HasUpper(p), HasLower(p), HasDigit(p), HasSpecial(p))
  }

  predicate AllMet(c: Checklist) {
    c.length && c.uppercase && c.lowercase && c.digit && c.special
  }

  /**
   * A fully ticked checklist is exactly the reset form's password rule, and
   * together with the 100-unit cap exactly the sign-up password rule.
   */
  lemma ChecklistMatchesRules(p: string)
    ensures AllMet(Requirements(p)) <==> IsValidPassword(p)
    ensures RegisterPasswordOk(p) <==> AllMet(Requirements(p)) && Utf16Length(p) <= 100
  {
  }

  /**
   * The sign-in password rule is the sign-up rule narrowed to at most twenty
   * code units without whitespace.
   */
  lemma LoginRuleNarrowsRegisterRule(p: string)
    ensures LoginPasswordOk(p) <==> RegisterPasswordOk(p) && Utf16Length(p) <= 20 && NoWhitespace(p)
  {
    SpecialClassesAgree(p);
  }

  // ---------------------------------------------------------------------
  // The sign-up schema, issue by issue

  datatype Field = Username | Email | Password | ConfirmPassword

  datatype Pattern = EmailPattern | UpperPattern | LowerPattern | DigitPattern | SpecialPattern

  /** Which rule of the schema failed. */
  datatype Rule = MinLength(min: nat) | MaxLength(max: nat) | Regex(pattern: Pattern) | PasswordsDiffer

  datatype Issue = Issue(field: Field, rule: Rule)

  datatype SignUp = SignUp(username: string, email: string, password: string, confirmPassword: string)

  /** One check: no issue when it holds, its issue otherwise. */
  function Check(holds: bool, issue: Issue): (r: seq<Issue>)
    ensures r == [] <==> holds
    ensures forall x :: x in r ==> x == issue
    ensures !holds ==> issue in r
  {
    if holds then [] else [issue]
  }

  /** Three issue lists one after the other: empty exactly when all three are, holding exactly their issues. */
  function Concat3(a: seq<Issue>, b: seq<Issue>, c: seq<Issue>): (r: seq<Issue>)
    ensures r == [] <==> a == [] && b == [] && c == []
    ensures forall x :: x in r <==> x in a || x in b || x in c
  {
    a + b + c
  }

  /** The issues of the username field: none exactly when it has 4 to 20 code units. */
  function UsernameIssues(u: string): (r: seq<Issue>)
    ensures r == [] <==> 4 <= Utf16Length(u) <= 20
    ensures forall x :: x in r ==> x.field == Username
  {
    Check(Utf16Length(u) >= 4, Issue(Username, MinLength(4))) + Check(Utf16Length(u) <= 20, Issue(Username, MaxLength(20)))
  }

  /** The issues of the email field: none exactly when the shared email rule holds. */
  function EmailIssues(e: string): (r: seq<Issue>)
    ensures r == [] <==> EmailOk(e)
    ensures forall x :: x in r ==> x.field == Email
  {
    Check(Utf16Length(e) >= 4, Issue(Email, MinLength(4))) + Check(Utf16Length(e) <= 50, Issue(Email, MaxLength(50)))
    + Check(MatchesEmailPattern(e), Issue(Email, Regex(EmailPattern)))
  }

  /** The password's length issues: none exactly when it has 8 to 100 code units. */
  function PasswordLengthIssues(p: string): (r: seq<Issue>)
    ensures r == [] <==> 8 <= Utf16Length(p) <= 100
    ensures forall x :: x in r ==> x.field == Password
  {
    Check(Utf16Length(p) >= 8, Issue(Password, MinLength(8))) + Check(Utf16Length(p) <= 100, Issue(Password, MaxLength(100)))
  }

  /**
   * Each character above U+FFFF counts twice: a password of six characters,
   * two of them emoji, passes the 8-unit minimum and every other rule.
   */
  lemma AstralCharactersCountTwice()
    ensures var p := "Aa1!\U{1F600}\U{1F600}";
            |p| == 6 && Utf16Length(p) == 8 && PasswordLengthIssues(p) == [] && RegisterPasswordOk(p)
  {
    var p := "Aa1!\U{1F600}\U{1F600}";
    assert IsUpper(p[0]) && IsLower(p[1]) && IsDigit(p[2]) && !IsAlnum(p[3]);
    assert Utf16Length(p[5..]) == 2;
    assert Utf16Length(p[4..]) == 4;
    assert Utf16Length(p[3..]) == 5;
    assert Utf16Length(p[2..]) == 6;
    assert Utf16Length(p[1..]) == 7;
  }

  /** The password's letter issues: none exactly when it has an upper- and a lower-case letter. */
  function PasswordLetterIssues(p: string): (r: seq<Issue>)
    ensures r == [] <==> HasUpper(p) && HasLower(p)
    ensures forall x :: x in r ==> x.field == Password
  {
    Check(HasUpper(p), Issue(Password, Regex(UpperPattern))) + Check(HasLower(p), Issue(Password, Regex(LowerPattern)))
  }

  /** The password's other character issues: none exactly when it has a digit and a special character. */
  function PasswordSymbolIssues(p: string): (r: seq<Issue>)
    ensures r == [] <==> HasDigit(p) && HasSpecial(p)
    ensures forall x :: x in r ==> x.field == Password
  {
    Check(HasDigit(p), Issue(Password, Regex(DigitPattern))) + Check(HasSpecial(p), Issue(Password, Regex(SpecialPattern)))
  }

  /** The issues of the password field, in the schema's order: none exactly when the sign-up password rule holds. */
  function PasswordIssues(p: string): (r: seq<Issue>)
    ensures r == [] <==> RegisterPasswordOk(p)
    ensures forall x :: x in r ==> x.field == Password
  {
    Concat3(PasswordLengthIssues(p), PasswordLetterIssues(p), PasswordSymbolIssues(p))
  }

  /** The sign-up form's acceptance rule, field by field. */
  predicate SignUpValid(f: SignUp) {
    4 <= Utf16Length(f.username) <= 20 && EmailOk(f.email) && RegisterPasswordOk(f.password)
    && f.password == f.confirmPassword
  }

  /**
   * Every issue the sign-up schema reports, in order: the field checks (all
   * of them, as zod collects every string check), then the refinement that
   * compares the two passwords, reported on `confirmPassword`. The schema
   * reports nothing exactly when every rule holds, and the mismatch issue
   * exactly when the passwords differ.
   */
  function SignUpIssues(f: SignUp): (r: seq<Issue>)
    ensures r == [] <==> SignUpValid(f)
    ensures Issue(ConfirmPassword, PasswordsDiffer) in r <==> f.password != f.confirmPassword
  {
    var fields := FieldIssues(f);
    var confirm := Check(f.password == f.confirmPassword, Issue(ConfirmPassword, PasswordsDiffer));
    assert forall x :: x in fields + confirm ==> x in fields || x in confirm;
    fields + confirm
  }

  /** The field checks of the sign-up schema, in order: none exactly when every field rule holds. */
  function FieldIssues(f: SignUp): (r: seq<Issue>)
    ensures r == [] <==> 4 <= Utf16Length(f.username) <= 20 && EmailOk(f.email) && RegisterPasswordOk(f.password)
    ensures forall x :: x in r ==> x.field != ConfirmPassword
  {
    Concat3(UsernameIssues(f.username), EmailIssues(f.email), PasswordIssues(f.password))
  }

  /** The sign-in form's acceptance rule. */
  predicate SignInValid(email: string, password: string) {
    EmailOk(email) && LoginPasswordOk(password)
  }
}

=== FILE: friends.dfy ===
/**
 * The friends screen (`src/components/FriendsInterface.tsx`): the paging
 * state shared by its three tabs, which side of a friendship is shown, the
 * avatar of a pending request, and the answer sent by Accept and Reject.
 */
module Friends {
  import opened Wrappers
  import Paginator

  /** The page sizes the list controls offer. */
  type PageSize = n: nat | n == 5 || n == 10 || n == 25 || n == 50 witness 10

  datatype Direction = Asc | Desc

  /** The paging state: one page index, size and direction for all three tabs. */
  datatype Listing = Listing(page: nat, size: PageSize, direction: Direction)

  /** The state on first render: the first page, ten per page, newest first. */
  const Initial := Listing(0, 10, Desc)

  /** A size change: the new size, back on the first page. */
  function OnSizeChange(l: Listing, s: PageSize): (r: Listing)
    ensures r.page == 0 && r.size == s && r.direction == l.direction
  {
    Listing(0, s, l.direction)
  }

  /** A direction change: the new direction, back on the first page. */
  function OnDirectionChange(l: Listing, d: Direction): (r: Listing)
    ensures r.page == 0 && r.direction == d && r.size == l.size
  {
    Listing(0, l.size, d)
  }

  /** The paginator's page change. */
  function OnPageChange(l: Listing, p: nat): (r: Listing)
    ensures r.page == p && r.size == l.size && r.direction == l.direction
  {
    l.(page := p)
  }

  /**
   * After a size or direction change the page shown exists whenever the
   * list is not empty, whatever page was shown before.
   */
  lemma ResetPageExists(l: Listing, s: PageSize, d: Direction, total: nat)
    requires total > 0
    ensures OnSizeChange(l, s).page < Paginator.TotalPages(total, s)
    ensures OnDirectionChange(l, d).page < Paginator.TotalPages(total, l.size)
  {
  }

  /** Without the reset, a larger page size could leave the shown page past the last one. */
  lemma KeepingThePageCouldOverrun()
    ensures var before := Listing(4, 10, Desc);
            before.page < Paginator.TotalPages(50, before.size)
            && !(before.page < Paginator.TotalPages(50, 50))
  {
  }

  /** A friendship as listed by the server. */
  datatype Friendship = Friendship(
    friendshipId: int,
    senderUsername: string, senderProfileImage: string,
    receiverUsername: string, receiverProfileImage: string)

  /** The user shown on a friend card. */
  datatype Shown = Shown(username: string, image: string)

  /**
   * The friend card's user: the receiver, with the receiver's image, when I
   * sent the request; the sender, with the sender's image, otherwise.
   */
  function OtherUser(me: Option<string>, f: Friendship): (r: Shown)
    ensures Some(f.senderUsername) == me ==> r == Shown(f.receiverUsername, f.receiverProfileImage)
    ensures Some(f.senderUsername) != me ==> r == Shown(f.senderUsername, f.senderProfileImage)
  {
    if Some(f.senderUsername) == me then Shown(f.receiverUsername, f.receiverProfileImage)
    else Shown(f.senderUsername, f.senderProfileImage)
  }

  /** A pending request's avatar: the sender's image unless I am the sender, then the receiver's. */
  function PendingAvatar(me: Option<string>, req: Friendship): (r: string)
    ensures Some(req.senderUsername) != me ==> r == req.senderProfileImage
    ensures Some(req.senderUsername) == me ==> r == req.receiverProfileImage
  {
    if Some(req.senderUsername) != me then req.senderProfileImage else req.receiverProfileImage
  }

  /** The pending card's avatar and the friend card's image always show the same person. */
  lemma AvatarMatchesCard(me: Option<string>, f: Friendship)
    ensures PendingAvatar(me, f) == OtherUser(me, f).image
  {
  }

  /** A received request shows its sender. */
  lemma ReceivedRequestShowsSender(me: string, f: Friendship)
    requires f.receiverUsername == me && f.senderUsername != me
    ensures OtherUser(Some(me), f) == Shown(f.senderUsername, f.senderProfileImage)
    ensures PendingAvatar(Some(me), f) == f.senderProfileImage
  {
  }

  /** The answer to a pending request. */
  datatype Answer = Accept | Reject

  datatype Request = ResponseCall(friendshipId: int, answerType: string)

  /** The `type` value the server receives for an answer. */
  function AnswerType(a: Answer): (r: string)
    ensures a.Accept? ==> r == "ACCEPTED"
    ensures a.Reject? ==> r == "REJECTED"
  {
    match a
    case Accept => "ACCEPTED"
    case Reject => "REJECTED"
  }

  /** The Accept and Reject buttons: the request's id with the answer's type. */
  function Respond(req: Friendship, a: Answer): (r: Request)
    ensures r.friendshipId == req.friendshipId
    ensures r.answerType == AnswerType(a)
  {
    ResponseCall(req.friendshipId, AnswerType(a))
  }

  /** The two buttons send different answers, so the server can tell them apart. */
  lemma AnswersDistinguishable(req: Friendship, a: Answer, b: Answer)
    ensures Respond(req, a) == Respond(req, b) <==> a == b
  {
  }
}

=== FILE: jwt.dfy ===
/**
 * Token-expiry helpers of the session core (`src/help/jwtParsing.ts`).
 *
 * The signed access token is treated abstractly: either it decodes to its
 * `exp` (seconds since the epoch) and `sub` claims, or decoding fails. The
 * wall clock is passed in as milliseconds since the epoch, the unit of
 * `Date.now()`.
 */
module Jwt {
  import opened Wrappers

  /** An access token as the client sees it after `jwtDecode`. */
  datatype Token = Token(exp: int, sub: string) | Malformed

  /** The claims the client reads from a token. */
  datatype Claims = Claims(exp: int, sub: string)

  /** The error `jwtDecode` throws on a token it cannot parse. */
  datatype DecodeError = InvalidToken

  /** `jwtDecode`: a partial function from tokens to their claims. */
  function Decode(t: Token): (r: Result<Claims, DecodeError>)
    ensures r.Success? <==> t.Token?
    ensures r.Success? ==> r.value.exp == t.exp && r.value.sub == t.sub
  {
    match t
    case Token(exp, sub) => Success(Claims(exp, sub))
    case Malformed => Failure(InvalidToken)
  }

  /** `Math.floor(Date.now() / 1000)`: the current time in whole seconds. */
  function NowSeconds(nowMs: int): (r: int)
    ensures r * 1000 <= nowMs < r * 1000 + 1000
  {
    nowMs / 1000
  }

  /**
   * `secondsUntilExpire(jwt, skew)`: the seconds left before `exp - skew`,
   * floored at zero; a decode failure propagates.
   */
  function SecondsUntilExpire(t: Token, skew: int, nowMs: int): (r: Result<nat, DecodeError>)
    ensures r.Failure? <==> t.Malformed?
    ensures r.Success? ==> (r.value == 0 <==> NowSeconds(nowMs) >= t.exp - skew)
    ensures r.Success? && r.value > 0 ==> NowSeconds(nowMs) + skew + r.value == t.exp
  {
    var claims :- Decode(t);
    var left := claims.exp - skew - NowSeconds(nowMs);
    Success(if left > 0 then left else 0)
  }

  /** `getSubject(jwt)`: the `sub` claim; a decode failure propagates. */
  function GetSubject(t: Token): (r: Result<string, DecodeError>)
    ensures r.Failure? <==> t.Malformed?
    ensures r.Success? ==> r.value == t.sub
  {
    var claims :- Decode(t);
    Success(claims.sub)
  }

  /** A larger skew never leaves more time. */
  lemma SecondsUntilExpireAntitoneInSkew(t: Token, skew1: int, skew2: int, nowMs: int)
    requires t.Token? && skew1 <= skew2
    ensures SecondsUntilExpire(t, skew2, nowMs).value <= SecondsUntilExpire(t, skew1, nowMs).value
  {
  }

  /** As the clock advances, the time left never grows. */
  lemma SecondsUntilExpireAntitoneInTime(t: Token, skew: int, now1: int, now2: int)
    requires t.Token? && now1 <= now2
    ensures SecondsUntilExpire(t, skew, now2).value <= SecondsUntilExpire(t, skew, now1).value
  {
    assert NowSeconds(now1) <= NowSeconds(now2);
  }
}

=== FILE: lessons_page.dfy ===
/**
 * The lesson forms of the lessons page (`src/app/lessons/page.tsx`): the
 * duration input's clamp at 60 minutes, the numeric defaults sent on create
 * and update, and the Create button's guard. The list plumbing of the page
 * lives in `Catalog`.
 */
module LessonsPage {
  import opened Wrappers
  import Catalog
  import Text

  /** The longest duration the input keeps, in minutes. */
  const MaxDuration: int := 60

  /** The create form's fields; the duration is the input's raw text. */
  datatype LessonForm = LessonForm(title: string, description: string, duration: string)

  const EmptyForm := LessonForm("", "", "")

  datatype Request =
    | CreateLessonCall(title: string, description: string, durationMinutes: int)
    | UpdateLessonCall(id: int, newTitle: Option<string>, newDescription: Option<string>, durationMinutes: int)

  datatype Outcome = Done | Failed(message: string)

  /** The duration input's change handler: a value above 60 is replaced by `"60"`, anything else is kept as typed. */
  function DurationInput(typed: string): (r: string)
    ensures Catalog.NumberOf(typed).Some? && Catalog.NumberOf(typed).value > MaxDuration ==> r == "60"
    ensures !(Catalog.NumberOf(typed).Some? && Catalog.NumberOf(typed).value > MaxDuration) ==> r == typed
  {
    var n := Catalog.NumberOf(typed);
    if n.Some? && n.value > MaxDuration then "60" else typed
  }

  /** The text `"60"` reads as 60. */
  lemma SixtyReadsAsSixty()
    ensures Catalog.NumberOf("60") == Some(60)
  {
    Catalog.NumberOfDigits("60");
    assert "60"[..1] == "6";
  }

  /** Whatever is typed, the stored text reads as at most 60 or as no number at all. */
  lemma DurationInputBounded(typed: string)
    ensures Catalog.NumberOf(DurationInput(typed)).None? || Catalog.NumberOf(DurationInput(typed)).value <= MaxDuration
  {
    SixtyReadsAsSixty();
  }

  /** Clamping what is already stored changes nothing. */
  lemma DurationInputIdempotent(typed: string)
    ensures DurationInput(DurationInput(typed)) == DurationInput(typed)
  {
    SixtyReadsAsSixty();
  }

  /**
   * A click on Create: nothing for a blank title; otherwise the fields are
   * sent with `Number(duration) || 0`. The click leaves the form as it is,
   * and nothing disables the button while the request is pending.
   */
  function ClickCreate(form: LessonForm): (r: seq<Request>)
    ensures r == [] <==> Text.TrimsToEmpty(form.title)
    ensures r != [] ==> r == [CreateLessonCall(form.title, form.description, Catalog.NumberOrZero(form.duration))]
  {
    if Text.TrimsToEmpty(form.title) then []
    else [CreateLessonCall(form.title, form.description, Catalog.NumberOrZero(form.duration))]
  }

  /** The create call's answer: success empties the form, whatever it holds by then; failure keeps it. */
  function CreateSettled(form: LessonForm, created: Outcome): (r: LessonForm)
    ensures created.Done? ==> r == EmptyForm
    ensures created.Failed? ==> r == form
  {
    if created.Done? then EmptyForm else form
  }

  /** A duration entered through the input is never sent above 60 minutes. */
  lemma CreatedDurationAtMostSixty(form: LessonForm, typed: string)
    ensures forall c :: c in ClickCreate(form.(duration := DurationInput(typed))) ==>
              c.durationMinutes <= MaxDuration
  {
    var f := form.(duration := DurationInput(typed));
    DurationInputBounded(typed);
    assert Catalog.NumberOrZero(f.duration) <= MaxDuration;
  }

  /**
   * Once a create has settled successfully the button is disabled until a
   * title is typed again, and a second click before the answer sends the
   * same lesson again.
   */
  lemma CreateDisabledAfterSuccess(pending: LessonForm)
    ensures CreateSettled(pending, Done) == EmptyForm
    ensures ClickCreate(CreateSettled(pending, Done)) == []
    ensures !Text.TrimsToEmpty(pending.title) ==> |ClickCreate(pending) + ClickCreate(pending)| == 2
  {
  }

  /** The update call: the lesson's fields as they are, the duration defaulting to 0 when missing. */
  function UpdateLesson(id: int, title: Option<string>, description: Option<string>, durationMinutes: Option<int>): (r: Request)
    ensures r.UpdateLessonCall? && r.id == id && r.newTitle == title && r.newDescription == description
    ensures durationMinutes.Some? ==> r.durationMinutes == durationMinutes.value
    ensures durationMinutes.None? ==> r.durationMinutes == 0
  {
    UpdateLessonCall(id, title, description, durationMinutes.GetOr(0))
  }

  /**
   * The edit input does not clamp: a duration above 60 typed into the edit
   * form is sent as typed, while the same text typed into the create form
   * is never sent above 60.
   */
  lemma EditDurationIsNotClamped(id: int, title: Option<string>, description: Option<string>, n: nat, form: LessonForm)
    requires n > MaxDuration
    ensures UpdateLesson(id, title, description, Some(n)).durationMinutes == n
    ensures forall c :: c in ClickCreate(form.(duration := DurationInput(Text.NatToString(n)))) ==>
              c.durationMinutes <= MaxDuration
  {
    CreatedDurationAtMostSixty(form, Text.NatToString(n));
  }
}

=== FILE: modules_page.dfy ===
/**
 * The create-module form of the modules page (`src/app/modules/page.tsx`):
 * the Create button's guard and the form reset after a successful create.
 * The create is split at its request: `ClickCreate` is the click, which
 * sends, and `CreateSettled` is the mutation's answer, applied to the form
 * as it is when the answer arrives. Nothing disables the button while the
 * request is pending. The list plumbing of the page lives in `Catalog`.
 */
module ModulesPage {
  import Text

  datatype Visibility = Public | Private

  /** The create form's fields. */
  datatype ModuleForm = ModuleForm(title: string, description: string, visibility: Visibility)

  /** The form on first render and after a successful create. */
  const EmptyForm := ModuleForm("", "", Public)

  datatype Request = CreateModuleCall(title: string, description: string, visibility: Visibility)

  /** How the create call settled. */
  datatype Outcome = Done | Failed(message: string)

  /**
   * A click on Create. A blank title leaves the button disabled: nothing is
   * sent. Otherwise the form's fields are sent as typed. The click itself
   * leaves the form as it is.
   */
  function ClickCreate(form: ModuleForm): (r: seq<Request>)
    ensures r == [] <==> Text.TrimsToEmpty(form.title)
    ensures r != [] ==> r == [CreateModuleCall(form.title, form.description, form.visibility)]
  {
    if Text.TrimsToEmpty(form.title) then [] else [CreateModuleCall(form.title, form.description, form.visibility)]
  }

  /**
   * The create call's answer: success empties the form, whatever it holds by
   * then, and restores `PUBLIC`; failure keeps the form for another try.
   */
  function CreateSettled(form: ModuleForm, created: Outcome): (r: ModuleForm)
    ensures created.Done? ==> r == EmptyForm
    ensures created.Failed? ==> r == form
  {
    if created.Done? then EmptyForm else form
  }

  /** Every module the page asks to create has a title with a non-space character. */
  lemma CreatedTitlesAreNotBlank(form: ModuleForm)
    ensures forall c :: c in ClickCreate(form) ==>
              exists i :: 0 <= i < |c.title| && !Text.IsSpace(c.title[i])
  {
  }

  /**
   * Once a create has settled successfully the button is disabled until a
   * title is typed again: whatever the form held when the answer came, the
   * next click sends nothing.
   */
  lemma CreateDisabledAfterSuccess(pending: ModuleForm)
    ensures CreateSettled(pending, Done) == EmptyForm
    ensures ClickCreate(CreateSettled(pending, Done)) == []
  {
  }

  /**
   * While the request is pending the button stays enabled: a second click on
   * the same titled form, before the answer, sends the same module again.
   */
  lemma SecondClickWhilePendingSendsAgain(form: ModuleForm)
    requires !Text.TrimsToEmpty(form.title)
    ensures var call := CreateModuleCall(form.title, form.description, form.visibility);
            ClickCreate(form) + ClickCreate(form) == [call, call]
  {
  }
}

=== FILE: paginator.dfy ===
/**
 * Page arithmetic of the list controls (`src/components/Paginator.tsx`):
 * the page count, when Previous and Next are enabled and where they lead,
 * and the two labels. Pages are numbered from 0 internally and shown from 1.
 */
module Paginator {
  import opened Text

  /** `Math.ceil(total / size)`: the number of pages needed for `total` items. */
  function TotalPages(total: nat, size: nat): (r: nat)
    requires size > 0
    ensures r * size >= total
    ensures r == 0 || (r - 1) * size < total
  {
    (total + size - 1) / size
  }

  /** Every page below the count holds at least one item, and the count covers them all. */
  lemma {:induction false} TotalPagesIsCeiling(total: nat, size: nat, p: nat)
    requires size > 0
    ensures p < TotalPages(total, size) ==> p * size < total
    ensures p * size >= total ==> TotalPages(total, size) <= p
  {
    var t := TotalPages(total, size);
    if p < t {
      assert p <= t - 1;
      assert p * size <= (t - 1) * size;
    }
  }

  /** Previous is enabled unless on the first page. */
  predicate PrevEnabled(page: nat) {
    page != 0
  }

  /** Next is enabled while a page after the current one exists. */
  predicate NextEnabled(page: nat, totalPages: nat) {
    !(page + 1 >= totalPages)
  }

  /** The page Previous requests. */
  function PrevPage(page: nat): (r: nat)
    requires PrevEnabled(page)
    ensures r + 1 == page
  {
    page - 1
  }

  /** The page Next requests. */
  function NextPage(page: nat, totalPages: nat): (r: nat)
    requires NextEnabled(page, totalPages)
    ensures r == page + 1 && r < totalPages
  {
    page + 1
  }

  /** The page count shown: `totalPages || 1`. */
  function ShownTotal(totalPages: nat): (r: nat)
    ensures r >= 1 && r >= totalPages
    ensures totalPages > 0 ==> r == totalPages
  {
    if totalPages == 0 then 1 else totalPages
  }

  /** "Page {page + 1} of {totalPages || 1}": both numbers read back from the label. */
  function PageLabel(page: nat, totalPages: nat): (r: string)
    ensures "Page " <= r
    ensures var n := |NatToString(page + 1)|;
            5 + n + 4 < |r| && r[5 + n..5 + n + 4] == " of "
            && AllDigits(r[5..5 + n]) && DigitsValue(r[5..5 + n]) == page + 1
            && AllDigits(r[5 + n + 4..]) && DigitsValue(r[5 + n + 4..]) == ShownTotal(totalPages)
  {
    var shown, count := NatToString(page + 1), NatToString(ShownTotal(totalPages));
    var r := "Page " + shown + " of " + count;
    assert r[5..5 + |shown|] == shown;
    assert r[5 + |shown| + 4..] == count;
    NatToStringRoundTrip(page + 1);
    NatToStringRoundTrip(ShownTotal(totalPages));
    r
  }

  /** "Showing page {page + 1}, total {total} results": both numbers read back from the label. */
  function ListControlsLabel(page: nat, total: nat): (r: string)
    ensures "Showing page " <= r
    ensures var n, m := |NatToString(page + 1)|, |NatToString(total)|;
            |r| == 13 + n + 8 + m + 8 && r[13 + n..13 + n + 8] == ", total " && r[13 + n + 8 + m..] == " results"
            && AllDigits(r[13..13 + n]) && DigitsValue(r[13..13 + n]) == page + 1
            && AllDigits(r[13 + n + 8..13 + n + 8 + m]) && DigitsValue(r[13 + n + 8..13 + n + 8 + m]) == total
  {
    var shown, count := NatToString(page + 1), NatToString(total);
    var r := "Showing page " + shown + ", total " + count + " results";
    assert r[13..13 + |shown|] == shown;
    assert r[13 + |shown| + 8..13 + |shown| + 8 + |count|] == count;
    NatToStringRoundTrip(page + 1);
    NatToStringRoundTrip(total);
    r
  }

  /** From a page inside the range, any enabled button keeps the page inside it. */
  lemma ButtonsStayInRange(page: nat, totalPages: nat)
    requires page < totalPages
    ensures PrevEnabled(page) ==> PrevPage(page) < totalPages
    ensures NextEnabled(page, totalPages) ==> NextPage(page, totalPages) < totalPages
  {
  }

  /**
   * The buttons agree with the label: Next is enabled exactly when the shown
   * page number is below the shown page count, Previous exactly when the
   * shown page number is above 1.
   */
  lemma ButtonsMatchLabel(page: nat, totalPages: nat)
    ensures NextEnabled(page, totalPages) <==> page + 1 < ShownTotal(totalPages)
    ensures PrevEnabled(page) <==> page + 1 > 1
  {
  }
}

=== FILE: recovery_page.dfy ===
/**
 * The password-recovery page (`src/app/recovery/page.tsx`): the decision
 * from the URL's `email` and `token` parameters to a view, and the guards of
 * the resend and reset handlers. The query effect and the reset handler are
 * given the outcome of their server call as a parameter; resend is split at
 * its request into the click, `HandleResend`, and the answer,
 * `ResendSettled`. A failed call carries its error message, `""` when it
 * has none.
 */
module RecoveryPage {
  import opened Wrappers
  import Countdown

  datatype View = Forgot | Instructions | Form | SuccessView | ErrorView

  /** The seconds the resend button stays locked after a mail is sent. */
  const ResendSeconds: nat := 120

  /** The page's state: the view, the email in use, the banner error, the last processed query and the countdown. */
  datatype Page = Page(view: View, email: string, globalError: Option<string>, lastKey: string, countdown: Countdown.Clock)

  /** The state on first render. */
  const Initial := Page(Forgot, "", None, "", Countdown.Idle)

  /** The URL query: its serialised form and the two parameters, if present. */
  datatype Query = Query(key: string, email: Option<string>, token: Option<string>)

  /** The server calls the page makes. */
  datatype Request = ForgotPasswordCall(email: string) | ResetPasswordCall(email: string, token: string, newPassword: string)

  /** How a server call settled. */
  datatype Outcome = Done | Failed(message: string)

  /** The page after a handler, with the calls it made. */
  datatype Handled = Handled(page: Page, requests: seq<Request>)

  /** `e?.message || fallback`. */
  function MessageOr(message: string, fallback: string): (r: string)
    ensures message != "" ==> r == message
    ensures message == "" ==> r == fallback
  {
    if message != "" then message else fallback
  }

  /** A query parameter used as a condition: absent and `""` are falsy. */
  predicate Present(p: Option<string>) {
    p.Some? && p.value != ""
  }

  /**
   * The query effect. An unchanged query is not reprocessed. Otherwise:
   * neither parameter gives the request form; an email alone sends a reset
   * mail and shows the instructions (or the error, with the server's message);
   * both give the new-password form; a token alone is an invalid URL.
   */
  function OnQuery(page: Page, q: Query, sent: Outcome): (r: Handled)
    ensures q.key == page.lastKey ==> r == Handled(page, [])
    ensures q.key != page.lastKey ==> r.page.lastKey == q.key
    ensures q.key != page.lastKey && !Present(q.email) && !Present(q.token) ==>
              r.page.view == Forgot && r.requests == [] && r.page.globalError.None?
    ensures q.key != page.lastKey && Present(q.email) && !Present(q.token) ==>
              r.requests == [ForgotPasswordCall(q.email.value)] && r.page.email == q.email.value
              && (sent.Done? ==> r.page.view == Instructions && r.page.globalError.None?
                                 && r.page.countdown == Countdown.Start(page.countdown, ResendSeconds))
              && (sent.Failed? ==> r.page.view == ErrorView
                                   && r.page.globalError == Some(MessageOr(sent.message, "Failed to send reset email.")))
    ensures q.key != page.lastKey && Present(q.email) && Present(q.token) ==>
              r.page.view == Form && r.page.email == q.email.value && r.requests == []
    ensures q.key != page.lastKey && !Present(q.email) && Present(q.token) ==>
              r.page.view == ErrorView && r.page.globalError == Some("Invalid recovery URL.") && r.requests == []
  {
    if q.key == page.lastKey then Handled(page, [])
    else
      var p := page.(lastKey := q.key, globalError := None);
      var email := if q.email.Some? then q.email.value else "";
      if email == "" && !Present(q.token) then Handled(p.(view := Forgot), [])
      else if email != "" && !Present(q.token) then
        var withEmail := p.(email := email);
        match sent
        case Done =>
          Handled(withEmail.(view := Instructions, countdown := Countdown.Start(p.countdown, ResendSeconds)),
                  [ForgotPasswordCall(email)])
        case Failed(msg) =>
          Handled(withEmail.(view := ErrorView, globalError := Some(MessageOr(msg, "Failed to send reset email."))),
                  [ForgotPasswordCall(email)])
      else if email != "" && Present(q.token) then Handled(p.(email := email, view := Form), [])
      else Handled(p.(view := ErrorView, globalError := Some("Invalid recovery URL.")), [])
  }

  /** The four URL shapes lead to four different views, and only the email-only shape calls the server. */
  lemma ViewDecisionTable(page: Page, q: Query, sent: Outcome)
    requires q.key != page.lastKey
    ensures var r := OnQuery(page, q, sent);
            (r.requests != [] <==> Present(q.email) && !Present(q.token))
            && (r.page.view == Form <==> Present(q.email) && Present(q.token))
            && (r.page.view == Forgot <==> !Present(q.email) && !Present(q.token))
  {
  }

  /**
   * On first render the last key is `""`, so a query-less URL is skipped; the
   * skip is harmless, because processing it would show the same view.
   */
  lemma EmptyQuerySkipIsHarmless(sent: Outcome)
    ensures OnQuery(Initial, Query("", None, None), sent).page == Initial
    ensures OnQuery(Initial.(lastKey := "#"), Query("", None, None), sent).page.view == Initial.view
  {
  }

  /**
   * A click on resend: nothing without an email or while the countdown runs;
   * otherwise one reset mail. The click changes nothing on the page, so the
   * button stays enabled until the request settles.
   */
  function HandleResend(page: Page): (r: seq<Request>)
    ensures r == [] <==> page.email == "" || !page.countdown.ready
    ensures r != [] ==> r == [ForgotPasswordCall(page.email)]
  {
    if page.email == "" || !page.countdown.ready then [] else [ForgotPasswordCall(page.email)]
  }

  /** The resend call's answer: success restarts the countdown, failure only reports. */
  function ResendSettled(page: Page, sent: Outcome): (r: Page)
    ensures sent.Done? ==> r == page.(countdown := Countdown.Start(page.countdown, ResendSeconds))
    ensures sent.Failed? ==> r == page.(globalError := Some(MessageOr(sent.message, "Failed to resend email.")))
  {
    match sent
    case Done => page.(countdown := Countdown.Start(page.countdown, ResendSeconds))
    case Failed(msg) => page.(globalError := Some(MessageOr(msg, "Failed to resend email.")))
  }

  /** Reset: without a token nothing is sent; otherwise success shows the success view. */
  function HandleResetSubmit(page: Page, token: Option<string>, newPassword: string, reset: Outcome): (r: Handled)
    ensures !Present(token) ==>
              r.requests == [] && r.page == page.(globalError := Some("Invalid or missing reset token."))
    ensures Present(token) ==> r.requests == [ResetPasswordCall(page.email, token.value, newPassword)]
    ensures Present(token) && reset.Done? ==> r.page == page.(view := SuccessView)
    ensures Present(token) && reset.Failed? ==>
              r.page == page.(globalError := Some(MessageOr(reset.message, "Something went wrong while resetting your password.")))
  {
    if !Present(token) then Handled(page.(globalError := Some("Invalid or missing reset token.")), [])
    else
      var call := [ResetPasswordCall(page.email, token.value, newPassword)];
      match reset
      case Done => Handled(page.(view := SuccessView), call)
      case Failed(msg) =>
        Handled(page.(globalError := Some(MessageOr(msg, "Something went wrong while resetting your password."))), call)
  }

  /** The resend button stays inert until the countdown started by a sent mail has run out. */
  lemma ResendLockedAfterSend(page: Page, q: Query)
    requires q.key != page.lastKey && Present(q.email) && !Present(q.token)
    ensures HandleResend(OnQuery(page, q, Done).page) == []
  {
  }

  /**
   * Once a resend has settled, success locks the button and failure leaves
   * it open; before it settles a second click sends a second mail.
   */
  lemma ResendLockedOnceSettled(page: Page, message: string)
    requires page.email != "" && page.countdown.ready
    ensures HandleResend(ResendSettled(page, Done)) == []
    ensures HandleResend(ResendSettled(page, Failed(message))) == HandleResend(page)
    ensures HandleResend(page) + HandleResend(page) == [ForgotPasswordCall(page.email), ForgotPasswordCall(page.email)]
  {
  }
}

=== FILE: session.dfy ===
/**
 * The client-side session manager (`src/provider/AuthProvider.tsx`).
 *
 * The provider's React state and refs become one immutable record, and every
 * callback and effect becomes a transition function from a state to a `Step`.
 * JavaScript runs these callbacks on one thread, so a run of the provider is a
 * sequence of transitions. An asynchronous operation is split at its `await`:
 * the synchronous part issues a network request (recorded in `Step.requests`),
 * and a later transition consumes the server's answer. The clock is the
 * parameter `nowMs` (milliseconds, as `Date.now()` reports them).
 */
module Session {
  import opened Wrappers
  import opened Jwt

  /** Seconds before expiry at which the scheduled refresh should run. */
  const RefreshBufferSeconds: nat := 120
  /** The shortest delay the refresh timer is ever armed with. */
  const MinRefreshInterval: nat := 30
  /** On window focus, a valid token with fewer seconds left than this is refreshed. */
  const CriticalTimeThreshold: nat := 90

  /** The access-token cookie: the token and the `maxAge` it was written with. */
  datatype Cookie = Cookie(token: Token, maxAge: nat)

  /** The armed refresh timer: its delay and the username its callback will send. */
  datatype Timer = Timer(delaySeconds: nat, subject: string)

  /**
   * Who started the refresh that is in flight. Bootstrap and the focus handler
   * on an expired token chain `.then(() => setIsLoggedIn(true))` onto it; the
   * other callers attach only a `.catch`.
   */
  datatype Caller = Bootstrap | Focus(expired: bool) | ScheduledTimer | ImmediateSchedule

  /** True iff the caller marks the session logged in once its refresh succeeds. */
  predicate ThenLogsIn(c: Caller) {
    c.Bootstrap? || (c.Focus? && c.expired)
  }

  /**
   * The provider's state. `inFlight` is `isRefreshingRef` together with the
   * caller waiting on that refresh; `usernameCache` mirrors both the React
   * state and the `username_cache` entry of local storage.
   */
  datatype State = State(
    cookie: Option<Cookie>,
    timer: Option<Timer>,
    inFlight: Option<Caller>,
    loggedIn: bool,
    initialized: bool,
    usernameCache: Option<string>)
  {
    /** `isRefreshingRef.current`. */
    predicate Refreshing() {
      inFlight.Some?
    }
  }

  /** The state on first render. */
  const Initial := State(None, None, None, false, false, None)

  /** A network request issued by a transition. */
  datatype Request = RefreshCall(username: string) | LogoutCall(username: string)

  /** Errors the session operations throw or reject with. */
  datatype Error = Decode(reason: DecodeError) | AlreadyInProgress | Server(message: string)

  /** The server's answer to a login or refresh request. */
  datatype AuthResponse = Granted(accessToken: Option<Token>) | Denied(message: string)

  /** The server's answer to a logout request. */
  datatype LogoutResponse = LogoutAccepted | LogoutRejected(message: string)

  /**
   * The effect of one transition: the new state, the requests it sent, and
   * the error its operation threw or rejected with (for `refresh`, `login`
   * and `logout`: the rejection its promise settles with).
   */
  datatype Step = Step(state: State, requests: seq<Request>, error: Option<Error>)

  /** The session after a clear: no cookie, no timer, not logged in. */
  predicate LoggedOut(s: State) {
    s.cookie.None? && s.timer.None? && !s.loggedIn
  }

  /** The number of refresh requests among `reqs`. */
  function RefreshCount(reqs: seq<Request>): nat {
    if reqs == [] then 0
    else (if reqs[0].RefreshCall? then 1 else 0) + RefreshCount(reqs[1..])
  }

  // ---------------------------------------------------------------------
  // Token store and timer

  /** `validateToken`: the token decodes and has time left at zero skew; never throws. */
  function ValidateToken(t: Token, nowMs: int): (r: bool)
    ensures r <==> t.Token? && NowSeconds(nowMs) < t.exp
  {
    match SecondsUntilExpire(t, 0, nowMs)
    case Success(left) => left > 0
    case Failure(_) => false
  }

  /** `clearRefreshTimer`: cancels the armed timer, if any. */
  function ClearRefreshTimer(s: State): (r: State)
    ensures r.timer.None?
    ensures r.(timer := s.timer) == s
  {
    s.(timer := None)
  }

  /**
   * The `catch` block shared by the refresh paths: delete the cookie, mark
   * the session logged out and cancel the timer.
   */
  function ClearSession(s: State): (r: State)
    ensures LoggedOut(r)
    ensures r.inFlight == s.inFlight && r.initialized == s.initialized
    ensures r.usernameCache == s.usernameCache
  {
    ClearRefreshTimer(s).(cookie := None, loggedIn := false)
  }

  /**
   * `setAccessCookie`: stores the token with `maxAge` equal to its remaining
   * seconds and marks the session logged in. Computing the remaining seconds
   * throws on a malformed token, before the cookie is written.
   */
  function SetAccessCookie(s: State, t: Token, nowMs: int): (r: Result<State, Error>)
    ensures r.Failure? <==> t.Malformed?
    ensures r.Failure? ==> r.error == Decode(InvalidToken)
    ensures r.Success? ==> r.value.cookie.Some? && r.value.cookie.value.token == t
    ensures r.Success? ==> r.value.cookie.value.maxAge == SecondsUntilExpire(t, 0, nowMs).value
    ensures r.Success? ==> r.value.loggedIn
    ensures r.Success? ==> r.value.(cookie := s.cookie, loggedIn := s.loggedIn) == s
  {
    match SecondsUntilExpire(t, 0, nowMs)
    case Failure(e) => Failure(Decode(e))
    case Success(maxAge) => Success(s.(cookie := Some(Cookie(t, maxAge)), loggedIn := true))
  }

  /** `usernameCache || getSubject(accessToken)`: an empty cached name counts as absent. */
  function UsernameFor(s: State, t: Token): (r: Result<string, Error>)
    ensures s.usernameCache.Some? && s.usernameCache.value != "" ==> r == Success(s.usernameCache.value)
    ensures (s.usernameCache.None? || s.usernameCache.value == "") ==>
              (r.Failure? <==> t.Malformed?) && (r.Success? ==> r.value == t.sub)
  {
    if s.usernameCache.Some? && s.usernameCache.value != "" then Success(s.usernameCache.value)
    else match GetSubject(t)
      case Success(sub) => Success(sub)
      case Failure(e) => Failure(Decode(e))
  }

  // ---------------------------------------------------------------------
  // The single-flight refresh

  /**
   * A caller invoking `refresh({username})` and attaching its `.catch`.
   * If a refresh is already in flight the call rejects at once without a
   * request, and the caller's `.catch` clears the session. Otherwise the flag
   * is set before the first `await` and one refresh request is sent.
   */
  function CallRefresh(s: State, username: string, caller: Caller): (r: Step)
    ensures RefreshCount(r.requests) == |r.requests|
    ensures |r.requests| == (if s.Refreshing() then 0 else 1)
    ensures !s.Refreshing() ==> r.requests == [RefreshCall(username)]
    ensures r.state.inFlight == (if s.Refreshing() then s.inFlight else Some(caller))
    ensures s.Refreshing() ==> LoggedOut(r.state) && r.error == Some(AlreadyInProgress)
    ensures !s.Refreshing() ==> r.state.(inFlight := s.inFlight) == s && r.error.None?
    ensures r.state.initialized == s.initialized && r.state.usernameCache == s.usernameCache
  {
    if s.Refreshing() then Step(ClearSession(s), [], Some(AlreadyInProgress))
    else Step(s.(inFlight := Some(caller)), [RefreshCall(username)], None)
  }

  /** The two outcomes of the scheduling rule. */
  datatype Decision = RefreshNow | Arm(delaySeconds: nat)

  /**
   * The rule in `schedulerRefreshToken`: aim for `RefreshBufferSeconds` before
   * expiry, never arm for less than `MinRefreshInterval`, and refresh at once
   * when even the buffer is no longer available.
   */
  function ScheduleDecision(timeAvailable: nat): (r: Decision)
    ensures r.RefreshNow? <==> timeAvailable < RefreshBufferSeconds
    ensures r.Arm? ==> r.delaySeconds >= MinRefreshInterval
    ensures r.Arm? && timeAvailable >= RefreshBufferSeconds + MinRefreshInterval ==>
              r.delaySeconds == timeAvailable - RefreshBufferSeconds
    ensures r.Arm? && timeAvailable < RefreshBufferSeconds + MinRefreshInterval ==>
              r.delaySeconds == MinRefreshInterval
  {
    var timeUntilRefresh := timeAvailable - RefreshBufferSeconds;
    var scheduleIn := if timeUntilRefresh > MinRefreshInterval then timeUntilRefresh else MinRefreshInterval;
    if scheduleIn <= MinRefreshInterval && timeAvailable < RefreshBufferSeconds then RefreshNow
    else Arm(scheduleIn)
  }

  /** The guard `scheduleIn <= MIN && timeAvailable < BUFFER` reduces to its second half. */
  lemma ImmediateGuardSimplifies(timeAvailable: nat)
    ensures var scheduleIn := if timeAvailable - RefreshBufferSeconds > MinRefreshInterval
                              then timeAvailable - RefreshBufferSeconds else MinRefreshInterval;
            (scheduleIn <= MinRefreshInterval && timeAvailable < RefreshBufferSeconds)
            <==> timeAvailable < RefreshBufferSeconds
  {
  }

  /**
   * `schedulerRefreshToken`: cancels any armed timer first, then either
   * refreshes now or arms exactly one new timer. A malformed token throws
   * after the old timer is gone.
   */
  function ScheduleRefresh(s: State, t: Token, nowMs: int): (r: Step)
    ensures r.state.timer.Some? ==>
              t.Token? && r.state.timer.value.subject == t.sub &&
              ScheduleDecision(SecondsUntilExpire(t, 0, nowMs).value) == Arm(r.state.timer.value.delaySeconds)
    ensures t.Malformed? ==> r == Step(ClearRefreshTimer(s), [], Some(Decode(InvalidToken)))
    ensures t.Token? ==> r.error.None?
    ensures t.Token? && SecondsUntilExpire(t, 0, nowMs).value < RefreshBufferSeconds ==>
              r.state.timer.None? && r == CallRefresh(ClearRefreshTimer(s), t.sub, ImmediateSchedule).(error := None)
    ensures t.Token? && SecondsUntilExpire(t, 0, nowMs).value >= RefreshBufferSeconds ==>
              r.state.timer.Some? && r.requests == [] && r.state.(timer := s.timer) == s
    ensures RefreshCount(r.requests) == |r.requests| <= 1
    ensures r.state.initialized == s.initialized && r.state.usernameCache == s.usernameCache
  {
    var cleared := ClearRefreshTimer(s);
    match SecondsUntilExpire(t, 0, nowMs)
    case Failure(e) => Step(cleared, [], Some(Decode(e)))
    case Success(timeAvailable) =>
      match ScheduleDecision(timeAvailable)
      case RefreshNow =>
        // The nested call's rejection is caught by its own `.catch`.
        CallRefresh(cleared, t.sub, ImmediateSchedule).(error := None)
      case Arm(delay) => Step(cleared.(timer := Some(Timer(delay, t.sub))), [], None)
  }

  /** The `finally` block of `refresh`. */
  function Release(s: State): (r: State)
    ensures !r.Refreshing() && r.(inFlight := s.inFlight) == s
  {
    s.(inFlight := None)
  }

  /** The continuation the caller chained with `.then`, run after a successful refresh. */
  function AfterThen(s: State, c: Caller): (r: State)
    ensures r.loggedIn == (s.loggedIn || ThenLogsIn(c))
    ensures r.(loggedIn := s.loggedIn) == s
  {
    if ThenLogsIn(c) then s.(loggedIn := true) else s
  }

  /**
   * The server's answer to the in-flight refresh, as the source handles it.
   * The `await refetchMe()` that follows a stored token is folded into this
   * step. The new token is scheduled while the in-flight flag is still set,
   * so when it has less than `RefreshBufferSeconds` left the nested immediate
   * refresh is rejected and its `.catch` deletes the freshly stored cookie.
   */
  function CompleteRefreshAsWritten(s: State, answer: AuthResponse, nowMs: int): (r: Step)
    requires s.Refreshing()
    ensures !r.state.Refreshing() && r.requests == []
    ensures answer.Denied? ==> LoggedOut(r.state) && r.error == Some(Server(answer.message))
  {
    var caller := s.inFlight.value;
    match answer
    case Denied(msg) => Step(Release(ClearSession(s)), [], Some(Server(msg)))
    case Granted(None) => Step(AfterThen(Release(s), caller), [], None)
    case Granted(Some(t)) =>
      match SetAccessCookie(s, t, nowMs)
      case Failure(e) => Step(Release(ClearSession(s)), [], Some(e))
      case Success(stored) =>
        var scheduled := ScheduleRefresh(stored, t, nowMs);
        Step(AfterThen(Release(scheduled.state), caller), scheduled.requests, None)
  }

  /**
   * The server's answer to the in-flight refresh, with the in-flight flag
   * released before the new token is scheduled: a successful refresh always
   * keeps the token it received, and a near-expiry token is refreshed again.
   */
  function CompleteRefresh(s: State, answer: AuthResponse, nowMs: int): (r: Step)
    requires s.Refreshing()
    ensures answer.Denied? ==>
              LoggedOut(r.state) && !r.state.Refreshing() && r.requests == [] && r.error == Some(Server(answer.message))
    ensures answer.Granted? && answer.accessToken.Some? && answer.accessToken.value.Token? ==>
              r.state.cookie == Some(Cookie(answer.accessToken.value, SecondsUntilExpire(answer.accessToken.value, 0, nowMs).value)) &&
              r.state.loggedIn && r.error.None?
    ensures answer.Granted? && answer.accessToken.Some? && answer.accessToken.value.Malformed? ==>
              LoggedOut(r.state) && !r.state.Refreshing() && r.error == Some(Decode(InvalidToken))
    ensures r.state.Refreshing() <==> r.requests != []
    ensures r.state.Refreshing() ==>
              answer.Granted? && answer.accessToken.Some? && r.requests == [RefreshCall(answer.accessToken.value.sub)]
    ensures r.state.initialized == s.initialized && r.state.usernameCache == s.usernameCache
  {
    var caller := s.inFlight.value;
    match answer
    case Denied(msg) => Step(Release(ClearSession(s)), [], Some(Server(msg)))
    case Granted(None) => Step(AfterThen(Release(s), caller), [], None)
    case Granted(Some(t)) =>
      match SetAccessCookie(s, t, nowMs)
      case Failure(e) => Step(Release(ClearSession(s)), [], Some(e))
      case Success(stored) =>
        var scheduled := ScheduleRefresh(Release(stored), t, nowMs);
        Step(AfterThen(scheduled.state, caller), scheduled.requests, None)
  }

  /** A successful refresh answered with a token of under two minutes logs the session out as written. */
  lemma ShortTokenRefreshDropsCookie(s: State, t: Token, nowMs: int)
    requires s.Refreshing() && t.Token?
    requires SecondsUntilExpire(t, 0, nowMs).value < RefreshBufferSeconds
    ensures CompleteRefreshAsWritten(s, Granted(Some(t)), nowMs).state.cookie.None?
    ensures !ThenLogsIn(s.inFlight.value) ==> !CompleteRefreshAsWritten(s, Granted(Some(t)), nowMs).state.loggedIn
  {
    var stored := SetAccessCookie(s, t, nowMs).value;
    assert stored.Refreshing();
  }

  /** The same answer, handled by the corrected completion, keeps the new token and the session. */
  lemma ShortTokenRefreshKeepsSession(s: State, t: Token, nowMs: int)
    requires s.Refreshing() && t.Token?
    requires SecondsUntilExpire(t, 0, nowMs).value < RefreshBufferSeconds
    ensures CompleteRefresh(s, Granted(Some(t)), nowMs).state.cookie.Some?
    ensures CompleteRefresh(s, Granted(Some(t)), nowMs).state.loggedIn
    ensures CompleteRefresh(s, Granted(Some(t)), nowMs).requests == [RefreshCall(t.sub)]
  {
  }

  // ---------------------------------------------------------------------
  // Bootstrap, focus and timer callbacks

  /**
   * `checkAuthState` as written: a missing cookie means logged out, a valid
   * token logged in, and an invalid one a refresh. On a malformed token with
   * no cached username `getSubject` throws before `isInitialized` is set.
   */
  function CheckAuthStateAsWritten(s: State, nowMs: int): (r: Step)
    ensures s.cookie.None? ==> !r.state.loggedIn && r.state.initialized && r.requests == []
  {
    match s.cookie
    case None => Step(s.(loggedIn := false, initialized := true), [], None)
    case Some(c) =>
      if ValidateToken(c.token, nowMs) then Step(s.(loggedIn := true, initialized := true), [], None)
      else match UsernameFor(s, c.token)
        case Failure(e) => Step(s, [], Some(e))
        case Success(u) =>
          var call := CallRefresh(s, u, Bootstrap);
          Step(call.state.(initialized := true), call.requests, None)
  }

  /** On a malformed stored token and no cached username, the bootstrap never initializes. */
  lemma MalformedBootstrapStaysUninitialized(s: State, nowMs: int)
    requires s.cookie.Some? && s.cookie.value.token.Malformed?
    requires s.usernameCache.None? && !s.initialized
    ensures !CheckAuthStateAsWritten(s, nowMs).state.initialized
    ensures CheckAuthStateAsWritten(s, nowMs).error == Some(Decode(InvalidToken))
  {
  }

  /**
   * `checkAuthState` with the decode failure absorbed: an undecodable token
   * with no cached username is cleared as a failed refresh would be. Every
   * path ends initialized.
   */
  function CheckAuthState(s: State, nowMs: int): (r: Step)
    ensures r.state.initialized && r.error.None?
    ensures s.cookie.None? ==> !r.state.loggedIn && r.requests == [] && r.state.(loggedIn := s.loggedIn, initialized := s.initialized) == s
    ensures s.cookie.Some? && ValidateToken(s.cookie.value.token, nowMs) ==>
              r.state.loggedIn && r.requests == [] && r.state.(loggedIn := s.loggedIn, initialized := s.initialized) == s
    ensures s.cookie.Some? && !ValidateToken(s.cookie.value.token, nowMs) && UsernameFor(s, s.cookie.value.token).Success? ==>
              r.requests == (if s.Refreshing() then [] else [RefreshCall(UsernameFor(s, s.cookie.value.token).value)])
    ensures s.cookie.Some? && UsernameFor(s, s.cookie.value.token).Failure? ==> LoggedOut(r.state) && r.requests == []
    ensures RefreshCount(r.requests) == |r.requests| <= 1
  {
    match s.cookie
    case None => Step(s.(loggedIn := false, initialized := true), [], None)
    case Some(c) =>
      if ValidateToken(c.token, nowMs) then Step(s.(loggedIn := true, initialized := true), [], None)
      else match UsernameFor(s, c.token)
        case Failure(_) => Step(ClearSession(s).(initialized := true), [], None)
        case Success(u) =>
          var call := CallRefresh(s, u, Bootstrap);
          Step(call.state.(initialized := true), call.requests, None)
  }

  /**
   * The window-focus handler as written. It reads the username first, so a
   * malformed token with no cached username throws before anything changes.
   */
  function OnFocusAsWritten(s: State, nowMs: int): (r: Step)
    ensures s.cookie.None? ==> LoggedOut(r.state) && r.requests == []
  {
    match s.cookie
    case None => Step(ClearSession(s), [], None)
    case Some(c) =>
      match UsernameFor(s, c.token)
      case Failure(e) => Step(s, [], Some(e))
      case Success(u) =>
        if !ValidateToken(c.token, nowMs) then CallRefresh(s, u, Focus(true)).(error := None)
        else if SecondsUntilExpire(c.token, 0, nowMs).value < CriticalTimeThreshold && !s.Refreshing() then
          CallRefresh(s, u, Focus(false))
        else Step(s, [], None)
  }

  /** On a malformed token and no cached username, focusing the window leaves the stale cookie in place. */
  lemma MalformedFocusKeepsStaleCookie(s: State, nowMs: int)
    requires s.cookie.Some? && s.cookie.value.token.Malformed? && s.usernameCache.None?
    ensures OnFocusAsWritten(s, nowMs).state == s
    ensures OnFocusAsWritten(s, nowMs).error == Some(Decode(InvalidToken))
  {
  }

  /**
   * The window-focus handler with the decode failure absorbed: no cookie or
   * an undecodable one without a cached username logs out; an expired token
   * is refreshed; a valid token close to expiry is refreshed unless a refresh
   * is already in flight; otherwise nothing changes.
   */
  function OnFocus(s: State, nowMs: int): (r: Step)
    ensures r.error.None? && r.state.initialized == s.initialized
    ensures s.cookie.None? ==> LoggedOut(r.state) && r.requests == []
    ensures s.cookie.Some? && UsernameFor(s, s.cookie.value.token).Failure? ==> LoggedOut(r.state) && r.requests == []
    ensures s.cookie.Some? && UsernameFor(s, s.cookie.value.token).Success? && !ValidateToken(s.cookie.value.token, nowMs) ==>
              r.requests == (if s.Refreshing() then [] else [RefreshCall(UsernameFor(s, s.cookie.value.token).value)])
    ensures s.cookie.Some? && ValidateToken(s.cookie.value.token, nowMs) && UsernameFor(s, s.cookie.value.token).Success? ==>
              (r.requests != [] <==> !s.Refreshing() && SecondsUntilExpire(s.cookie.value.token, 0, nowMs).value < CriticalTimeThreshold)
    ensures s.cookie.Some? && ValidateToken(s.cookie.value.token, nowMs) && r.requests == [] ==> r.state == s
    ensures RefreshCount(r.requests) == |r.requests| <= 1
  {
    match s.cookie
    case None => Step(ClearSession(s), [], None)
    case Some(c) =>
      match UsernameFor(s, c.token)
      case Failure(_) => Step(ClearSession(s), [], None)
      case Success(u) =>
        if !ValidateToken(c.token, nowMs) then CallRefresh(s, u, Focus(true)).(error := None)
        else if SecondsUntilExpire(c.token, 0, nowMs).value < CriticalTimeThreshold && !s.Refreshing() then
          CallRefresh(s, u, Focus(false))
        else Step(s, [], None)
  }

  /**
   * The armed timer fires: its callback refreshes with the username captured
   * when it was armed. Without an armed timer nothing happens.
   */
  function OnTimerFired(s: State): (r: Step)
    ensures s.timer.None? ==> r == Step(s, [], None)
    ensures s.timer.Some? ==> r.state.timer.None? || LoggedOut(r.state)
    ensures s.timer.Some? && !s.Refreshing() ==> r.requests == [RefreshCall(s.timer.value.subject)]
    ensures RefreshCount(r.requests) == |r.requests| <= 1 && r.error.None?
    ensures r.state.initialized == s.initialized
  {
    match s.timer
    case None => Step(s, [], None)
    case Some(timer) => CallRefresh(s.(timer := None), timer.subject, ScheduledTimer).(error := None)
  }

  /**
   * The schedule effect as intended, with `isLoggedIn` among its
   * dependencies so that it runs after every change of the login state:
   * a stored token is scheduled while the session is logged in.
   */
  function ResumeSchedule(s: State, nowMs: int): (r: Step)
    ensures !(s.cookie.Some? && s.loggedIn) ==> r == Step(s, [], None)
    ensures s.cookie.Some? && s.loggedIn ==> r == ScheduleRefresh(s, s.cookie.value.token, nowMs)
  {
    if s.cookie.Some? && s.loggedIn then ScheduleRefresh(s, s.cookie.value.token, nowMs)
    else Step(s, [], None)
  }

  /**
   * The schedule effect as written. Its dependencies are two stable
   * callbacks, so it runs once, in the mount commit, and reads the first
   * render's `isLoggedIn`, which is `false`: it never schedules anything.
   */
  function ResumeScheduleAsWritten(s: State): (r: Step)
    ensures r.state == s && r.requests == [] && r.error.None?
  {
    Step(s, [], None)
  }

  // ---------------------------------------------------------------------
  // Login, logout and unauthorized responses

  /**
   * The server's answer to a login request. A token is stored, scheduled and
   * its subject cached; a rejection, or a malformed token, leaves the
   * session logged out and rethrows.
   */
  function CompleteLogin(s: State, answer: AuthResponse, nowMs: int): (r: Step)
    ensures answer.Denied? ==> !r.state.loggedIn && r.error == Some(Server(answer.message)) && r.requests == []
    ensures answer.Granted? && answer.accessToken.Some? && answer.accessToken.value.Malformed? ==>
              !r.state.loggedIn && r.error == Some(Decode(InvalidToken)) && r.state.cookie == s.cookie
    ensures answer.Granted? && answer.accessToken.Some? && answer.accessToken.value.Token? ==>
              r.error.None? && r.state.usernameCache == Some(answer.accessToken.value.sub)
    ensures answer.Granted? && answer.accessToken.Some? && answer.accessToken.value.Token? && !s.Refreshing() ==>
              r.state.loggedIn &&
              r.state.cookie == Some(Cookie(answer.accessToken.value, SecondsUntilExpire(answer.accessToken.value, 0, nowMs).value))
    ensures answer == Granted(None) ==> r == Step(s, [], None)
    ensures RefreshCount(r.requests) == |r.requests| <= 1
    ensures r.state.initialized == s.initialized
  {
    match answer
    case Denied(msg) => Step(s.(loggedIn := false), [], Some(Server(msg)))
    case Granted(None) => Step(s, [], None)
    case Granted(Some(t)) =>
      match SetAccessCookie(s, t, nowMs)
      case Failure(e) => Step(s.(loggedIn := false), [], Some(e))
      case Success(stored) =>
        var scheduled := ScheduleRefresh(stored, t, nowMs);
        Step(scheduled.state.(usernameCache := Some(t.sub)), scheduled.requests, None)
  }

  /** `logout` sends its request; nothing changes until the server answers. */
  function RequestLogout(s: State, username: string): (r: Step)
    ensures r.state == s && r.requests == [LogoutCall(username)] && r.error.None?
  {
    Step(s, [LogoutCall(username)], None)
  }

  /** The state every logout ends in: no cookie, timer, cached name or login. */
  predicate SignedOut(s: State) {
    LoggedOut(s) && s.usernameCache.None?
  }

  /** The server's answer to a logout: the local session is cleared either way; a failure rethrows. */
  function CompleteLogout(s: State, answer: LogoutResponse): (r: Step)
    ensures SignedOut(r.state) && r.requests == []
    ensures r.error.Some? <==> answer.LogoutRejected?
    ensures answer.LogoutRejected? ==> r.error == Some(Server(answer.message))
    ensures r.state.inFlight == s.inFlight && r.state.initialized == s.initialized
  {
    var cleared := ClearSession(s).(usernameCache := None);
    match answer
    case LogoutAccepted => Step(cleared, [], None)
    case LogoutRejected(msg) => Step(cleared, [], Some(Server(msg)))
  }

  /**
   * The effect on a 401 from the profile query, as intended: log out through
   * the server when the profile's username is known, otherwise clear the
   * session locally (the cached username is kept on that path).
   */
  function OnProfileUnauthorized(s: State, knownUsername: Option<string>): (r: Step)
    ensures knownUsername.Some? && knownUsername.value != "" ==> r == RequestLogout(s, knownUsername.value)
    ensures !(knownUsername.Some? && knownUsername.value != "") ==>
              LoggedOut(r.state) && r.requests == [] && r.state.usernameCache == s.usernameCache
  {
    if knownUsername.Some? && knownUsername.value != "" then RequestLogout(s, knownUsername.value)
    else Step(ClearSession(s), [], None)
  }

  /**
   * The 401 effect as written. The profile query fails with the API
   * client's plain `Error`, which has no `status` field, so the guard never
   * holds and the effect changes nothing; the cookie has already been
   * deleted by the client (`OnApiUnauthorized`).
   */
  function OnProfileUnauthorizedAsWritten(s: State): (r: Step)
    ensures r.state == s && r.requests == [] && r.error.None?
  {
    Step(s, [], None)
  }

  /** The API client deleting the cookie on any 401 response; nothing else is touched. */
  function OnApiUnauthorized(s: State): (r: State)
    ensures r.cookie.None? && r.(cookie := s.cookie) == s
  {
    s.(cookie := None)
  }

  /** The mount effect that restores the cached username from local storage when it is non-empty. */
  function LoadCachedUsername(s: State, stored: Option<string>): (r: State)
    ensures stored.Some? && stored.value != "" ==> r.usernameCache == stored
    ensures r.(usernameCache := s.usernameCache) == s
  {
    if stored.Some? && stored.value != "" then s.(usernameCache := stored) else s
  }

  // ---------------------------------------------------------------------
  // Runs of the provider

  /** Everything that can happen to the provider. */
  datatype Event =
    | Mount
    | WindowFocus
    | TimerFired
    | ScheduleEffect
    | RefreshAnswered(refreshAnswer: AuthResponse)
    | LoginAnswered(loginAnswer: AuthResponse)
    | LogoutRequested(username: string)
    | LogoutAnswered(logoutAnswer: LogoutResponse)
    | ProfileUnauthorized(knownUsername: Option<string>)
    | ApiUnauthorized
    | CacheLoaded(stored: Option<string>)

  /** An event together with the clock reading when it is dispatched. */
  datatype Timed = Timed(event: Event, nowMs: int)

  /** True iff the event settles the refresh that is in flight. */
  predicate Settles(s: State, e: Event) {
    e.RefreshAnswered? && s.Refreshing()
  }

  /**
   * Which handlers the provider runs for the mount, the window focus, the
   * refresh answer, the schedule effect and the profile 401: the ones the
   * source has, or the corrected ones that absorb the decode failure,
   * release the flag before scheduling, re-run the schedule effect when the
   * login state changes and recognise the profile query's 401.
   */
  datatype Handlers = AsWritten | Corrected

  /** Dispatches one event. An answer to a refresh that was never sent is ignored. */
  function Apply(h: Handlers, s: State, e: Event, nowMs: int): (r: Step)
    ensures e.RefreshAnswered? && !s.Refreshing() ==> r == Step(s, [], None)
    ensures e.ApiUnauthorized? || e.CacheLoaded? ==> r.requests == [] && r.error.None?
    ensures e.Mount? && h.Corrected? ==> r.state.initialized
    ensures h.Corrected? && (e.Mount? || e.WindowFocus?) ==> r.error.None?
    ensures h.AsWritten? && (e.ScheduleEffect? || e.ProfileUnauthorized?) ==> r == Step(s, [], None)
  {
    match e
    case Mount => if h.Corrected? then CheckAuthState(s, nowMs) else CheckAuthStateAsWritten(s, nowMs)
    case WindowFocus => if h.Corrected? then OnFocus(s, nowMs) else OnFocusAsWritten(s, nowMs)
    case TimerFired => OnTimerFired(s)
    case ScheduleEffect => if h.Corrected? then ResumeSchedule(s, nowMs) else ResumeScheduleAsWritten(s)
    case RefreshAnswered(a) =>
      if !s.Refreshing() then Step(s, [], None)
      else if h.Corrected? then CompleteRefresh(s, a, nowMs)
      else CompleteRefreshAsWritten(s, a, nowMs)
    case LoginAnswered(a) => CompleteLogin(s, a, nowMs)
    case LogoutRequested(u) => RequestLogout(s, u)
    case LogoutAnswered(a) => CompleteLogout(s, a)
    case ProfileUnauthorized(u) => if h.Corrected? then OnProfileUnauthorized(s, u) else OnProfileUnauthorizedAsWritten(s)
    case ApiUnauthorized => Step(OnApiUnauthorized(s), [], None)
    case CacheLoaded(stored) => Step(LoadCachedUsername(s, stored), [], None)
  }

  /** The two handler sets differ only on the five events they are chosen for. */
  lemma HandlersDifferOnlyThere(s: State, e: Event, nowMs: int)
    requires !e.Mount? && !e.WindowFocus? && !e.RefreshAnswered? && !e.ScheduleEffect? && !e.ProfileUnauthorized?
    ensures Apply(AsWritten, s, e, nowMs) == Apply(Corrected, s, e, nowMs)
  {
  }

  /** 1 while a refresh is in flight, 0 otherwise. */
  function Flag(s: State): nat {
    if s.Refreshing() then 1 else 0
  }

  /**
   * Single flight, one event at a time, with either handler set: the refresh
   * requests an event sends and the refresh answer it consumes keep the
   * number of outstanding refresh requests equal to the in-flight flag.
   */
  lemma {:induction false} ApplyKeepsSingleFlight(h: Handlers, s: State, e: Event, nowMs: int)
    ensures var r := Apply(h, s, e, nowMs);
            Flag(s) + RefreshCount(r.requests) == Flag(r.state) + (if Settles(s, e) then 1 else 0)
  {
    var r := Apply(h, s, e, nowMs);
    match e
    case Mount => BootstrapCounts(h, s, nowMs);
    case WindowFocus => FocusCounts(h, s, nowMs);
    case TimerFired =>
    case ScheduleEffect =>
      if h.Corrected? && s.cookie.Some? && s.loggedIn {
        ScheduleCountsAgainstFlag(s, s.cookie.value.token, nowMs);
      }
    case RefreshAnswered(a) => AnswerCounts(h, s, a, nowMs);
    case LoginAnswered(a) => LoginCounts(s, a, nowMs);
    case LogoutRequested(u) =>
      assert RefreshCount(r.requests) == 0;
    case LogoutAnswered(_) =>
    case ProfileUnauthorized(u) =>
      if u.Some? && u.value != "" {
        assert RefreshCount(r.requests) == 0;
      }
    case ApiUnauthorized =>
    case CacheLoaded(_) =>
  }

  /** Either bootstrap sends a refresh request exactly when it raises the flag. */
  lemma BootstrapCounts(h: Handlers, s: State, nowMs: int)
    ensures var r := Apply(h, s, Mount, nowMs);
            Flag(s) + RefreshCount(r.requests) == Flag(r.state)
  {
    if h.AsWritten? {
      var r := CheckAuthStateAsWritten(s, nowMs);
      assert Flag(s) + RefreshCount(r.requests) == Flag(r.state);
    }
  }

  /** Either focus handler sends a refresh request exactly when it raises the flag. */
  lemma FocusCounts(h: Handlers, s: State, nowMs: int)
    ensures var r := Apply(h, s, WindowFocus, nowMs);
            Flag(s) + RefreshCount(r.requests) == Flag(r.state)
  {
    if h.AsWritten? {
      var r := OnFocusAsWritten(s, nowMs);
      assert Flag(s) + RefreshCount(r.requests) == Flag(r.state);
    }
  }

  /** A refresh answer consumes the outstanding request, less any follow-up it sends; an unexpected one changes nothing. */
  lemma AnswerCounts(h: Handlers, s: State, a: AuthResponse, nowMs: int)
    ensures var r := Apply(h, s, RefreshAnswered(a), nowMs);
            Flag(s) + RefreshCount(r.requests) == Flag(r.state) + (if s.Refreshing() then 1 else 0)
  {
    if s.Refreshing() {
      if h.Corrected? {
        CompleteRefreshCounts(s, a, nowMs);
      } else {
        var r := CompleteRefreshAsWritten(s, a, nowMs);
        assert r.requests == [] && !r.state.Refreshing();
      }
    }
  }

  /** A login answer sends a refresh request exactly when it raises the flag. */
  lemma LoginCounts(s: State, a: AuthResponse, nowMs: int)
    ensures var r := CompleteLogin(s, a, nowMs);
            Flag(s) + RefreshCount(r.requests) == Flag(r.state)
  {
    if a.Granted? && a.accessToken.Some? && a.accessToken.value.Token? {
      var stored := SetAccessCookie(s, a.accessToken.value, nowMs).value;
      ScheduleCountsAgainstFlag(stored, a.accessToken.value, nowMs);
    }
  }

  lemma ScheduleCountsAgainstFlag(s: State, t: Token, nowMs: int)
    ensures var r := ScheduleRefresh(s, t, nowMs);
            Flag(s) + RefreshCount(r.requests) == Flag(r.state)
  {
  }

  lemma CompleteRefreshCounts(s: State, a: AuthResponse, nowMs: int)
    requires s.Refreshing()
    ensures var r := CompleteRefresh(s, a, nowMs);
            Flag(s) + RefreshCount(r.requests) == Flag(r.state) + 1
  {
  }

  /** The state, refresh requests sent and refresh answers consumed after a run of events. */
  datatype Run = Run(state: State, sent: nat, settled: nat)

  /** Dispatches the events in order, counting the refresh requests sent and the answers consumed. */
  function RunFrom(h: Handlers, s: State, events: seq<Timed>): (r: Run)
    ensures events == [] ==> r == Run(s, 0, 0)
    ensures r.settled <= |events|
    decreases |events|
  {
    if events == [] then Run(s, 0, 0)
    else
      var head := events[0];
      var step := Apply(h, s, head.event, head.nowMs);
      var rest := RunFrom(h, step.state, events[1..]);
      Run(rest.state, RefreshCount(step.requests) + rest.sent, (if Settles(s, head.event) then 1 else 0) + rest.settled)
  }

  /** A run of two event sequences is the run of the first followed by the run of the second. */
  lemma {:induction false} RunAppend(h: Handlers, s: State, first: seq<Timed>, second: seq<Timed>)
    ensures var a := RunFrom(h, s, first);
            var b := RunFrom(h, a.state, second);
            RunFrom(h, s, first + second) == Run(b.state, a.sent + b.sent, a.settled + b.settled)
    decreases |first|
  {
    if first == [] {
      assert first + second == second;
    } else {
      assert (first + second)[0] == first[0];
      assert (first + second)[1..] == first[1..] + second;
      RunAppend(h, Apply(h, s, first[0].event, first[0].nowMs).state, first[1..], second);
    }
  }

  /**
   * Over any run, with either handler set, the refresh requests sent minus
   * the answers consumed equals the in-flight flag: from a quiet start at
   * most one refresh request is ever outstanding, and none once the flag is
   * down.
   */
  lemma {:induction false} RunKeepsSingleFlight(h: Handlers, s: State, events: seq<Timed>)
    ensures var run := RunFrom(h, s, events);
            Flag(s) + run.sent == Flag(run.state) + run.settled
    decreases |events|
  {
    if events != [] {
      var head := events[0];
      ApplyKeepsSingleFlight(h, s, head.event, head.nowMs);
      RunKeepsSingleFlight(h, Apply(h, s, head.event, head.nowMs).state, events[1..]);
    }
  }

  /** From the initial state, with either handler set, never more than one refresh request is outstanding. */
  lemma AtMostOneOutstandingRefresh(h: Handlers, events: seq<Timed>)
    ensures var run := RunFrom(h, Initial, events);
            run.settled <= run.sent <= run.settled + 1
            && (run.sent == run.settled + 1 <==> run.state.Refreshing())
  {
    RunKeepsSingleFlight(h, Initial, events);
  }

  /** Once set, `isInitialized` is never reset by any event, with either handler set. */
  lemma {:induction false} ApplyKeepsInitialized(h: Handlers, s: State, e: Event, nowMs: int)
    requires s.initialized
    ensures Apply(h, s, e, nowMs).state.initialized
  {
    match e
    case ScheduleEffect =>
      if h.Corrected? && s.cookie.Some? && s.loggedIn {
        assert ScheduleRefresh(s, s.cookie.value.token, nowMs).state.initialized;
      }
    case RefreshAnswered(a) =>
      if s.Refreshing() && h.AsWritten? && a.Granted? && a.accessToken.Some? && a.accessToken.value.Token? {
        var stored := SetAccessCookie(s, a.accessToken.value, nowMs).value;
        assert ScheduleRefresh(stored, a.accessToken.value, nowMs).state.initialized;
      }
    case _ =>
  }

  /** `isInitialized` is monotone over any run. */
  lemma {:induction false} RunKeepsInitialized(h: Handlers, s: State, events: seq<Timed>)
    requires s.initialized
    ensures RunFrom(h, s, events).state.initialized
    decreases |events|
  {
    if events != [] {
      ApplyKeepsInitialized(h, s, events[0].event, events[0].nowMs);
      RunKeepsInitialized(h, Apply(h, s, events[0].event, events[0].nowMs).state, events[1..]);
    }
  }

  /** With the corrected bootstrap, every run that starts with a mount ends initialized. */
  lemma MountInitializes(s: State, nowMs: int, events: seq<Timed>)
    ensures RunFrom(Corrected, s, [Timed(Mount, nowMs)] + events).state.initialized
  {
    assert ([Timed(Mount, nowMs)] + events)[1..] == events;
    RunKeepsInitialized(Corrected, CheckAuthState(s, nowMs).state, events);
  }

  /** The bootstrap as written throws: a stored token whose username can be read neither from the cache nor from the token. */
  predicate BootstrapThrows(s: State) {
    s.cookie.Some? && UsernameFor(s, s.cookie.value.token).Failure?
  }

  /**
   * With the source's bootstrap, the mount initializes exactly when it does
   * not throw (or the provider already was initialized), and a run that
   * starts with a mount that does not throw ends initialized.
   */
  lemma MountInitializesAsWritten(s: State, nowMs: int, events: seq<Timed>)
    ensures CheckAuthStateAsWritten(s, nowMs).state.initialized <==> s.initialized || !BootstrapThrows(s)
    ensures s.initialized || !BootstrapThrows(s) ==>
              RunFrom(AsWritten, s, [Timed(Mount, nowMs)] + events).state.initialized
  {
    assert ([Timed(Mount, nowMs)] + events)[1..] == events;
    if s.cookie.Some? && ValidateToken(s.cookie.value.token, nowMs) {
      assert s.cookie.value.token.Token?;
    }
    if s.initialized || !BootstrapThrows(s) {
      RunKeepsInitialized(AsWritten, CheckAuthStateAsWritten(s, nowMs).state, events);
    }
  }

  /**
   * Logging in with a token that has `V >= 150` seconds left stores it with
   * `maxAge` `V`, marks the session logged in and arms one timer for `V - 120`.
   */
  lemma LoginArmsBufferedTimer(s: State, t: Token, nowMs: int)
    requires t.Token? && !s.Refreshing()
    requires SecondsUntilExpire(t, 0, nowMs).value >= RefreshBufferSeconds + MinRefreshInterval
    ensures var r := CompleteLogin(s, Granted(Some(t)), nowMs);
            var v := SecondsUntilExpire(t, 0, nowMs).value;
            r.state.cookie == Some(Cookie(t, v)) && r.state.loggedIn && r.requests == []
            && r.state.timer == Some(Timer(v - RefreshBufferSeconds, t.sub))
  {
  }

  // ---------------------------------------------------------------------
  // The schedule effect and the profile 401, as written and corrected

  /**
   * A reload with a valid cookie, as written: the bootstrap logs in without
   * scheduling and the schedule effect arms nothing, so no refresh is ever
   * planned for the stored token.
   */
  lemma ReloadArmsNoRefreshAsWritten(s: State, nowMs: int)
    requires s.cookie.Some? && ValidateToken(s.cookie.value.token, nowMs) && s.timer.None?
    ensures var r := RunFrom(AsWritten, s, [Timed(Mount, nowMs), Timed(ScheduleEffect, nowMs)]);
            r.state.loggedIn && r.state.cookie == s.cookie && r.state.timer.None? && r.sent == 0
  {
    var events := [Timed(Mount, nowMs), Timed(ScheduleEffect, nowMs)];
    assert events[1..] == [Timed(ScheduleEffect, nowMs)];
    assert events[1..][1..] == [];
  }

  /**
   * The same reload with the corrected effect: the stored token is
   * scheduled, as a timer when it has two minutes left and as an immediate
   * refresh otherwise.
   */
  lemma ReloadSchedulesRefresh(s: State, nowMs: int)
    requires s.cookie.Some? && ValidateToken(s.cookie.value.token, nowMs) && !s.Refreshing()
    ensures var t := s.cookie.value.token;
            var r := RunFrom(Corrected, s, [Timed(Mount, nowMs), Timed(ScheduleEffect, nowMs)]);
            r.state.loggedIn
            && (SecondsUntilExpire(t, 0, nowMs).value >= RefreshBufferSeconds ==>
                  r.state.timer.Some? && r.state.timer.value.subject == t.sub && r.sent == 0)
            && (SecondsUntilExpire(t, 0, nowMs).value < RefreshBufferSeconds ==> r.sent == 1)
  {
    var events := [Timed(Mount, nowMs), Timed(ScheduleEffect, nowMs)];
    assert events[1..] == [Timed(ScheduleEffect, nowMs)];
    assert events[1..][1..] == [];
    var mounted := CheckAuthState(s, nowMs).state;
    assert mounted.cookie == s.cookie && mounted.loggedIn && !mounted.Refreshing();
  }

  /**
   * A 401 from `profile/me` while logged in, as written: the client deletes
   * the cookie and the effect does nothing, so the provider stays logged
   * in, keeps its timer and cached name, and has no cookie.
   */
  lemma ProfileUnauthorizedKeepsLoginAsWritten(s: State, knownUsername: Option<string>, nowMs: int)
    requires s.loggedIn && s.cookie.Some?
    ensures var r := RunFrom(AsWritten, s, [Timed(ApiUnauthorized, nowMs), Timed(ProfileUnauthorized(knownUsername), nowMs)]);
            r.state == s.(cookie := None) && r.state.loggedIn && r.sent == 0
  {
    var events := [Timed(ApiUnauthorized, nowMs), Timed(ProfileUnauthorized(knownUsername), nowMs)];
    assert events[1..] == [Timed(ProfileUnauthorized(knownUsername), nowMs)];
    assert events[1..][1..] == [];
  }

  /**
   * The same 401 with the corrected effect: with the profile's username the
   * provider logs out through the server and ends signed out whatever the
   * server answers; without it the session is cleared at once.
   */
  lemma ProfileUnauthorizedLogsOut(s: State, knownUsername: Option<string>, answer: LogoutResponse, nowMs: int)
    ensures var r := Apply(Corrected, OnApiUnauthorized(s), ProfileUnauthorized(knownUsername), nowMs);
            (knownUsername.Some? && knownUsername.value != "" ==>
               r.requests == [LogoutCall(knownUsername.value)] && SignedOut(CompleteLogout(r.state, answer).state))
            && (!(knownUsername.Some? && knownUsername.value != "") ==> LoggedOut(r.state) && r.requests == [])
  {
  }
}

=== FILE: text.dfy ===
/**
 * Character classes and string helpers that the client's rules rely on:
 * JavaScript's `\s` class (restricted to ASCII whitespace), `String.prototype.trim`,
 * `String.prototype.includes`, `Number.prototype.toString` on naturals and
 * `String.prototype.padStart`.
 */
module Text {

  /** JavaScript `\s`, restricted to the ASCII whitespace characters. */
  predicate IsSpace(c: char) {
    c == ' ' || c == '\t' || c == '\n' || c == '\r' || c == '\U{000B}' || c == '\U{000C}'
  }

  /** Regex class `[A-Z]`. */
  predicate IsUpper(c: char) {
    'A' <= c <= 'Z'
  }

  /** Regex class `[a-z]`. */
  predicate IsLower(c: char) {
    'a' <= c <= 'z'
  }

  /** Regex classes `[0-9]` and `\d` (without the unicode flag). */
  predicate IsDigit(c: char) {
    '0' <= c <= '9'
  }

  /** Regex class `[A-Za-z0-9]`. */
  predicate IsAlnum(c: char) {
    IsUpper(c) || IsLower(c) || IsDigit(c)
  }

  /** True iff every character of `s` is whitespace (the empty string included). */
  predicate IsBlank(s: string) {
    forall i :: 0 <= i < |s| ==> IsSpace(s[i])
  }

  /** The number of whitespace characters `s` starts with. */
  function LeadingSpaces(s: string): (k: nat)
    ensures k <= |s|
    ensures forall i :: 0 <= i < k ==> IsSpace(s[i])
    ensures k == |s| || !IsSpace(s[k])
  {
    if |s| > 0 && IsSpace(s[0]) then
      var k := 1 + LeadingSpaces(s[1..]);
      assert forall i :: 1 <= i < |s| ==> s[i] == s[1..][i - 1];
      k
    else 0
  }

  /** The number of whitespace characters `s` ends with. */
  function TrailingSpaces(s: string): (k: nat)
    ensures k <= |s|
    ensures forall i :: |s| - k <= i < |s| ==> IsSpace(s[i])
    ensures k == |s| || !IsSpace(s[|s| - 1 - k])
  {
    if |s| > 0 && IsSpace(s[|s| - 1]) then
      var k := 1 + TrailingSpaces(s[..|s| - 1]);
      assert forall i :: 0 <= i < |s| - 1 ==> s[i] == s[..|s| - 1][i];
      k
    else 0
  }

  /** Drops leading whitespace. */
  function TrimLeft(s: string): (r: string)
    ensures |r| <= |s| && r == s[|s| - |r|..]
    ensures IsBlank(s[..|s| - |r|])
    ensures r == [] || !IsSpace(r[0])
  {
    var k := LeadingSpaces(s);
    assert forall i :: 0 <= i < k ==> s[..k][i] == s[i];
    s[k..]
  }

  /** Drops trailing whitespace. */
  function TrimRight(s: string): (r: string)
    ensures |r| <= |s| && r == s[..|r|]
    ensures IsBlank(s[|r|..])
    ensures r == [] || !IsSpace(r[|r| - 1])
  {
    var k := TrailingSpaces(s);
    s[..|s| - k]
  }

  /** `String.prototype.trim`: the middle of `s` between its leading and trailing whitespace. */
  function Trim(s: string): (r: string)
    ensures |r| <= |s|
    ensures r == [] || (!IsSpace(r[0]) && !IsSpace(r[|r| - 1]))
  {
    TrimRight(TrimLeft(s))
  }

  /** `s.trim() === ""` holds exactly when `s` consists of whitespace only. */
  lemma {:induction false} TrimEmptyIffBlank(s: string)
    ensures Trim(s) == [] <==> IsBlank(s)
  {
    var l := TrimLeft(s);
    if Trim(s) == [] {
      assert s[..|s|] == s;
    } else {
      var r := Trim(s);
      assert r == l[..|r|];
      assert l == s[|s| - |l|..];
      assert r[0] == s[|s| - |l|];
      assert !IsSpace(s[|s| - |l|]);
    }
  }

  /** `!s.trim()`: the guard of the client's submit buttons, true exactly for blank text. */
  function TrimsToEmpty(s: string): (r: bool)
    ensures r <==> IsBlank(s)
  {
    TrimEmptyIffBlank(s);
    Trim(s) == ""
  }

  /** `String.prototype.includes`: some window of `s` equals `sub`. */
  predicate Includes(s: string, sub: string)
    decreases |s|
  {
    if |s| < |sub| then false
    else s[..|sub|] == sub || Includes(s[1..], sub)
  }

  /** `sub` occurs in `s` starting at position `i`. */
  predicate OccursAt(s: string, sub: string, i: int) {
    0 <= i <= |s| - |sub| && s[i..i + |sub|] == sub
  }

  /** `Includes` agrees with the positional definition of a substring. */
  lemma {:induction false} IncludesIffOccurs(s: string, sub: string)
    ensures Includes(s, sub) <==> exists i :: OccursAt(s, sub, i)
    decreases |s|
  {
    if |s| < |sub| {
    } else if s[..|sub|] == sub {
      assert OccursAt(s, sub, 0);
    } else {
      IncludesIffOccurs(s[1..], sub);
      assert !OccursAt(s, sub, 0) by {
        assert s[0..0 + |sub|] == s[..|sub|];
      }
      forall i | 0 < i <= |s| - |sub| ensures OccursAt(s, sub, i) <==> OccursAt(s[1..], sub, i - 1) {
        var here, there := s[i..i + |sub|], s[1..][i - 1..i - 1 + |sub|];
        assert |here| == |there|;
        assert forall j :: 0 <= j < |here| ==> here[j] == s[i + j] == there[j];
        assert here == there;
      }
      if Includes(s[1..], sub) {
        var i :| OccursAt(s[1..], sub, i);
        assert OccursAt(s, sub, i + 1);
      }
      if exists i :: OccursAt(s, sub, i) {
        var i :| OccursAt(s, sub, i);
        assert i > 0;
        assert OccursAt(s[1..], sub, i - 1);
      }
    }
  }

  /** The decimal digit character for `d`. */
  function DigitChar(d: nat): (c: char)
    requires d < 10
    ensures IsDigit(c)
  {
    ['0', '1', '2', '3', '4', '5', '6', '7', '8', '9'][d]
  }

  /** The numeric value of a digit character. */
  function DigitValue(c: char): (d: nat)
    requires IsDigit(c)
    ensures d < 10
  {
    (c as int) - ('0' as int)
  }

  lemma DigitRoundTrip(d: nat)
    requires d < 10
    ensures DigitValue(DigitChar(d)) == d
  {
  }

  /** True iff every character of `s` is a decimal digit. */
  predicate AllDigits(s: string) {
    forall i :: 0 <= i < |s| ==> IsDigit(s[i])
  }

  /** The value of a digit string read in base ten (the empty string reads as 0). */
  function DigitsValue(s: string): nat
    requires AllDigits(s)
  {
    if |s| == 0 then 0 else DigitsValue(s[..|s| - 1]) * 10 + DigitValue(s[|s| - 1])
  }

  /** `n.toString()` for a natural number: its decimal digits, without leading zeros. */
  function NatToString(n: nat): (r: string)
    ensures |r| >= 1 && AllDigits(r)
    ensures |r| > 1 ==> r[0] != '0'
  {
    if n < 10 then [DigitChar(n)] else NatToString(n / 10) + [DigitChar(n % 10)]
  }

  /** Reading back the decimal digits of `n` gives `n`. */
  lemma {:induction false} NatToStringRoundTrip(n: nat)
    ensures DigitsValue(NatToString(n)) == n
  {
    var r := NatToString(n);
    if n < 10 {
      DigitRoundTrip(n);
    } else {
      NatToStringRoundTrip(n / 10);
      assert r[..|r| - 1] == NatToString(n / 10);
      DigitRoundTrip(n % 10);
    }
  }

  /** Leading zeros do not change the value of a digit string. */
  lemma {:induction false} LeadingZerosValue(zeros: string, s: string)
    requires forall i :: 0 <= i < |zeros| ==> zeros[i] == '0'
    requires AllDigits(s)
    ensures AllDigits(zeros + s)
    ensures DigitsValue(zeros + s) == DigitsValue(s)
    decreases |s|
  {
    var t := zeros + s;
    if |s| == 0 {
      assert t == zeros;
      AllZerosValue(zeros);
    } else {
      assert t[..|t| - 1] == zeros + s[..|s| - 1];
      LeadingZerosValue(zeros, s[..|s| - 1]);
    }
  }

  lemma {:induction false} AllZerosValue(zeros: string)
    requires forall i :: 0 <= i < |zeros| ==> zeros[i] == '0'
    ensures AllDigits(zeros) && DigitsValue(zeros) == 0
  {
    if |zeros| > 0 {
      AllZerosValue(zeros[..|zeros| - 1]);
    }
  }

  /** `n` copies of `c`. */
  function Repeat(c: char, n: nat): (r: string)
    ensures |r| == n
    ensures forall i :: 0 <= i < n ==> r[i] == c
  {
    if n == 0 then [] else [c] + Repeat(c, n - 1)
  }

  /** `s.padStart(width, fill)`: `s` preceded by enough copies of `fill` to reach `width`. */
  function PadStart(s: string, width: nat, fill: char): (r: string)
    ensures |r| == if |s| >= width then |s| else width
    ensures r[|r| - |s|..] == s
    ensures forall i :: 0 <= i < |r| - |s| ==> r[i] == fill
  {
    var fills := Repeat(fill, if |s| >= width then 0 else width - |s|);
    assert (fills + s)[|fills|..] == s;
    fills + s
  }

  // ---------------------------------------------------------------------
  // String length as JavaScript reports it

  /** True iff the character needs a surrogate pair in UTF-16 (it lies above U+FFFF). */
  predicate IsAstral(c: char) {
    c as int > 0xFFFF
  }

  /** The number of UTF-16 code units of `s` (`s.length`): two for an astral character, one for any other. */
  function Utf16Length(s: string): (r: nat)
    ensures |s| <= r <= 2 * |s|
    ensures r == |s| <==> forall i :: 0 <= i < |s| ==> !IsAstral(s[i])
    decreases |s|
  {
    if |s| == 0 then 0
    else
      var rest := Utf16Length(s[1..]);
      assert forall i :: 1 <= i < |s| ==> s[i] == s[1..][i - 1];
      (if IsAstral(s[0]) then 2 else 1) + rest
  }

  /** The code units of a concatenation are those of its parts. */
  lemma {:induction false} Utf16LengthAppend(a: string, b: string)
    ensures Utf16Length(a + b) == Utf16Length(a) + Utf16Length(b)
    decreases |a|
  {
    if |a| == 0 {
      assert a + b == b;
    } else {
      assert (a + b)[0] == a[0];
      assert (a + b)[1..] == a[1..] + b;
      Utf16LengthAppend(a[1..], b);
    }
  }
}

=== FILE: wrappers.dfy ===
/** Failure-compatible result types shared by every module of the model. */
module Wrappers {

  /** A value that may be absent: JavaScript's `undefined`/`null` next to a present value. */
  datatype Option<+T> = None | Some(value: T) {

    /** Returns the present value, or `default` when absent. */
    function GetOr(default: T): T {
      match this
      case Some(v) => v
      case None => default
    }
  }

  /** The outcome of an operation that either yields a value or throws an error. */
  datatype Result<+R, +E> = Success(value: R) | Failure(error: E) {

    predicate IsFailure() {
      Failure?
    }

    function PropagateFailure<U>(): Result<U, E>
      requires Failure?
    {
      Failure(error)
    }

    function Extract(): R
      requires Success?
    {
      value
    }
  }
}
